=== FILE: README.md ===
# kyla: a Dafny model of the repository pipeline

kyla is an installer toolkit built around *file repositories*: a set of
named file sets, each a list of files, whose contents are stored once per
distinct content (a *content object*, named by its SHA-256 hash) and
indexed by an SQLite database. This project models its pure core and
proves what that core promises:

- **Manifest builder** (`scripts/kyla.py`): the `FileRepositoryBuilder`
  and `FileSetBuilder` classes that write the `FileRepository` XML
  descriptor. This covers `Property` and `FileSet` elements, UUID ids in
  upper-case canonical form, and walked directories becoming
  `File Source=` entries.
- **Repository builder** (`src/base/src/RepositoryBuilder.cpp`):
  - reading the descriptor into file sets;
  - hashing the files;
  - merging files with equal hashes into content objects;
  - the `file_sets`, `content_objects`, `files` and `storage_mapping`
    rows;
  - choosing the loose or packed builder, and the packed `data.kypkg`
    layout.
- **Repositories** (`src/Core/src/Repository.cpp`):
  - `Validate` and `Repair` of loose and deployed repositories;
  - deploying file sets with `DeployedRepository::CreateFrom`;
  - `OpenRepository`.
- **Installer helpers** (`src/Core/src/Installer.cpp`):
  - the installation environment;
  - `Join` and the three SQL query builders;
  - staging content objects;
  - the per-file deploy decisions, including the malformed and NULL hash
    rules.
- **View types** (`src/base/inc/ArrayRef.h`, `src/base/inc/StringRef.h`):
  pointer/count views over a buffer, with their constructors, sizes,
  emptiness and slices.

The outside world is modelled as data:

- The file system is a map from path to bytes.
- SHA-256 is an uninterpreted function parameter `sha`.
- The other repository of a repair or a deployment is a function `fetch`
  from hash to bytes.
- `Uuid::Parse`, `uuid.uuid4()` and `Uuid::CreateRandom()` become given
  values or parameters.
- `os.walk` becomes a given sequence of entries.
- Database tables are sequences of rows whose ids count up from 1.
- XML documents are an immutable element tree.

Every module is one file:

- `wrappers`, `seqs`, `sorting`: shared vocabulary.
- `text`, `uuid`, `digests`, `paths`, `xml`: the encodings and path
  rules the source relies on.
- `manifest`: the Python builder.
- `build_input`, `content_objects`, `build_database`, `package`, `build`:
  the repository builder.
- `validation`, `repair`, `deploy`: the repositories.
- `installer`: the installer helpers.
- `array_ref`, `string_ref`: the view types.

## Model

| member | source | states |
|---|---|---|
| Manifest.IdString | scripts/kyla.py:10-14 | A UUID id becomes 36 characters of text; any other id is returned unchanged |
| Manifest.IdStringOfUuid | scripts/kyla.py:10-14 | A UUID is written in upper-case canonical form and parses back to the same UUID |
| Manifest.IdStringInjectiveOnUuids | scripts/kyla.py:10-14 | Two UUIDs are written the same only if they are the same UUID |
| Manifest.NewBuilder | scripts/kyla.py:24-26 | A new builder holds an empty `Properties` element and no file sets; name and version are ignored |
| Manifest.PackageTypeProperty | scripts/kyla.py:29-31 | The created element is a `Property` with `Name="PackageType"` and `Value` equal to the type's name, and has no `SourcePackage` |
| Manifest.SetPackageType | scripts/kyla.py:28-31 | Exactly one `Property` is appended after the existing children; the file sets and the element's own attributes are untouched |
| Manifest.SetPackageTypesAppends | scripts/kyla.py:28-31 | Repeated calls append one `Property` per call, in call order, so a repeated type appears repeatedly |
| Manifest.SetPackageTypesValue | scripts/kyla.py:28-31 | The `k`-th appended `Property` carries the name of the `k`-th type passed |
| Manifest.SetPackageTypes | scripts/kyla.py:28-31 | Calling `SetPackageType` once per type keeps the file sets, the element's tag and attributes and its earlier children, and adds one child per call |
| Manifest.NewFileSet | scripts/kyla.py:34-40 | Succeeds exactly when a name is given and both the name and the id text hold only characters XML can carry; a missing name is the `TypeError` and an illegal character lxml's `ValueError`; the `FileSet` element gets that `Name`, and its `Id` is `_IdString` of the given id or of the generated UUID |
| Manifest.UuidIdAccepted | scripts/kyla.py:34-40 | With a UUID id, given or generated, a file set is refused only for its name |
| Manifest.UuidTextAccepted | scripts/kyla.py:10-14 | The upper-case canonical text of any UUID holds only characters XML can carry |
| Manifest.FileSetElement | scripts/kyla.py:38-40 | The element is a childless `FileSet` carrying the given `Name` and `Id` and no `SourcePackage` |
| Manifest.SetSourcePackage | scripts/kyla.py:42-43 | The element's attributes and children are unchanged, so no `SourcePackage` attribute is added |
| Manifest.FileElement | scripts/kyla.py:50-51 | A childless `File` element whose `Source` is the given path |
| Manifest.AddFilesFromDirectory | scripts/kyla.py:45-51 | Fails with lxml's `ValueError` exactly when some walked `Source` holds a character XML cannot carry; otherwise appends as many `File` children as the walk has files, after the existing children, keeping the tag and attributes |
| Manifest.AddFilesFromDirectoryPlacesEachFile | scripts/kyla.py:45-51 | When the call succeeds, file `j` of walk entry `i` lands after the files of the earlier entries, with `Source = join(prefix, relative dir, name)` |
| Manifest.RelativeDirRecoversSubpath | scripts/kyla.py:46-47 | The corrected relative directory is empty for the base itself and recovers the subdirectory, with or without a trailing separator on the base |
| Manifest.RelativeDirAsWrittenAgrees | scripts/kyla.py:47 | For a base without a trailing separator, the slice as written equals the corrected relative directory |
| Manifest.RelativeDirAsWrittenDropsFirstCharacter | scripts/kyla.py:47 | For the base `data/`, the slice as written turns subdirectory `ab` into `b` |
| Manifest.RelativeDirAsWritten | scripts/kyla.py:47 | The slice is a suffix of the walked directory, `len(baseDirectory) + 1` characters shorter, and empty when the directory is no longer than the base plus one character |
| Manifest.AddFileSet | scripts/kyla.py:56-62 | Succeeds exactly when a name is given and the name and id text hold only characters XML can carry; the new file set is appended at the end, its position is the handle, and the properties are untouched |
| Manifest.AddFileSetsSucceeds | scripts/kyla.py:56-62 | A run of `AddFileSet` calls succeeds exactly when every call names its file set and every name and id text holds only characters XML can carry |
| Manifest.RequestedAllAt | scripts/kyla.py:56-62 | When every request is accepted, entry `k` of the run is the file set built from request `k` |
| Manifest.AddFileSetsAppends | scripts/kyla.py:56-62 | A successful run appends one file set per call, in call order, and keeps the properties |
| Manifest.UpdateFileSet | scripts/kyla.py:60-62 | Changing the file set behind a handle replaces that one file set and nothing else |
| Manifest.FileRepositoryTree | scripts/kyla.py:67-72 | The root `FileRepository` has exactly two children: `Properties`, then `FileSets` holding the file sets in list order |
| Manifest.Finalize | scripts/kyla.py:64-81 | The compact text starts with the `encoding="UTF-8"` declaration and the pretty one with minidom's `<?xml version="1.0" ?>` line; the compact text of a writable tree, and the pretty text of a writable tree without text content, read back as that tree |
| Manifest.FinalizedScriptReadsBack | scripts/kyla.py:24-81 | Whatever sequence of builder calls a script makes without an exception (a name or `Source` with a character XML cannot carry raises in `set`), the text `Finalize` returns, pretty or compact, reads back as the `FileRepository` tree of the builder: the properties and the file sets in call order, with every attribute value |
| Manifest.RunKeepsReadable | scripts/kyla.py:24-62 | Every successful sequence of builder calls keeps every element writable and free of text content |
| Manifest.ApplyKeepsReadable | scripts/kyla.py:28-62 | The same, for one builder call |
| Manifest.FileSetsInCallOrder | scripts/kyla.py:56-72 | `Finalize` lists the file sets in `AddFileSet` call order, each with the name and id it was given or generated |
| Manifest.ApplyKeepsNoSourcePackage | scripts/kyla.py:42-62 | No builder operation introduces a `SourcePackage` attribute on a file set |
| Manifest.RunKeepsNoSourcePackage | scripts/kyla.py:42-62 | Any successful sequence of builder operations keeps every file set free of `SourcePackage` |
| Manifest.NoSourcePackageEverAppears | scripts/kyla.py:42-81 | Every `FileSet` in a finalized document of a new builder lacks `SourcePackage`, whatever the script called |
| Manifest.NewBuilderHasNoSourcePackage | scripts/kyla.py:24-26 | A new builder has no `SourcePackage` attribute anywhere |
| Uuids.CanonicalText | scripts/kyla.py:12 | `str(uuid)` is 36 characters long |
| Uuids.UpperCanonicalForm | scripts/kyla.py:12 | Upper-casing `str(uuid)` gives 8-4-4-4-12 upper-case hex digits with hyphens |
| Uuids.ParseCanonicalRoundTrip | scripts/kyla.py:12 | Canonical text, lower- or upper-case, parses back to the UUID it was made from |
| Uuids.ParseGroups | scripts/kyla.py:12 | Text laid out as five hyphen-separated hex groups parses to the bytes those groups encode |
| Uuids.UpperGroups | scripts/kyla.py:12 | Upper-casing acts group by group and keeps the hyphens |
| Text.Upper | scripts/kyla.py:12 | `str.upper` keeps the length and upper-cases each character |
| Xml.NewElement | scripts/kyla.py:25 | A new element has the tag and no attributes, text or children |
| Xml.Set | scripts/kyla.py:39-40 | lxml's `set` succeeds exactly when the value holds only characters XML 1.0 can carry, and raises `ValueError` otherwise; on success the attribute has the value |
| Xml.SetRefusesNonXml | scripts/kyla.py:39-40 | `set` refuses a NUL and U+FFFE and accepts a tab |
| Xml.SetAttr | scripts/kyla.py:30-31 | After an accepted `set`, the attribute has the value; an existing attribute keeps its place, and a new one is appended |
| Xml.SetAttrKeepsOthers | scripts/kyla.py:30-31 | Setting one attribute leaves every other attribute's value as it was |
| Xml.GetAttrNone | scripts/kyla.py:39-40 | An attribute is absent exactly when no attribute has its name |
| Xml.SetAttrKeepsNamesUnique | scripts/kyla.py:39-40 | Setting an attribute never creates a second attribute of the same name |
| Xml.AppendChild | scripts/kyla.py:29 | The child is appended after the existing children; tag, attributes and text are unchanged |
| Xml.ChildrenNamed | src/base/src/RepositoryBuilder.cpp:85 | `children("File")` yields exactly the children with that tag: only such children, and every one of them |
| Xml.Named | src/base/src/RepositoryBuilder.cpp:85 | Filtering by tag keeps exactly the elements with that tag and never grows the list |
| Xml.NamedAppend | src/base/src/RepositoryBuilder.cpp:85 | Filtering distributes over concatenation, so document order is kept |
| Xml.NamedAt | src/base/src/RepositoryBuilder.cpp:85 | An element with the tag appears in the filtered list right after the matching elements before it |
| Xml.Nodes | src/base/src/RepositoryBuilder.cpp:79 | The node list of a forest contains every element of it, paired with its parent's tag |
| Xml.NodesClosed | src/base/src/RepositoryBuilder.cpp:79 | Every child of a listed element is listed too, paired with that element's tag, so the list is closed under descent |
| Xml.SelectTag | src/base/src/RepositoryBuilder.cpp:79 | `//tag` yields only elements with that tag, and every node with that tag |
| Xml.SelectChildPath | src/base/src/RepositoryBuilder.cpp:457 | `//Package/Type` yields only `Type` elements, and every `Type` whose parent is a `Package` |
| Xml.EscapeAttr | scripts/kyla.py:75 | Escaped attribute text contains no `"`, no `<`, and no raw line feed, carriage return or tab, which lxml writes as `&#10;`, `&#13;` and `&#9;` |
| Xml.EscapeChar | scripts/kyla.py:75 | A character is replaced by a reference exactly when it is not written as itself, and no reference contains a character that needs escaping |
| Xml.EscapeRoundTrip | scripts/kyla.py:75 | Escaped attribute text reads back as the original value |
| Xml.AttrWhitespaceClears | src/base/src/RepositoryBuilder.cpp:446 | `load_file` with default options leaves no raw tab, line feed or carriage return in an attribute value, and changes every value that held one (`Xml.AttrWhitespace`, which never lengthens the value) |
| Xml.AttrWhitespaceKeeps | src/base/src/RepositoryBuilder.cpp:446 | A value without raw tabs, line feeds or carriage returns is read unconverted |
| Xml.Serialize | scripts/kyla.py:75 | The serialization begins with `<` followed by the element's tag |
| Xml.ParseSerialized | scripts/kyla.py:75 | A writable element's compact serialization, followed by any text, reads back as that element and leaves the text |
| Xml.SerializeInjective | scripts/kyla.py:75 | Different writable elements have different serializations |
| Xml.CompactDocumentReadsBack | scripts/kyla.py:74-75 | A declaration followed by a writable root's serialization reads back as the root |
| Xml.Pretty | scripts/kyla.py:78-79 | The pretty rendering begins with `<` followed by the element's tag |
| Xml.ParsePretty | scripts/kyla.py:78-79 | A writable element without text content, pretty-printed at any whitespace indent, reads back as that element |
| Xml.PrettyDocumentReadsBack | scripts/kyla.py:78-79 | A pretty document of a writable root without text content reads back as the root |
| BuildInput.ReadFile | src/base/src/RepositoryBuilder.cpp:86-93 | `source` is the `Source` attribute (empty when absent); `target` is the `Target` attribute when present, even if empty, and the source otherwise |
| BuildInput.ReadFileWithoutTarget | src/base/src/RepositoryBuilder.cpp:89-93 | A `File` with only a `Source` is installed at its source path |
| BuildInput.ReadFileWithTarget | src/base/src/RepositoryBuilder.cpp:89-90 | A `File` with both attributes keeps source and target apart |
| BuildInput.ReadFileSet | src/base/src/RepositoryBuilder.cpp:80-100 | Name and parsed id come from the attributes, with one file per `File` child in document order |
| BuildInput.GetFileSets | src/base/src/RepositoryBuilder.cpp:72-104 | One file set per `FileSet` element anywhere in the document, in document order |
| BuildInput.HashFile | src/base/src/RepositoryBuilder.cpp:112 | Succeeds exactly when `sourceDirectory / source` exists, and then the hash is that file's SHA-256 |
| BuildInput.HashAll | src/base/src/RepositoryBuilder.cpp:111-113 | Succeeds exactly when every source exists; file `j` then keeps its paths and gets its source's hash |
| BuildInput.HashAllCopy | src/base/src/RepositoryBuilder.cpp:110-114 | A successfully hashed file list makes a hashed copy of its file set |
| BuildInput.HashFiles | src/base/src/RepositoryBuilder.cpp:107-115 | Succeeds exactly when every source of every file set exists; each file set keeps its name, id, sources and targets, and each file gets its hash |
| ContentObjects.WithHash | src/base/src/RepositoryBuilder.cpp:141 | Selects only files with the given hash and never more files than there are |
| ContentObjects.Group | src/base/src/RepositoryBuilder.cpp:135-143 | Each distinct hash is a key once, in first-seen order, and its group is exactly the files with that hash in encounter order |
| ContentObjects.GroupFacts | src/base/src/RepositoryBuilder.cpp:138-148 | The keys are distinct, every key's group is non-empty, and every file's hash is a key |
| ContentObjects.KeyHasFiles | src/base/src/RepositoryBuilder.cpp:141 | A hash met among the files selects at least one file |
| ContentObjects.Objects | src/base/src/RepositoryBuilder.cpp:148-161 | Succeeds exactly when each group's first source exists; object `k` has key `k`'s hash, the first file's source under the source directory, its size, and the targets of the group |
| ContentObjects.ObjectsOutcome | src/base/src/RepositoryBuilder.cpp:152-154 | The objects loop succeeds exactly when the first source of every distinct content can be found |
| ContentObjects.FindUniqueFileContentsOutcome | src/base/src/RepositoryBuilder.cpp:132-164 | Merging succeeds exactly when every content's first source can be found, in particular whenever all sources can |
| ContentObjects.FindUniqueFileContentsGroups | src/base/src/RepositoryBuilder.cpp:132-164 | Exactly one object per distinct hash; its duplicates are the targets of all files with that hash in encounter order; its source is the first such file's source |
| ContentObjects.ObjectSource | src/base/src/RepositoryBuilder.cpp:151-154 | An object's source file is the source of a file with the object's hash, it exists, and the size is that file's size |
| ContentObjects.ObjectsSource | src/base/src/RepositoryBuilder.cpp:148-154 | The same at the level of one grouping |
| ContentObjects.DuplicateIsTarget | src/base/src/RepositoryBuilder.cpp:156-158 | Each duplicate of an object is the target of some file with the object's hash |
| ContentObjects.CountWithHashesDedup | src/base/src/RepositoryBuilder.cpp:138-143 | Over the distinct hashes, each file is counted exactly once |
| ContentObjects.TotalDuplicatesIsFileCount | src/base/src/RepositoryBuilder.cpp:138-158 | The duplicate lists together are exactly as long as the list of all files |
| BuildDatabase.LastSetWith | src/base/src/RepositoryBuilder.cpp:220-232 | The index found contains the target, and no later file set does; -1 when none does |
| BuildDatabase.AssignAll | src/base/src/RepositoryBuilder.cpp:229-231 | After one set's assignments, its targets map to its id, and every other key keeps its old value |
| BuildDatabase.PopulateFileSets | src/base/src/RepositoryBuilder.cpp:211-237 | One row per file set with ids counting up; a path is mapped exactly when some set installs it, to the id of the last such set |
| BuildDatabase.EveryTargetHasFileSet | src/base/src/RepositoryBuilder.cpp:229-231 | Every file's target is a key of the target-to-file-set map |
| BuildDatabase.ContentObjectRows | src/base/src/RepositoryBuilder.cpp:251-258 | One `content_objects` row per object with its hash and size; the ids are distinct, increase by one from row to row, and lie in `[firstId, firstId + count)` |
| BuildDatabase.FileRowsOf | src/base/src/RepositoryBuilder.cpp:260-269 | The rows' paths are exactly the duplicates, in order; each row carries the object's id and its path's file-set id |
| BuildDatabase.FileRows | src/base/src/RepositoryBuilder.cpp:251-270 | There is one `files` row per duplicate over all objects |
| BuildDatabase.FileRowsAt | src/base/src/RepositoryBuilder.cpp:251-270 | The row of duplicate `j` of object `i` comes after all rows of the earlier objects, with that path, object id and file-set id |
| BuildDatabase.FileRowsFrom | src/base/src/RepositoryBuilder.cpp:251-270 | Every row is the row of some duplicate of some object, so the rows hold nothing else |
| BuildDatabase.DuplicatesHaveFileSets | src/base/src/RepositoryBuilder.cpp:261 | The lookup `fileToFileSetId.find(reference)` never misses for a build's duplicates |
| BuildDatabase.DuplicateHasFileSet | src/base/src/RepositoryBuilder.cpp:261 | The same, for one duplicate |
| BuildDatabase.EveryFileHasRow | src/base/src/RepositoryBuilder.cpp:251-270 | Every file gets a `files` row at its target, with the id of the object holding its hash and the id of the last file set installing that target |
| BuildDatabase.ObjectOfFile | src/base/src/RepositoryBuilder.cpp:141-158 | Some object holds a file's hash, and its duplicates are the targets of the files with that hash |
| BuildDatabase.WithHashPosition | src/base/src/RepositoryBuilder.cpp:141 | Every file appears in the group of its own hash |
| BuildDatabase.LooseCopiesDistinct | src/base/src/RepositoryBuilder.cpp:273-274 | Objects with different hashes are copied to different files, so no copy overwrites another |
| BuildDatabase.LooseObjectPathInjective | src/base/src/RepositoryBuilder.cpp:274 | Different digests are stored under different paths |
| BuildDatabase.AppendInjective | src/base/src/RepositoryBuilder.cpp:274 | Appending different relative names to one directory gives different paths |
| Package.LittleEndian64 | src/base/src/RepositoryBuilder.cpp:365 | An unsigned 64-bit value is stored in 8 bytes |
| Package.LittleEndianRoundTrip | src/base/src/RepositoryBuilder.cpp:365-373 | Little-endian bytes read back as the value written, when it fits |
| Package.HeaderBytes | src/base/src/RepositoryBuilder.cpp:362-375 | The header is 64 bytes |
| Package.HeaderLayout | src/base/src/RepositoryBuilder.cpp:368-374 | The header is `"KYLAPKG\0"`, then version `0x0001000000000000`, then 48 zero bytes |
| Package.Pack | src/base/src/RepositoryBuilder.cpp:392-425 | One mapping row per object; the package is the header plus all object bytes |
| Package.PackHeader | src/base/src/RepositoryBuilder.cpp:377-380 | The package starts with the header, whatever follows |
| Package.PackMapping | src/base/src/RepositoryBuilder.cpp:414-423 | Row `i` names object `i` and the package, starts after the header and every earlier object, spans the object, and has `SourceOffset` 0 |
| Package.PackExtract | src/base/src/RepositoryBuilder.cpp:414-418 | Reading an object back through its mapping row gives exactly the bytes copied in |
| Package.PackContiguous | src/base/src/RepositoryBuilder.cpp:414-418 | The first object starts right after the header, each starts where the previous one ends, and the last ends at the end of the package |
| Package.PackDisjoint | src/base/src/RepositoryBuilder.cpp:414-418 | The ranges of different objects do not overlap |
| Build.SelectBuilder | src/base/src/RepositoryBuilder.cpp:457-474 | Loose exactly when the first `//Package/Type` text is `Loose`, packed exactly when it is `Packed`; otherwise "Package type not specified" |
| Build.BuildLoose | src/base/src/RepositoryBuilder.cpp:182-208 | The database goes to `.ky/repository.db`; object `i` is written to `.ky/objects/<hash>` with its source's bytes; there are no package or mapping rows |
| Build.BuildPacked | src/base/src/RepositoryBuilder.cpp:287-310 | The database goes to `repository.db`; one `source_packages` row for `data.kypkg`; one file written; one mapping row per object |
| Build.BuildRepositoryOutcome | src/base/src/RepositoryBuilder.cpp:434-475 | A build succeeds exactly when the descriptor parses, every source can be hashed and the type is `Loose` or `Packed`; otherwise the error names the first failing step |
| Build.BuildSteps | src/base/src/RepositoryBuilder.cpp:451-470 | A successful build is the chosen builder applied to the hashed file sets and their content objects, writing the file-set, content-object and file rows |
| Build.HashedSourcesFound | src/base/src/RepositoryBuilder.cpp:107-115 | After hashing, every file's source exists and its hash is the hash of that source |
| Build.HashedObjectsMatch | src/base/src/RepositoryBuilder.cpp:132-164 | Merging hashed files never fails, and every object's source exists and hashes to the object's hash |
| Build.HashedObjectMatches | src/base/src/RepositoryBuilder.cpp:151-154 | For one object: the source exists, hashes to the object's hash, and has the object's size |
| Build.PackedBuildRecoversObjects | src/base/src/RepositoryBuilder.cpp:382-425 | In a packed build, mapping row `i` belongs to object row `i` and the package, and the package bytes it points at have the object's size and hash |
| Build.LooseBuildStoresObjects | src/base/src/RepositoryBuilder.cpp:251-275 | In a loose build, each object is stored under its hash's text with bytes of the recorded size and hash, and no two objects share a file |
| Build.AllFilesOrigin | src/base/src/RepositoryBuilder.cpp:138-143 | Every entry of the flattened file list is some file of some file set |
| Build.AllFilesIndex | src/base/src/RepositoryBuilder.cpp:138-143 | Every file of every file set appears in the flattened file list |
| Build.LastSetWithSameTargets | src/base/src/RepositoryBuilder.cpp:229-231 | File sets with the same targets agree on the last set that installs a path |
| Build.HashingKeepsTargets | src/base/src/RepositoryBuilder.cpp:110-114 | Hashing keeps every file set's targets |
| Build.HashedFile | src/base/src/RepositoryBuilder.cpp:111-113 | A hashed file keeps its source and target and carries its source's hash |
| Build.FileSetRowOfFile | src/base/src/RepositoryBuilder.cpp:220-232 | A file's target maps to the `file_sets` row of the last set installing it, and its hashed copy is in the flattened list |
| Build.RowsRecordFile | src/base/src/RepositoryBuilder.cpp:220-270 | Every file of the descriptor gets a `files` row at its target, pointing to the object with its source's hash and to the last set installing that target |
| Build.BuildRecordsEveryFile | src/base/src/RepositoryBuilder.cpp:434-475 | The same, for the database of a successful build |
| Digests.DigestText | src/Core/src/Repository.cpp:94-95 | A digest's name has two characters per byte |
| Digests.DigestTextInjective | src/Core/src/Repository.cpp:94-95 | Different digests have different names, so content objects never share a file |
| Digests.DigestTextIsRelative | src/Core/src/Repository.cpp:94-95 | A digest's name contains no separator |
| Text.Hex | src/Core/src/Repository.cpp:94-95 | Two characters per byte |
| Text.HexDigitsOnly | src/Core/src/Repository.cpp:94-95 | Hash names consist of lower-case hex digits only |
| Text.HexRoundTrip | src/Core/src/Repository.cpp:94-95 | Hex text, lower- or upper-case, decodes back to the bytes it was made from |
| Text.HexInjective | src/Core/src/Repository.cpp:94-95 | Distinct byte strings have distinct hex texts |
| Paths.Append | src/Core/src/Repository.cpp:94-95 | Appending an empty path changes nothing, and appending to an empty path gives the other path |
| Paths.AppendParts | src/Core/src/Repository.cpp:94-95 | `a / b` starts with `a` and ends with `b`, and one separator is inserted exactly when both are non-empty and neither supplies one |
| Paths.ParentPathParts | src/Core/src/Repository.cpp:479 | `parent_path` is empty exactly when there is no separator; otherwise it is the root, or the text before a separator that no other separator follows |
| Paths.PyJoin2Parts | scripts/kyla.py:51 | `os.path.join(path, b)` is `b` when `b` is absolute; otherwise `path`, one separator exactly when `path` is non-empty without a trailing one, then `b` |
| Paths.PyJoinEnds | scripts/kyla.py:51 | `os.path.join(parts...)` ends with its last part, is that part when it is absolute, and starts with the first part when no later part is absolute |
| Paths.LastSep | src/Core/src/Repository.cpp:479 | The index found holds a separator and none follows; no index means there is no separator |
| Paths.ParentOfAppend | src/Core/src/Repository.cpp:479 | The parent of `dir / name` is `dir` for a plain file name |
| Paths.PyJoin3 | scripts/kyla.py:51 | `os.path.join(a, b, c)` drops empty leading parts and puts one separator between the others |
| Validation.Classify | src/Core/src/Repository.cpp:132-166 | Missing exactly when the file does not exist; Ok only when the size matches and, for a non-empty object, the hash matches |
| Validation.ClassifyIntact | src/Core/src/Repository.cpp:146-166 | A file holding exactly the recorded content is Ok |
| Validation.ClassifyCorrupted | src/Core/src/Repository.cpp:146-162 | An existing file is Corrupted exactly when its size differs, or it is non-empty and its hash differs |
| Validation.ClassifyEmptyShortcut | src/Core/src/Repository.cpp:154-156 | An existing empty file recorded as empty is Ok whatever its recorded hash |
| Validation.ValidateLoose | src/Core/src/Repository.cpp:107-168 | One report per `content_objects` row, in size order, about the file `.ky/objects/<hash>` |
| Validation.ValidateLooseCoversRows | src/Core/src/Repository.cpp:113-124 | Every row is reported, and every report is about a row |
| Validation.ValidateDeployed | src/Core/src/Repository.cpp:281-338 | One report per installed file, in size order, about `root / path` |
| Validation.ValidateDeployedCoversRows | src/Core/src/Repository.cpp:287-299 | Every installed file is reported, and every report is about one |
| Sorting.InsertBy | src/Core/src/Repository.cpp:113-116 | Inserting keeps the rows sorted and adds exactly the new row |
| Sorting.SortBy | src/Core/src/Repository.cpp:113-116 | `ORDER BY Size` yields the rows sorted by size, as a permutation of the table |
| Sorting.SortByMembers | src/Core/src/Repository.cpp:287-291 | Every row appears in the ordered result, and nothing else does |
| Repair.NotOkHashes | src/Core/src/Repository.cpp:180-185 | Contains the hash of every report that is not Ok, and only such hashes |
| Repair.NotOkHashesAllOk | src/Core/src/Repository.cpp:180-185 | When everything is intact, nothing is requested |
| Repair.ApplyWritesUnwritten | src/Core/src/Repository.cpp:189-197 | A path no write names keeps its content, or its absence |
| Repair.ApplyWritesConsistent | src/Core/src/Repository.cpp:189-197 | A path that is written, always with the same bytes, holds those bytes |
| Repair.RepairLoose | src/Core/src/Repository.cpp:170-199 | A hash is requested exactly when some report on it is not Ok; every write goes to `.ky/objects/<hash>` of a requested hash with the bytes sent for it; and every not-Ok report's object path is written with those bytes |
| Repair.LooseRepairRestores | src/Core/src/Repository.cpp:170-199 | When the other repository serves correct content, the repaired loose repository validates Ok everywhere |
| Repair.LooseRepairRestoresAt | src/Core/src/Repository.cpp:170-199 | The same, for one report |
| Repair.LooseRepairWritesEveryObject | src/Core/src/Repository.cpp:180-197 | Every object reported not intact is written with the bytes sent for its hash |
| Repair.NotOkEntries | src/Core/src/Repository.cpp:354-365 | Contains the hash and path of every report that is not Ok, and only such pairs |
| Repair.PathsFor | src/Core/src/Repository.cpp:367-370 | `equal_range(hash)` yields exactly the paths recorded with that hash |
| Repair.FanOut | src/Core/src/Repository.cpp:367-381 | Every write puts a requested hash's bytes at a path recorded with that hash |
| Repair.FanOutCovers | src/Core/src/Repository.cpp:367-381 | Every recorded (hash, path) pair whose hash is requested is written |
| Repair.RepairDeployed | src/Core/src/Repository.cpp:340-382 | Each not-Ok hash is requested exactly once, and nothing else is requested |
| Repair.RepairDeployedFirstSeen | src/Core/src/Repository.cpp:354-365 | The hashes are requested in the order they are first reported not intact |
| Repair.RepairDeployedWritesEveryPath | src/Core/src/Repository.cpp:354-381 | Every file reported not intact is written with the bytes sent for its hash |
| Repair.DeployedWriteOrigin | src/Core/src/Repository.cpp:367-381 | Every write puts a file's hash's bytes at that file's path |
| Repair.DeployedRepairRestores | src/Core/src/Repository.cpp:340-382 | When the other repository serves correct content and each path has one hash, the repaired deployed repository validates Ok everywhere |
| Repair.DeployedRepairRestoresAt | src/Core/src/Repository.cpp:340-382 | The same, for one report |
| Seqs.IndexOf | src/Core/src/Repository.cpp:473-475 | The index found holds the element, and the element does not occur before it |
| Seqs.Dedup | src/Core/src/Repository.cpp:473-475 | Duplicate-free, containing exactly the elements of the input |
| Seqs.DedupSnoc | src/Core/src/Repository.cpp:473-477 | One more element is appended exactly when it has not been seen before |
| Seqs.DedupFirstSeenOrder | src/Core/src/Repository.cpp:473-475 | The deduplicated elements keep the order of their first occurrence |
| Deploy.Collect | src/Core/src/Repository.cpp:460-480 | The loop collects exactly the first-seen dedup of the hashes, all (hash, path) pairs, and the set of parent directories |
| Deploy.CollectStep | src/Core/src/Repository.cpp:473-479 | The multimap has a row's hash exactly when the dedup already contains it, so one step grows each collection by exactly that row's part |
| Deploy.DeployFileSet | src/Core/src/Repository.cpp:436-528 | The hashes requested for a file set are exactly its distinct hashes, in first-seen order |
| Deploy.DeployDirectories | src/Core/src/Repository.cpp:479-487 | The directories created are exactly the parents of the files, under the target |
| Deploy.DeployWritesEveryFile | src/Core/src/Repository.cpp:489-527 | Every file of the file set is written at `target / path` with the bytes sent for its hash |
| Deploy.DeployWriteOrigin | src/Core/src/Repository.cpp:489-527 | Every write is of some file of the file set, with its hash's bytes |
| Deploy.DeployedFilesIntact | src/Core/src/Repository.cpp:489-527 | After deploying, every file holds its object's bytes and validates Ok when those bytes hash to the recorded hash |
| Deploy.OpenRepository | src/Core/src/Repository.cpp:594-603 | Loose exactly when `path/.ky` exists, deployed otherwise |
| Deploy.OpenLooseBuild | src/Core/src/Repository.cpp:74-76 | A loose build opens as a loose repository, reading the database the builder wrote, with its objects where validation looks |
| Deploy.OpenDeployed | src/Core/src/Repository.cpp:270-273 | A directory without `.ky` opens as a deployed repository reading `k.db` |
| Deploy.OpenPackedBuild | src/Core/src/Repository.cpp:594-603 | A packed build has no `.ky`, so it opens as deployed and reads a `k.db` the builder never wrote |
| Installer.SelectFeatures | src/Core/src/Installer.cpp:26-35 | `GetSelectedFeatures` then returns exactly the ids given; the properties are unchanged |
| Installer.SelectFeaturesOverwrites | src/Core/src/Installer.cpp:26-29 | A later selection discards the earlier one |
| Installer.SetProperty | src/Core/src/Installer.cpp:38-53 | The property is then present with the value; every other name's presence and value, and the selection, stay as before |
| Installer.SetPropertyOverwrites | src/Core/src/Installer.cpp:38-41 | A later `SetProperty` of the same name overwrites the earlier one |
| Installer.JoinStream | src/Core/src/Installer.cpp:56-70 | The streaming loop produces the elements in order with the infix between consecutive ones |
| Installer.JoinEnds | src/Core/src/Installer.cpp:56-70 | No elements join to the empty text; otherwise the text starts with the first element and ends with the last |
| Installer.JoinLength | src/Core/src/Installer.cpp:56-70 | The joined text ends with the last element: its length is the elements' lengths plus one infix per gap |
| Installer.JoinElementAt | src/Core/src/Installer.cpp:61-62 | Element `i` appears at its offset, after every earlier element and one infix each |
| Installer.JoinInfixAt | src/Core/src/Installer.cpp:64-66 | Exactly the infix stands between element `i` and element `i + 1` |
| Installer.JoinEmpty | src/Core/src/Installer.cpp:56-70 | The joined text is empty exactly when there are no elements (for non-empty elements) |
| Installer.JoinHasSeparator | src/Core/src/Installer.cpp:64-66 | The separator occurs exactly when there are two or more elements, so no infix trails |
| Installer.JoinInjective | src/Core/src/Installer.cpp:56-70 | The element list can be read back from the joined text, for plain elements and a separator infix |
| Installer.FeatureListInjective | src/Core/src/Installer.cpp:80 | Different selections give different `Join(featureIds)` texts |
| Installer.InQuery | src/Core/src/Installer.cpp:73-108 | A query is the fixed prefix, then `Join(featureIds)`, then the fixed suffix, each recoverable by slicing |
| Installer.SourcePackagesQuery | src/Core/src/Installer.cpp:73-83 | The source-package query is its fixed `SELECT Filename ...` prefix, then `Join(featureIds)`, then `)) GROUP BY SourcePackageId);` |
| Installer.ContentObjectsQuery | src/Core/src/Installer.cpp:86-96 | The content-object query is its fixed `SELECT Hash, ChunkCount, Size, LENGTH(Hash) ...` prefix, then `Join(featureIds)`, then `) GROUP BY ContentObjectId);` |
| Installer.FilesQuery | src/Core/src/Installer.cpp:99-108 | The file query is its fixed `SELECT Path, Hash, LENGTH(Hash) ...` prefix, then `Join(featureIds)`, then `);` |
| Installer.QueriesDetermineSelection | src/Core/src/Installer.cpp:73-108 | Each of the three queries determines the selection it was built from |
| Installer.StageContentObjects | src/Core/src/Installer.cpp:163-185 | Every well-formed row's hash becomes required; only digest-sized hashes are required; at most one staging file per row |
| Installer.StagingRequiresOnlyRows | src/Core/src/Installer.cpp:166-179 | Every required hash comes from a well-formed row, so malformed rows are skipped |
| Installer.StagingAllocates | src/Core/src/Installer.cpp:179-182 | Every well-formed row creates `staging / <hash>` with that row's size |
| Installer.WellFormedRows | src/Core/src/Installer.cpp:168-171 | The rows not skipped are exactly the rows whose hash length is the digest size |
| Installer.StagingAllocatesExactly | src/Core/src/Installer.cpp:163-182 | The staging files created are exactly those of the rows not skipped, one per row in query order, each `staging / <hash>` with the row's size |
| Installer.StagingKeepsLastChunkCount | src/Core/src/Installer.cpp:175-177 | The chunk count recorded for a hash is that of the last well-formed row carrying it |
| Installer.FileStep | src/Core/src/Installer.cpp:238-266 | A NULL hash creates an empty file; a hash of the wrong length skips the row; any other hash copies `staging / <hash>` to `target / path` |
| Installer.DeployFiles | src/Core/src/Installer.cpp:238-267 | One action per file row; a row is skipped exactly when its hash is present with the wrong length; every other row writes `targetDirectory / path`, whose parent the directory loop created; a copy reads `staging / <hash>` |
| Installer.Directories | src/Core/src/Installer.cpp:214-231 | The directory set holds the parent of every row's target and nothing else, with at most one directory per row |
| Installer.CopiesReadStagedObjects | src/Core/src/Installer.cpp:162-265 | When the queries agree, every copy reads a staged file created by the content-object loop, for an object the package reader extracts |
| Text.IntText | src/Core/src/Installer.cpp:62 | `operator<<` on an int writes non-empty text with no comma or space |
| Text.IntTextSign | src/Core/src/Installer.cpp:62 | Only negative numbers start with a minus sign |
| Text.IntTextInjective | src/Core/src/Installer.cpp:62 | Different integers are written differently |
| Text.NatTextRoundTrip | src/Core/src/Installer.cpp:62 | Decimal text reads back as the number written |
| ArrayRefs.Distance | src/base/inc/ArrayRef.h:52-56 | `end - begin` in elements: advancing `begin` by it reaches `end` |
| ArrayRefs.FromRange | src/base/inc/ArrayRef.h:52-56 | The view built from `(begin, end)` starts at `begin` and ends at `end` |
| ArrayRefs.ConstructorsAgree | src/base/inc/ArrayRef.h:52-68 | `(data, count)` and `(count, data)` build the same view, which is the `(begin, end)` view of the same range |
| ArrayRefs.FromElement | src/base/inc/ArrayRef.h:83-87 | A single-element view has count 1 and is not empty |
| ArrayRefs.Default | src/base/inc/ArrayRef.h:89-93 | The default view is null, has count 0, and is empty |
| ArrayRefs.EndMinusBegin | src/base/inc/ArrayRef.h:107-146 | `end() - begin()` is the count in elements and `GetSize()` in bytes |
| ArrayRefs.EmptyIffNoBytes | src/base/inc/ArrayRef.h:118-156 | A view is empty exactly when it spans no bytes |
| ArrayRefs.Elements | src/base/inc/ArrayRef.h:107-110 | A view refers to exactly `GetCount()` elements |
| ArrayRefs.At | src/base/inc/ArrayRef.h:96-99 | `v[index]` is element `index` of what the view refers to |
| ArrayRefs.Slice | src/base/inc/ArrayRef.h:164-167 | `Slice(first, count)` has that count and starts `first` elements in |
| ArrayRefs.SliceFrom | src/base/inc/ArrayRef.h:175-178 | `Slice(first)` has count `count_ - first`, starts `first` elements in, and keeps the end |
| ArrayRefs.SliceElements | src/base/inc/ArrayRef.h:164-167 | Inside the view, `Slice(first, count)` refers to exactly the `count` elements from `first` |
| ArrayRefs.SliceFromElements | src/base/inc/ArrayRef.h:175-178 | Inside the view, `Slice(first)` refers to exactly the elements from `first` to the end |
| ArrayRefs.ToVoid | src/base/inc/ArrayRef.h:192-196 | The untyped view keeps the start and has `GetSize()` bytes |
| ArrayRefs.VoidFromVector | src/base/inc/ArrayRef.h:218-230 | The untyped view of a vector or array is the untyped view of its typed view |
| ArrayRefs.VoidDefault | src/base/inc/ArrayRef.h:232-236 | The default untyped view is null and empty |
| ArrayRefs.ToByteRef | src/base/inc/ArrayRef.h:258-263 | The byte view keeps the start and has as many bytes as the untyped view |
| ArrayRefs.ByteViewOfElements | src/base/inc/ArrayRef.h:192-263 | The byte view of a typed view covers exactly its bytes, ends where it ends, and is empty exactly when it is |
| ArrayRefs.MutableSlice | src/base/inc/ArrayRef.h:352-355 | The mutable `Slice(first, count)` has that count |
| ArrayRefs.MutableSliceFrom | src/base/inc/ArrayRef.h:360-363 | The mutable `Slice(first)` has count `count_ - first` |
| ArrayRefs.MutableToVoid | src/base/inc/ArrayRef.h:373-377 | The untyped mutable view has the typed view's byte size |
| ArrayRefs.MutableSlicesAgree | src/base/inc/ArrayRef.h:339-363 | Mutable slices are the read-only slices of the same view, and `end() - begin()` of a mutable view is its count |
| StringRefs.Contents | src/base/inc/StringRef.h:80-88 | A view refers to exactly `GetLength()` characters |
| StringRefs.Strlen | src/base/inc/StringRef.h:33-42 | The length found ends at a `'\0'` and contains none before it |
| StringRefs.FirstNulUnique | src/base/inc/StringRef.h:33-42 | The first `'\0'` after a pointer is unique, so `strlen` is well defined |
| StringRefs.FromArray | src/base/inc/StringRef.h:26-31 | The array constructor records all `Size` characters |
| StringRefs.FromCString | src/base/inc/StringRef.h:33-42 | A null pointer gives the empty null view; any other pointer gives a view starting there |
| StringRefs.CStringContents | src/base/inc/StringRef.h:33-42 | A C-string view contains no `'\0'`, and the character just past it is `'\0'` |
| StringRefs.ArrayLengthCountsTerminator | src/base/inc/StringRef.h:26-42 | For a terminated char array passed to the array constructor, the length is `strlen + 1` and the last character is the terminator |
| StringRefs.FromStdString | src/base/inc/StringRef.h:44-48 | The view of a `std::string` has its size and starts at `c_str()` |
| StringRefs.CStringOfStdString | src/base/inc/StringRef.h:33-48 | For a string without `'\0'`, the `const char*` and `std::string` constructors agree, and the view holds the string |
| StringRefs.FromChar | src/base/inc/StringRef.h:62-66 | A one-character view has length 1 and is not empty |
| StringRefs.FromRange | src/base/inc/StringRef.h:68-72 | The `(begin, end)` view starts at `begin` and ends at `end` |
| StringRefs.ConstructorsAgree | src/base/inc/StringRef.h:50-72 | Both `(pointer, length)` orders build the same view, which is the `(begin, end)` view of the range |
| StringRefs.Default | src/base/inc/StringRef.h:74-78 | The default view is null and empty |
| StringRefs.At | src/base/inc/StringRef.h:123-126 | `s[index]` is character `index` of the view |
| StringRefs.LengthIsByteCount | src/base/inc/StringRef.h:80-121 | `GetByteCount()` equals `GetLength()`, `end() - begin()` is the length, and the view is empty exactly when `begin() == end()` |
| StringRefs.AsArrayRef | src/base/inc/StringRef.h:157-176 | The adapted character view has the string's length and start |
| StringRefs.AsVoidRef | src/base/inc/StringRef.h:157-176 | The adapted untyped view has the string's byte count and start |
| StringRefs.AdaptedViewsAgree | src/base/inc/StringRef.h:157-176 | The adapted untyped view is the untyped view of the character view, which refers to the same characters and ends where the string ends |

## Left out

- SQLite itself is not modelled: tables are sequences of rows with ids counting up from 1. Transactions, PRAGMAs, `ANALYZE`, indices, `GetFilesetInfoInternal` and `GetDatabase` are left out because they do not change the rows.
- File input and output are not modelled: mapping, `memcpy`, `BlockCopy`, `copy_file`, `remove` and `Stat`. The file system is a map from path to bytes, and every write either happens completely or not at all.
- `create_directories` is modelled only as the set of directories requested. Their creation on disk, and the `exists` check before creating, are left out. This includes `BuildRepository`'s `create_directories (targetDirectory)`, which runs before the descriptor is parsed, so the target directory exists even when `Build.BuildRepository` returns a failure.
- Hashing is not modelled: SHA-256 is a function parameter, and its collision resistance is never assumed.
- `ToString(hash)`: Hash.h is not part of this model. Hash names are taken to be lower-case hexadecimal text, two digits per byte.
- Errors are modelled as a `Result` datatype. A missing source file (`ComputeSHA256` or `Stat` throwing), an unparsable descriptor and a missing package type become distinct errors; exception texts and `KYLA_FILE_LINE` are left out.
- `Uuid::Parse`, `Uuid::CreateRandom` and `uuid.uuid4()` are not modelled; they become parameters or given values.
- `unordered_map` iteration order is not modelled. `FindUniqueFileContents` is modelled with content objects in first-seen hash order, and `equal_range` in insertion order. Every contract about the order of objects or requests is stated only where the source fixes the order.
- The order of rows with equal sizes under `ORDER BY Size` is left out: SQLite leaves it open, and the sort model keeps table order, which no contract relies on.
- The `LEFT JOIN` NULL rows of the deployed `Validate` query are left out. Every installed file is taken to have its content object.
- In the deployed repository written by `CreateFrom`, the database rows are not modelled: `k.db`'s `file_sets`, `content_objects` and `files` inserts. The model covers the directories, the requests and the file writes. The per-file-set `file_sets` lookup in the other repository is not modelled; the rows of one file set are an input.
- `DeployRepository` is not modelled: it only creates the target directory and calls `CreateFrom`. Deploying several file sets is `DeployFileSet` applied to each in turn.
- `GetContentObjects` of either repository is not modelled; it becomes the `fetch` parameter of a repair or deployment.
- `Installer::Install` is left out as a whole: logging, `absolute()`, the property defaults for the directories, `SourcePackageReader::Store`, the source-package query loop and `sqlite3_close` all depend on I/O. The model keeps its pure parts: the queries, the content-object loop, the deploy decisions and the directory set. The `Property` type is a type parameter.
- `GetProperty` of a property that is not set is not modelled: the source dereferences `end()` there, which is undefined behaviour, so it is a precondition.
- Integer widths are not modelled: `int64`, `ptrdiff_t` and `std::size_t` do not overflow in the model. The packed header's version is written as little-endian bytes, with no struct padding.
- Paths are taken to be normalised already, with `/` as the only separator. boost's element-wise path comparison and the Windows `\` separator are not modelled, so string equality stands for path equality.
- Installer.WellFormed: `sizeof (hash.hash)` is taken to be 32, the SHA-256 digest size (`Digests.DigestSize`), because Hash.h is not part of this model.
- The `ArrayRef` constructors from an adapted container (`ArrayAdapter<U>`) are modelled only for `StringRef`. The vector and array constructors are one function, because both take a pointer and a count.
- The `StringRef` members declared without a definition are not modelled: `==`, `!=`, `<`, `ToString`, `GetHash`, `SubString` and `CheckRange`. The friend comparisons with `const char*` call them, so they are left out too.
- The XML libraries are not modelled byte for byte. `Serialize` follows lxml's `tostring`. With the plain-Python ElementTree fallback, an empty element is closed with `" />"` and a tab in an attribute is written `&#09;`. Some Python versions write line feeds, carriage returns and tabs in attribute values raw. pugixml turns those raw characters into spaces when it reads (`Xml.AttrWhitespace`), so such values do not read back unchanged. The model writes them as references, which read back exactly.
- Xml.Pretty: follows minidom's `toprettyxml()` layout as of Python 3.13: tab indentation, the declaration `<?xml version="1.0" ?>`, text-only elements on one line, and line feed, carriage return and tab in attribute values written as `&#10;`, `&#13;` and `&#9;`. Before 3.13, minidom writes those three characters raw, so with pugixml a file name containing a tab or line break reads back with a space instead. It also escapes `"` in text content, which the model writes as itself. `Manifest.Finalize` and `Manifest.FinalizedScriptReadsBack` promise the read-back for the 3.13 behaviour only.
- Xml.ParseDocument: follows pugixml's default options only in part. It drops whitespace-only text, and in attribute values it turns raw tab, line feed and carriage return into spaces (`parse_wconv_attribute` with `parse_eol`). It reads the five predefined entities and the references `&#10;`, `&#13;` and `&#9;`. It does not apply `parse_eol` to text content (a carriage return there is kept). It rejects comments, CDATA, processing instructions other than the declaration, single-quoted attributes and every other character reference, `&#09;` included, all of which pugixml accepts. The builder never produces text content.
- Manifest.Finalize: the pretty text is proved to read back only for trees without text content. minidom adds indentation around text, which changes it. Every tree the builder makes has no text (`Manifest.RunKeepsReadable`).
- Manifest.AddFilesFromDirectory: uses the corrected relative directory (see Findings). It equals the source's slice whenever the base directory has no trailing separator (`Manifest.RelativeDirAsWrittenAgrees`).
- Manifest.SetSourcePackage: modelled as leaving the element unchanged. In CPython's C-accelerated etree and in lxml, assigning to `element.set` raises `AttributeError` instead.
- Manifest.NewFileSet: a missing name, or a name, id text or `Source` holding a character XML cannot carry, is modelled as lxml's exception (`TypeError` or `ValueError`). With the plain-Python etree, `set` accepts both: a missing name fails only when the tree is serialized, and an illegal character only when `Finalize` hands the text to minidom (the compact text is returned with the character in it).
- Manifest.AddFilesFromDirectory: when `set` raises, lxml has already added an empty `File` element; the builder is not modelled after an exception, which ends the script.
- The manifest writes the package type as `Properties/Property`, while the builder reads `//Package/Type`. Each side is modelled as written, and no lemma connects them. `PackageType.Bundle` has no builder: `Build.SelectBuilder` reports the error for any text other than `Loose` and `Packed`.
- `src/cli/src/main.cpp` is not modelled (command-line plumbing). The declaration-only headers are not modelled either: `FileIO.h`, `Repository.h`, `BaseRepository.h` and `LooseRepository.h`.

## Findings

| source | as written | input that shows it | evidently intended | confidence | as-written member | corrected member |
|---|---|---|---|---|---|---|
| scripts/kyla.py:47 | `directory[len(baseDirectory) + 1:]` always skips one character after the base path | `AddFilesFromDirectory("data/")`, where `os.walk` yields `data/ab`; the slice gives `b`, so the files of `ab` get the wrong `Source` | The walked directory relative to the base (`ab`), whether or not the base ends with a separator | not executed | Manifest.RelativeDirAsWrittenDropsFirstCharacter | Manifest.RelativeDirRecoversSubpath |

=== FILE: array_ref.dfy ===
/** `ArrayRef<T>`, `ArrayRef<void>` and `MutableArrayRef<T>` of
    src/base/inc/ArrayRef.h: a start pointer and an element count (or, for
    `void`, a byte size) over memory the view does not own.

    Pointers are byte addresses, `nullptr` is address 0, and `sizeof (T)`
    is the parameter `elementSize`: pointer arithmetic on a `T*` moves by
    whole elements, and the difference of two `T*` counts elements. What a
    view refers to is given by a `Buffer`: elements laid out from a base
    address. The header checks no bounds; the lemmas about contents state
    the bounds under which a view stays inside its buffer.
 */
module ArrayRefs {

  const Null: int := 0

  /** `p + k` for a `T*`. */
  function Advance(p: int, k: int, elementSize: nat): int {
    p + k * elementSize
  }

  /** `end - begin` for two `T*` into the same array: the number of
      elements between them. */
  function Distance(end: int, begin: int, elementSize: nat): (r: int)
    requires elementSize > 0 && (end - begin) % elementSize == 0
    ensures Advance(begin, r, elementSize) == end
  {
    DivExact(end - begin, elementSize);
    (end - begin) / elementSize
  }

  lemma DivExact(x: int, e: int)
    requires e > 0 && x % e == 0
    ensures (x / e) * e == x
  {
  }

  lemma MulBounds(d: int, e: int)
    requires e > 0
    ensures d >= 1 ==> d * e >= e
    ensures d <= -1 ==> d * e <= -e
  {
  }

  /** `k` elements are `k * e` bytes, and `k * e` bytes are `k` elements. */
  lemma MulDiv(k: int, e: int)
    requires e > 0
    ensures (k * e) % e == 0 && (k * e) / e == k
  {
    var q, r := (k * e) / e, (k * e) % e;
    assert (k - q) * e == r;
    MulBounds(k - q, e);
  }

  /** Advancing by `i`, then by `j`, is advancing by `i + j`. */
  lemma AdvanceAdd(p: int, i: int, j: int, e: nat)
    ensures Advance(Advance(p, i, e), j, e) == Advance(p, i + j, e)
    ensures Advance(p, i + j, e) - Advance(p, i, e) == j * e
  {
    assert (i + j) * e == i * e + j * e;
  }

  /** `ArrayRef<T>`: `data_` and `count_`. */
  datatype ArrayRef = ArrayRef(data: int, count: int)

  /** The default constructor: a null view of no elements. */
  function Default(): (r: ArrayRef)
    ensures r.data == Null && GetCount(r) == 0 && IsEmpty(r)
  {
    ArrayRef(Null, 0)
  }

  /** `ArrayRef (const T* begin, const T* end)`. */
  function FromRange(begin: int, end: int, elementSize: nat): (r: ArrayRef)
    requires elementSize > 0 && (end - begin) % elementSize == 0
    ensures Begin(r) == begin && End(r, elementSize) == end
  {
    ArrayRef(begin, Distance(end, begin, elementSize))
  }

  /** `ArrayRef (const T* data, count_type count)`. */
  function FromDataCount(data: int, count: int): ArrayRef {
    ArrayRef(data, count)
  }

  /** `ArrayRef (count_type count, const T* data)`. */
  function FromCountData(count: int, data: int): ArrayRef {
    ArrayRef(data, count)
  }

  /** `ArrayRef (const std::vector<T>&)`: `vec.data ()` and `vec.size ()`;
      `ArrayRef (const T (&)[N])` is the same with `N`. */
  function FromVector(vecData: int, vecSize: nat): ArrayRef {
    ArrayRef(vecData, vecSize)
  }

  /** `explicit ArrayRef (const T& element)`: a view of that one element. */
  function FromElement(address: int): (r: ArrayRef)
    ensures GetCount(r) == 1 && !IsEmpty(r)
  {
    ArrayRef(address, 1)
  }

  /** The two argument orders build the same view, and a view built from
      a pointer and the pointer `count` elements later is that view. */
  lemma ConstructorsAgree(data: int, count: int, elementSize: nat)
    requires elementSize > 0
    ensures FromDataCount(data, count) == FromCountData(count, data)
    ensures (Advance(data, count, elementSize) - data) % elementSize == 0
    ensures FromRange(data, Advance(data, count, elementSize), elementSize) == FromDataCount(data, count)
  {
    MulDiv(count, elementSize);
  }

  function GetCount(v: ArrayRef): int {
    v.count
  }

  /** `GetSize`: the size in bytes, `sizeof (T) * count_`. */
  function GetSize(v: ArrayRef, elementSize: nat): int {
    elementSize * v.count
  }

  function Begin(v: ArrayRef): int {
    v.data
  }

  /** `end ()`: `data_ + count_`. */
  function End(v: ArrayRef, elementSize: nat): int {
    Advance(v.data, v.count, elementSize)
  }

  /** `end () - begin ()` is the count, and the two are `GetSize ()` bytes
      apart. */
  lemma EndMinusBegin(v: ArrayRef, elementSize: nat)
    requires elementSize > 0
    ensures (End(v, elementSize) - Begin(v)) % elementSize == 0
    ensures Distance(End(v, elementSize), Begin(v), elementSize) == GetCount(v)
    ensures End(v, elementSize) - Begin(v) == GetSize(v, elementSize)
  {
    MulDiv(v.count, elementSize);
  }

  /** `empty ()`, and `IsEmpty ()` which calls it. */
  predicate IsEmpty(v: ArrayRef) {
    v.count == 0
  }

  /** A view of positive element size is empty exactly when it spans no
      bytes. */
  lemma EmptyIffNoBytes(v: ArrayRef, elementSize: nat)
    requires elementSize > 0
    ensures IsEmpty(v) <==> GetSize(v, elementSize) == 0
  {
  }

  /** `Slice (first, count)`: the view from `data_ + first` to
      `data_ + first + count`. */
  function Slice(v: ArrayRef, first: int, count: int, elementSize: nat): (r: ArrayRef)
    requires elementSize > 0
    ensures GetCount(r) == count
    ensures Begin(r) == Advance(Begin(v), first, elementSize)
  {
    var b := Advance(v.data, first, elementSize);
    var e := Advance(v.data, first + count, elementSize);
    AdvanceAdd(v.data, first, count, elementSize);
    MulDiv(count, elementSize);
    FromRange(b, e, elementSize)
  }

  /** `Slice (first)`: the view from `data_ + first` to `end ()`. */
  function SliceFrom(v: ArrayRef, first: int, elementSize: nat): (r: ArrayRef)
    requires elementSize > 0
    ensures GetCount(r) == GetCount(v) - first
    ensures Begin(r) == Advance(Begin(v), first, elementSize)
    ensures End(r, elementSize) == End(v, elementSize)
  {
    var b := Advance(v.data, first, elementSize);
    var e := Advance(v.data, v.count, elementSize);
    AdvanceAdd(v.data, first, v.count - first, elementSize);
    MulDiv(v.count - first, elementSize);
    FromRange(b, e, elementSize)
  }

  /** Elements laid out from address `base`, `elementSize` bytes each. */
  datatype Buffer<T> = Buffer(base: int, items: seq<T>)

  /** The view starts on an element of the buffer and ends inside it. */
  predicate Within<T>(buf: Buffer<T>, v: ArrayRef, elementSize: nat) {
    elementSize > 0
    && v.data >= buf.base && (v.data - buf.base) % elementSize == 0
    && v.count >= 0 && (v.data - buf.base) / elementSize + v.count <= |buf.items|
  }

  /** What the view refers to. */
  function Elements<T>(buf: Buffer<T>, v: ArrayRef, elementSize: nat): (r: seq<T>)
    requires Within(buf, v, elementSize)
    ensures |r| == GetCount(v)
  {
    var first := (v.data - buf.base) / elementSize;
    buf.items[first..first + v.count]
  }

  /** `v [index]` is element `index` of what `v` refers to. */
  function At<T>(buf: Buffer<T>, v: ArrayRef, index: int, elementSize: nat): (r: T)
    requires Within(buf, v, elementSize) && 0 <= index < v.count
    ensures r == Elements(buf, v, elementSize)[index]
  {
    buf.items[(v.data - buf.base) / elementSize + index]
  }

  /** The element index of `base + k * elementSize`. */
  lemma AdvanceIndex(base: int, k: int, j: int, elementSize: nat)
    requires elementSize > 0
    ensures (Advance(base + k * elementSize, j, elementSize) - base) % elementSize == 0
    ensures (Advance(base + k * elementSize, j, elementSize) - base) / elementSize == k + j
  {
    AdvanceAdd(base, k, j, elementSize);
    MulDiv(k + j, elementSize);
  }

  /** `Slice (first, count)` within the view refers to exactly the `count`
      elements starting at element `first`. */
  lemma SliceElements<T>(buf: Buffer<T>, v: ArrayRef, first: int, count: int, elementSize: nat)
    requires Within(buf, v, elementSize)
    requires 0 <= first && 0 <= count && first + count <= v.count
    ensures Within(buf, Slice(v, first, count, elementSize), elementSize)
    ensures Elements(buf, Slice(v, first, count, elementSize), elementSize)
            == Elements(buf, v, elementSize)[first..first + count]
  {
    var k := (v.data - buf.base) / elementSize;
    DivExact(v.data - buf.base, elementSize);
    var s := Slice(v, first, count, elementSize);
    assert s.data == Advance(buf.base + k * elementSize, first, elementSize);
    AdvanceIndex(buf.base, k, first, elementSize);
    assert (s.data - buf.base) / elementSize == k + first;
    SliceOfSlice(buf.items, k, v.count, first, count);
  }

  lemma SliceOfSlice<T>(s: seq<T>, a: int, n: int, i: int, m: int)
    requires 0 <= a && 0 <= n && a + n <= |s| && 0 <= i && 0 <= m && i + m <= n
    ensures s[a + i..a + i + m] == s[a..a + n][i..i + m]
  {
    var x, y := s[a + i..a + i + m], s[a..a + n][i..i + m];
    assert |x| == |y|;
    forall j | 0 <= j < m ensures x[j] == y[j] {
      assert x[j] == s[a + i + j];
      assert y[j] == s[a..a + n][i + j];
    }
  }

  /** `Slice (first)` within the view refers to the elements from `first`
      to the end. */
  lemma SliceFromElements<T>(buf: Buffer<T>, v: ArrayRef, first: int, elementSize: nat)
    requires Within(buf, v, elementSize)
    requires 0 <= first <= v.count
    ensures Within(buf, SliceFrom(v, first, elementSize), elementSize)
    ensures Elements(buf, SliceFrom(v, first, elementSize), elementSize) == Elements(buf, v, elementSize)[first..]
  {
    var k := (v.data - buf.base) / elementSize;
    DivExact(v.data - buf.base, elementSize);
    var s := SliceFrom(v, first, elementSize);
    assert s.data == Advance(buf.base + k * elementSize, first, elementSize);
    AdvanceIndex(buf.base, k, first, elementSize);
    assert (s.data - buf.base) / elementSize == k + first;
    SliceOfSlice(buf.items, k, v.count, first, v.count - first);
  }

  /** `ArrayRef<void>`: a start address and a size in bytes. */
  datatype VoidRef = VoidRef(data: int, size: int)

  /** `ArrayRef<void> (const ArrayRef<T>&)`: same start, `GetSize ()` bytes. */
  function ToVoid(v: ArrayRef, elementSize: nat): (r: VoidRef)
    ensures VoidSize(r) == GetSize(v, elementSize)
    ensures r.data == Begin(v)
  {
    VoidRef(v.data, GetSize(v, elementSize))
  }

  /** `ArrayRef<void> (const std::vector<T>&)`: `vec.size () * sizeof (T)`
      bytes; the array constructor is the same with `N`. */
  function VoidFromVector(vecData: int, vecSize: nat, elementSize: nat): (r: VoidRef)
    ensures r == ToVoid(FromVector(vecData, vecSize), elementSize)
  {
    VoidRef(vecData, vecSize * elementSize)
  }

  /** The default `ArrayRef<void>`: null and no bytes. */
  function VoidDefault(): (r: VoidRef)
    ensures r.data == Null && VoidIsEmpty(r)
  {
    VoidRef(Null, 0)
  }

  function VoidSize(v: VoidRef): int {
    v.size
  }

  predicate VoidIsEmpty(v: VoidRef) {
    v.size == 0
  }

  /** `ToByteRef`: the bytes from `data_` to `data_ + size_`. */
  function ToByteRef(v: VoidRef): (r: ArrayRef)
    ensures GetCount(r) == VoidSize(v) && GetSize(r, 1) == VoidSize(v)
    ensures Begin(r) == v.data
  {
    FromRange(v.data, v.data + v.size, 1)
  }

  /** Viewing typed elements as bytes keeps the start and covers exactly
      their bytes: in a buffer of bytes, the byte view of a view refers to
      the bytes the elements occupy. */
  lemma ByteViewOfElements(v: ArrayRef, elementSize: nat)
    requires elementSize > 0
    ensures ToByteRef(ToVoid(v, elementSize)) == ArrayRef(Begin(v), GetSize(v, elementSize))
    ensures End(ToByteRef(ToVoid(v, elementSize)), 1) == End(v, elementSize)
    ensures IsEmpty(ToByteRef(ToVoid(v, elementSize))) <==> IsEmpty(v)
  {
  }

  /** `MutableArrayRef<T>`: an `ArrayRef<T>` whose data may be written. */
  datatype MutableArrayRef = MutableArrayRef(view: ArrayRef)

  /** `MutableArrayRef::Slice (first, count)`, built from `GetData ()`. */
  function MutableSlice(m: MutableArrayRef, first: int, count: int, elementSize: nat): (r: MutableArrayRef)
    requires elementSize > 0
    ensures GetCount(r.view) == count
  {
    var b := Advance(m.view.data, first, elementSize);
    var e := Advance(m.view.data, first + count, elementSize);
    AdvanceAdd(m.view.data, first, count, elementSize);
    MulDiv(count, elementSize);
    MutableArrayRef(FromRange(b, e, elementSize))
  }

  /** `MutableArrayRef::Slice (first)`. */
  function MutableSliceFrom(m: MutableArrayRef, first: int, elementSize: nat): (r: MutableArrayRef)
    requires elementSize > 0
    ensures GetCount(r.view) == GetCount(m.view) - first
  {
    var b := Advance(m.view.data, first, elementSize);
    var e := Advance(m.view.data, m.view.count, elementSize);
    AdvanceAdd(m.view.data, first, m.view.count - first, elementSize);
    MulDiv(m.view.count - first, elementSize);
    MutableArrayRef(FromRange(b, e, elementSize))
  }

  /** `MutableArrayRef<void>`, built from a `MutableArrayRef<T>` the way
      `ArrayRef<void>` is built from an `ArrayRef<T>`. */
  datatype MutableVoidRef = MutableVoidRef(view: VoidRef)

  function MutableToVoid(m: MutableArrayRef, elementSize: nat): (r: MutableVoidRef)
    ensures r.view == ToVoid(m.view, elementSize)
    ensures VoidSize(r.view) == GetSize(m.view, elementSize)
  {
    MutableVoidRef(VoidRef(m.view.data, GetSize(m.view, elementSize)))
  }

  /** The mutable slices are the read-only slices, so they refer to the
      same elements under the same bounds; and `end () - begin ()` of a
      mutable view is its count. */
  lemma MutableSlicesAgree(m: MutableArrayRef, first: int, count: int, elementSize: nat)
    requires elementSize > 0
    ensures MutableSlice(m, first, count, elementSize).view == Slice(m.view, first, count, elementSize)
    ensures MutableSliceFrom(m, first, elementSize).view == SliceFrom(m.view, first, elementSize)
    ensures (End(m.view, elementSize) - Begin(m.view)) % elementSize == 0
    ensures Distance(End(m.view, elementSize), Begin(m.view), elementSize) == GetCount(m.view)
  {
    EndMinusBegin(m.view, elementSize);
  }
}

=== FILE: build.dfy ===
/** `BuildRepository` (src/base/src/RepositoryBuilder.cpp): read the
    descriptor, hash its files, merge equal contents, and hand the result
    to the builder the descriptor's `//Package/Type` names.

    The build's effects are returned as a value: the directories created,
    the database written (its rows) and the other files written with their
    bytes. The file system is the `Contents` map; parsing the descriptor
    file is outside the model (`doc` is `None` when parsing fails), as are
    SHA-256 (`sha`) and the random package id (`packageUuid`).
 */
module Build {
  import opened Wrappers
  import opened Paths
  import opened Xml
  import opened Uuids
  import opened Digests
  import opened Text
  import opened BuildInput
  import opened ContentObjects
  import opened BuildDatabase
  import opened Package

  const CannotParse: string := "Could not parse input file."

  const NoPackageType: string := "Package type not specified."

  /** SQLite's first row id in a fresh table. */
  const FirstRowId: int := 1

  datatype BuilderKind = LooseBuilder | PackedBuilder

  /** The `Type` elements whose parent is a `Package` element. */
  function PackageTypeNodes(root: Element): seq<Element> {
    SelectChildPath(DocumentNodes(root), "Package", "Type")
  }

  /** The builder choice: the text of the first `//Package/Type` node must
      be exactly `Loose` or `Packed`; anything else, or no such node, is an
      error. */
  function SelectBuilder(root: Element): (r: Result<BuilderKind>)
    ensures r == Success(LooseBuilder) <==>
              |PackageTypeNodes(root)| > 0 && PackageTypeNodes(root)[0].text == "Loose"
    ensures r == Success(PackedBuilder) <==>
              |PackageTypeNodes(root)| > 0 && PackageTypeNodes(root)[0].text == "Packed"
    ensures r.Failure? ==> r.error == NoPackageType
  {
    var types := PackageTypeNodes(root);
    if |types| > 0 && types[0].text == "Loose" then Success(LooseBuilder)
    else if |types| > 0 && types[0].text == "Packed" then Success(PackedBuilder)
    else Failure(NoPackageType)
  }

  /** A `source_packages` row. */
  datatype SourcePackageRow = SourcePackageRow(id: int, name: string, filename: string, uuid: Uuid)

  /** The rows of the repository database after a build. */
  datatype Database = Database(
    fileSets: seq<FileSetRow>,
    contentObjects: seq<ContentObjectRow>,
    files: seq<FileRow>,
    sourcePackages: seq<SourcePackageRow>,
    storageMappings: seq<StorageMapping>)

  /** What a build leaves behind. */
  datatype BuildOutput = BuildOutput(
    kind: BuilderKind,
    directories: seq<string>,
    databasePath: string,
    database: Database,
    written: seq<(string, seq<byte>)>)

  /** The content objects' sources can be read. */
  predicate SourcesReadable(objs: seq<UniqueContentObject>, contents: Contents) {
    forall i :: 0 <= i < |objs| ==> objs[i].sourceFile in contents
  }

  /** The rows both builders write. */
  function CommonRows(sets: seq<FileSet>, objs: seq<UniqueContentObject>): (t: (seq<FileSetRow>, seq<ContentObjectRow>, seq<FileRow>))
    requires DuplicatesKnown(objs, PopulateFileSets(sets, FirstRowId).idOf)
  {
    var table := PopulateFileSets(sets, FirstRowId);
    (table.rows, ContentObjectRows(objs, FirstRowId), FileRows(objs, FirstRowId, table.idOf))
  }

  /** `LooseRepositoryBuilder::Build`: the database goes to
      `.ky/repository.db`, and each content object is copied to
      `.ky/objects/<hash>`. */
  function BuildLoose(sets: seq<FileSet>, objs: seq<UniqueContentObject>, targetDirectory: string, contents: Contents)
    : (out: BuildOutput)
    requires DuplicatesKnown(objs, PopulateFileSets(sets, FirstRowId).idOf)
    requires SourcesReadable(objs, contents)
    ensures out.databasePath == Append(Append(targetDirectory, ".ky"), "repository.db")
    ensures |out.written| == |objs|
    ensures forall i :: 0 <= i < |objs| ==>
              out.written[i] == (LooseObjectPath(Append(Append(targetDirectory, ".ky"), "objects"), objs[i].hash),
                                 contents[objs[i].sourceFile])
    ensures out.database.sourcePackages == [] && out.database.storageMappings == []
  {
    var ky := Append(targetDirectory, ".ky");
    var objects := Append(ky, "objects");
    var rows := CommonRows(sets, objs);
    var copies := LooseCopies(objs, objects);
    BuildOutput(LooseBuilder, [targetDirectory, ky, objects], Append(ky, "repository.db"),
                Database(rows.0, rows.1, rows.2, [], []),
                seq(|objs|, i requires 0 <= i < |objs| => (copies[i].1, contents[copies[i].0])))
  }

  /** The bytes of each content object's source, in content-object order. */
  function Bodies(objs: seq<UniqueContentObject>, contents: Contents): (r: seq<seq<byte>>)
    requires SourcesReadable(objs, contents)
    ensures |r| == |objs| && forall i :: 0 <= i < |objs| ==> r[i] == contents[objs[i].sourceFile]
  {
    seq(|objs|, i requires 0 <= i < |objs| => contents[objs[i].sourceFile])
  }

  /** `PackedRepositoryBuilder::Build`: the database goes to
      `repository.db` and every content object into the single package
      `data.kypkg`, recorded by one `source_packages` row. */
  function BuildPacked(sets: seq<FileSet>, objs: seq<UniqueContentObject>, targetDirectory: string,
                       contents: Contents, packageUuid: Uuid)
    : (out: BuildOutput)
    requires DuplicatesKnown(objs, PopulateFileSets(sets, FirstRowId).idOf)
    requires SourcesReadable(objs, contents)
    ensures out.databasePath == Append(targetDirectory, "repository.db")
    ensures out.database.sourcePackages == [SourcePackageRow(FirstRowId, "package", "data.kypkg", packageUuid)]
    ensures |out.written| == 1 && out.written[0].0 == Append(targetDirectory, "data.kypkg")
    ensures |out.database.storageMappings| == |objs|
  {
    var rows := CommonRows(sets, objs);
    var packed := Pack(Bodies(objs, contents), FirstRowId, FirstRowId);
    BuildOutput(PackedBuilder, [targetDirectory], Append(targetDirectory, "repository.db"),
                Database(rows.0, rows.1, rows.2,
                         [SourcePackageRow(FirstRowId, "package", "data.kypkg", packageUuid)],
                         packed.mappings),
                [(Append(targetDirectory, "data.kypkg"), packed.bytes)])
  }

  /** Every content object's source is the source of a hashed file, so it
      exists and its bytes hash to the object's hash. */
  predicate ObjectsMatchContents(objs: seq<UniqueContentObject>, contents: Contents, sha: HashFunction) {
    forall i :: 0 <= i < |objs| ==>
      objs[i].sourceFile in contents
      && sha(contents[objs[i].sourceFile]) == objs[i].hash
      && objs[i].size == |contents[objs[i].sourceFile]|
  }

  /** `BuildRepository`. The steps run in the source's order, so a file
      that cannot be hashed is reported before a missing package type.
      The source first creates the target directory, before parsing; that
      happens even when the build then fails, and is not modelled. */
  function BuildRepository(doc: Option<Element>, sourceDirectory: string, targetDirectory: string,
                           contents: Contents, parseId: string -> Uuid, sha: HashFunction, packageUuid: Uuid)
    : (r: Result<BuildOutput>)
  {
    match doc
    case None => Failure(CannotParse)
    case Some(root) =>
      var sets := GetFileSets(root, parseId);
      match HashFiles(sets, sourceDirectory, contents, sha)
      case Failure(e) => Failure(e)
      case Success(hashed) =>
        match FindUniqueFileContents(hashed, sourceDirectory, contents)
        case Failure(e) => Failure(e)
        case Success(objs) =>
          match SelectBuilder(root)
          case Failure(e) => Failure(e)
          case Success(kind) =>
            DuplicatesHaveFileSets(hashed, sourceDirectory, contents, FirstRowId);
            HashedObjectsMatch(sets, hashed, sourceDirectory, contents, sha);
            if kind == LooseBuilder then Success(BuildLoose(hashed, objs, targetDirectory, contents))
            else Success(BuildPacked(hashed, objs, targetDirectory, contents, packageUuid))
  }

  /** Where `files[k]` of the flattened file sets comes from. */
  lemma {:induction false} AllFilesOrigin(sets: seq<FileSet>, k: nat) returns (i: nat, j: nat)
    requires k < |AllFiles(sets)|
    ensures i < |sets| && j < |sets[i].files| && AllFiles(sets)[k] == sets[i].files[j]
    decreases |sets|
  {
    var n := |sets|;
    var prefix := AllFiles(sets[..n - 1]);
    assert AllFiles(sets) == prefix + sets[n - 1].files;
    if k < |prefix| {
      i, j := AllFilesOrigin(sets[..n - 1], k);
      assert sets[..n - 1][i] == sets[i];
    } else {
      i, j := n - 1, k - |prefix|;
    }
  }

  /** After hashing, every file's source exists and carries its hash. */
  lemma HashedSourcesFound(sets: seq<FileSet>, hashed: seq<FileSet>, sourceDirectory: string,
                           contents: Contents, sha: HashFunction)
    requires HashFiles(sets, sourceDirectory, contents, sha) == Success(hashed)
    ensures SourcesFound(AllFiles(hashed), sourceDirectory, contents)
    ensures forall k :: 0 <= k < |AllFiles(hashed)| ==>
              AllFiles(hashed)[k].hash == sha(contents[Append(sourceDirectory, AllFiles(hashed)[k].source)])
  {
    var files := AllFiles(hashed);
    forall k | 0 <= k < |files|
      ensures Append(sourceDirectory, files[k].source) in contents
      ensures files[k].hash == sha(contents[Append(sourceDirectory, files[k].source)])
    {
      var i, j := AllFilesOrigin(hashed, k);
      assert Hashed(hashed[i], sourceDirectory, contents, sha);
    }
  }

  /** Merging hashed files gives content objects whose sources exist and
      hash to the object's hash, and never fails. */
  lemma HashedObjectsMatch(sets: seq<FileSet>, hashed: seq<FileSet>, sourceDirectory: string,
                           contents: Contents, sha: HashFunction)
    requires HashFiles(sets, sourceDirectory, contents, sha) == Success(hashed)
    ensures FindUniqueFileContents(hashed, sourceDirectory, contents).Success?
    ensures var objs := FindUniqueFileContents(hashed, sourceDirectory, contents).value;
            SourcesReadable(objs, contents) && ObjectsMatchContents(objs, contents, sha)
  {
    HashedSourcesFound(sets, hashed, sourceDirectory, contents, sha);
    FindUniqueFileContentsOutcome(hashed, sourceDirectory, contents);
    var objs := FindUniqueFileContents(hashed, sourceDirectory, contents).value;
    forall i | 0 <= i < |objs|
      ensures objs[i].sourceFile in contents
      ensures sha(contents[objs[i].sourceFile]) == objs[i].hash
      ensures objs[i].size == |contents[objs[i].sourceFile]|
    {
      HashedObjectMatches(sets, hashed, sourceDirectory, contents, sha, i);
    }
  }

  lemma HashedObjectMatches(sets: seq<FileSet>, hashed: seq<FileSet>, sourceDirectory: string,
                            contents: Contents, sha: HashFunction, i: nat)
    requires HashFiles(sets, sourceDirectory, contents, sha) == Success(hashed)
    requires FindUniqueFileContents(hashed, sourceDirectory, contents).Success?
    requires i < |FindUniqueFileContents(hashed, sourceDirectory, contents).value|
    ensures var o := FindUniqueFileContents(hashed, sourceDirectory, contents).value[i];
            o.sourceFile in contents && sha(contents[o.sourceFile]) == o.hash
            && o.size == |contents[o.sourceFile]|
  {
    var k := ObjectSource(hashed, sourceDirectory, contents, i);
    HashedSourcesFound(sets, hashed, sourceDirectory, contents, sha);
  }

  /** A build succeeds exactly when the descriptor parses, every file's
      source can be read, and the package type is `Loose` or `Packed`; the
      error names the first step that fails. */
  lemma BuildRepositoryOutcome(doc: Option<Element>, sourceDirectory: string, targetDirectory: string,
                               contents: Contents, parseId: string -> Uuid, sha: HashFunction, packageUuid: Uuid)
    ensures var r := BuildRepository(doc, sourceDirectory, targetDirectory, contents, parseId, sha, packageUuid);
            r.Success? <==>
              doc.Some?
              && AllSourcesPresent(GetFileSets(doc.value, parseId), sourceDirectory, contents)
              && SelectBuilder(doc.value).Success?
    ensures doc.None? ==>
              BuildRepository(doc, sourceDirectory, targetDirectory, contents, parseId, sha, packageUuid)
                == Failure(CannotParse)
    ensures doc.Some? ==>
              var r := BuildRepository(doc, sourceDirectory, targetDirectory, contents, parseId, sha, packageUuid);
              var present := AllSourcesPresent(GetFileSets(doc.value, parseId), sourceDirectory, contents);
              && (!present ==> r == Failure(CannotHash))
              && (present && SelectBuilder(doc.value).Failure? ==> r == Failure(NoPackageType))
              && (r.Success? ==> r.value.kind == SelectBuilder(doc.value).value)
  {
    if doc.Some? {
      var sets := GetFileSets(doc.value, parseId);
      var h := HashFiles(sets, sourceDirectory, contents, sha);
      if h.Success? {
        HashedObjectsMatch(sets, h.value, sourceDirectory, contents, sha);
      }
    }
  }

  /** The intermediate results of a successful build. */
  lemma BuildSteps(doc: Option<Element>, sourceDirectory: string, targetDirectory: string,
                   contents: Contents, parseId: string -> Uuid, sha: HashFunction, packageUuid: Uuid)
    returns (hashed: seq<FileSet>, objs: seq<UniqueContentObject>)
    requires BuildRepository(doc, sourceDirectory, targetDirectory, contents, parseId, sha, packageUuid).Success?
    ensures doc.Some? && SelectBuilder(doc.value).Success?
    ensures HashFiles(GetFileSets(doc.value, parseId), sourceDirectory, contents, sha) == Success(hashed)
    ensures FindUniqueFileContents(hashed, sourceDirectory, contents) == Success(objs)
    ensures DuplicatesKnown(objs, PopulateFileSets(hashed, FirstRowId).idOf)
    ensures SourcesReadable(objs, contents) && ObjectsMatchContents(objs, contents, sha)
    ensures var out := BuildRepository(doc, sourceDirectory, targetDirectory, contents, parseId, sha, packageUuid).value;
            out == if SelectBuilder(doc.value).value == LooseBuilder
                   then BuildLoose(hashed, objs, targetDirectory, contents)
                   else BuildPacked(hashed, objs, targetDirectory, contents, packageUuid)
    ensures var db := BuildRepository(doc, sourceDirectory, targetDirectory, contents, parseId, sha, packageUuid)
                        .value.database;
            var table := PopulateFileSets(hashed, FirstRowId);
            && db.fileSets == table.rows
            && db.contentObjects == ContentObjectRows(objs, FirstRowId)
            && db.files == FileRows(objs, FirstRowId, table.idOf)
  {
    var sets := GetFileSets(doc.value, parseId);
    hashed := HashFiles(sets, sourceDirectory, contents, sha).value;
    HashedObjectsMatch(sets, hashed, sourceDirectory, contents, sha);
    objs := FindUniqueFileContents(hashed, sourceDirectory, contents).value;
    DuplicatesHaveFileSets(hashed, sourceDirectory, contents, FirstRowId);
  }

  /** A packed build can be read back: storage mapping row `i` belongs to
      content object row `i` and the one source package, and the package
      bytes it points at have the object's size and hash to its hash. */
  lemma PackedBuildRecoversObjects(doc: Option<Element>, sourceDirectory: string, targetDirectory: string,
                                   contents: Contents, parseId: string -> Uuid, sha: HashFunction,
                                   packageUuid: Uuid, i: nat)
    requires BuildRepository(doc, sourceDirectory, targetDirectory, contents, parseId, sha, packageUuid).Success?
    requires BuildRepository(doc, sourceDirectory, targetDirectory, contents, parseId, sha, packageUuid).value.kind
               == PackedBuilder
    requires i < |BuildRepository(doc, sourceDirectory, targetDirectory, contents, parseId, sha, packageUuid)
                    .value.database.contentObjects|
    ensures var out := BuildRepository(doc, sourceDirectory, targetDirectory, contents, parseId, sha, packageUuid).value;
            var db := out.database;
            var package := out.written[0].1;
            && i < |db.storageMappings| && |db.sourcePackages| == 1
            && db.storageMappings[i].contentObjectId == db.contentObjects[i].id
            && db.storageMappings[i].sourcePackageId == db.sourcePackages[0].id
            && db.storageMappings[i].packageOffset + db.storageMappings[i].packageSize <= |package|
            && |Extract(package, db.storageMappings[i])| == db.contentObjects[i].size
            && sha(Extract(package, db.storageMappings[i])) == db.contentObjects[i].hash
  {
    var hashed, objs := BuildSteps(doc, sourceDirectory, targetDirectory, contents, parseId, sha, packageUuid);
    var bodies := Bodies(objs, contents);
    PackMapping(bodies, FirstRowId, FirstRowId, i);
    PackExtract(bodies, FirstRowId, FirstRowId, i);
  }

  /** A loose build stores each content object under the text of its hash
      in `.ky/objects`, with the bytes that hash to it, and no two objects
      share a file. */
  lemma LooseBuildStoresObjects(doc: Option<Element>, sourceDirectory: string, targetDirectory: string,
                                contents: Contents, parseId: string -> Uuid, sha: HashFunction,
                                packageUuid: Uuid, i: nat, j: nat)
    requires BuildRepository(doc, sourceDirectory, targetDirectory, contents, parseId, sha, packageUuid).Success?
    requires BuildRepository(doc, sourceDirectory, targetDirectory, contents, parseId, sha, packageUuid).value.kind
               == LooseBuilder
    requires i < |BuildRepository(doc, sourceDirectory, targetDirectory, contents, parseId, sha, packageUuid)
                    .value.database.contentObjects|
    requires j < |BuildRepository(doc, sourceDirectory, targetDirectory, contents, parseId, sha, packageUuid)
                    .value.database.contentObjects|
    ensures var out := BuildRepository(doc, sourceDirectory, targetDirectory, contents, parseId, sha, packageUuid).value;
            var row := out.database.contentObjects[i];
            && |out.written| == |out.database.contentObjects|
            && out.written[i].0 == Append(Append(Append(targetDirectory, ".ky"), "objects"), DigestText(row.hash))
            && |out.written[i].1| == row.size && sha(out.written[i].1) == row.hash
            && (i != j ==> out.written[i].0 != out.written[j].0)
  {
    var hashed, objs := BuildSteps(doc, sourceDirectory, targetDirectory, contents, parseId, sha, packageUuid);
    if i != j {
      FindUniqueFileContentsGroups(hashed, sourceDirectory, contents);
      var objects := Append(Append(targetDirectory, ".ky"), "objects");
      if i < j {
        LooseCopiesDistinct(objs, objects, i, j);
      } else {
        LooseCopiesDistinct(objs, objects, j, i);
      }
    }
  }

  /** The position of `sets[i].files[j]` among all files. */
  lemma {:induction false} AllFilesIndex(sets: seq<FileSet>, i: nat, j: nat) returns (k: nat)
    requires i < |sets| && j < |sets[i].files|
    ensures k < |AllFiles(sets)| && AllFiles(sets)[k] == sets[i].files[j]
    decreases |sets|
  {
    var n := |sets|;
    var prefix := AllFiles(sets[..n - 1]);
    assert AllFiles(sets) == prefix + sets[n - 1].files;
    if i < n - 1 {
      assert sets[..n - 1][i] == sets[i];
      k := AllFilesIndex(sets[..n - 1], i, j);
    } else {
      k := |prefix| + j;
    }
  }

  /** File sets with the same targets agree on the last set installing a path. */
  lemma {:induction false} LastSetWithSameTargets(a: seq<FileSet>, b: seq<FileSet>, target: string)
    requires |a| == |b| && forall k :: 0 <= k < |a| ==> TargetsOf(a[k].files) == TargetsOf(b[k].files)
    ensures LastSetWith(a, target) == LastSetWith(b, target)
    decreases |a|
  {
    var n := |a|;
    if n > 0 {
      assert forall k :: 0 <= k < n - 1 ==> a[..n - 1][k] == a[k] && b[..n - 1][k] == b[k];
      LastSetWithSameTargets(a[..n - 1], b[..n - 1], target);
    }
  }

  /** Hashing keeps every file set's targets. */
  lemma HashingKeepsTargets(sets: seq<FileSet>, hashed: seq<FileSet>, sourceDirectory: string,
                            contents: Contents, sha: HashFunction)
    requires HashFiles(sets, sourceDirectory, contents, sha) == Success(hashed)
    ensures |hashed| == |sets| && forall k :: 0 <= k < |sets| ==> TargetsOf(hashed[k].files) == TargetsOf(sets[k].files)
  {
    forall k | 0 <= k < |sets| ensures TargetsOf(hashed[k].files) == TargetsOf(sets[k].files) {
      assert |TargetsOf(hashed[k].files)| == |TargetsOf(sets[k].files)|;
    }
  }

  /** Every file of every file set of the descriptor gets a `files` row:
      at its target, pointing to the content object whose hash is its
      source's hash, in the last file set that installs that target. */
  lemma BuildRecordsEveryFile(doc: Option<Element>, sourceDirectory: string, targetDirectory: string,
                              contents: Contents, parseId: string -> Uuid, sha: HashFunction,
                              packageUuid: Uuid, i: nat, j: nat)
    requires doc.Some?
    requires BuildRepository(doc, sourceDirectory, targetDirectory, contents, parseId, sha, packageUuid).Success?
    requires i < |GetFileSets(doc.value, parseId)| && j < |GetFileSets(doc.value, parseId)[i].files|
    ensures var db := BuildRepository(doc, sourceDirectory, targetDirectory, contents, parseId, sha, packageUuid)
                        .value.database;
            var sets := GetFileSets(doc.value, parseId);
            var f := sets[i].files[j];
            var s := LastSetWith(sets, f.target);
            && 0 <= s < |db.fileSets| && db.fileSets[s] == FileSetRow(FirstRowId + s, sets[s].id, sets[s].name)
            && Append(sourceDirectory, f.source) in contents
            && exists o :: 0 <= o < |db.contentObjects|
                 && db.contentObjects[o].hash == sha(contents[Append(sourceDirectory, f.source)])
                 && FileRow(f.target, db.contentObjects[o].id, db.fileSets[s].id) in db.files
  {
    var hashed, objs := BuildSteps(doc, sourceDirectory, targetDirectory, contents, parseId, sha, packageUuid);
    RowsRecordFile(GetFileSets(doc.value, parseId), hashed, objs, sourceDirectory, contents, sha, i, j);
  }

  /** `BuildRecordsEveryFile` over the rows themselves. */
  lemma RowsRecordFile(sets: seq<FileSet>, hashed: seq<FileSet>, objs: seq<UniqueContentObject>,
                       sourceDirectory: string, contents: Contents, sha: HashFunction, i: nat, j: nat)
    requires HashFiles(sets, sourceDirectory, contents, sha) == Success(hashed)
    requires FindUniqueFileContents(hashed, sourceDirectory, contents) == Success(objs)
    requires i < |sets| && j < |sets[i].files|
    ensures var table := PopulateFileSets(hashed, FirstRowId);
            var f := sets[i].files[j];
            var s := LastSetWith(sets, f.target);
            && DuplicatesKnown(objs, table.idOf)
            && 0 <= s < |table.rows| && table.rows[s] == FileSetRow(FirstRowId + s, sets[s].id, sets[s].name)
            && Append(sourceDirectory, f.source) in contents
            && exists o :: 0 <= o < |objs|
                 && objs[o].hash == sha(contents[Append(sourceDirectory, f.source)])
                 && FileRow(f.target, FirstRowId + o, table.rows[s].id) in FileRows(objs, FirstRowId, table.idOf)
  {
    var table := PopulateFileSets(hashed, FirstRowId);
    var f := sets[i].files[j];
    var s := LastSetWith(sets, f.target);
    var k := FileSetRowOfFile(sets, hashed, sourceDirectory, contents, sha, i, j);
    EveryFileHasRow(hashed, sourceDirectory, contents, objs, FirstRowId, FirstRowId, k);
    var o :| 0 <= o < |objs| && objs[o].hash == AllFiles(hashed)[k].hash
             && FileRow(AllFiles(hashed)[k].target, FirstRowId + o, table.idOf[AllFiles(hashed)[k].target])
                  in FileRows(objs, FirstRowId, table.idOf);
    assert FileRow(f.target, FirstRowId + o, table.rows[s].id) in FileRows(objs, FirstRowId, table.idOf);
  }

  /** The file-set side of `RowsRecordFile`: the hashed file's position
      among all files, and the `file_sets` row of the last set installing
      its target. */
  lemma FileSetRowOfFile(sets: seq<FileSet>, hashed: seq<FileSet>, sourceDirectory: string,
                         contents: Contents, sha: HashFunction, i: nat, j: nat) returns (k: nat)
    requires HashFiles(sets, sourceDirectory, contents, sha) == Success(hashed)
    requires i < |sets| && j < |sets[i].files|
    ensures var table := PopulateFileSets(hashed, FirstRowId);
            var f := sets[i].files[j];
            var s := LastSetWith(sets, f.target);
            && k < |AllFiles(hashed)|
            && AllFiles(hashed)[k].target == f.target
            && Append(sourceDirectory, f.source) in contents
            && AllFiles(hashed)[k].hash == sha(contents[Append(sourceDirectory, f.source)])
            && 0 <= s < |table.rows| && table.rows[s] == FileSetRow(FirstRowId + s, sets[s].id, sets[s].name)
            && f.target in table.idOf && table.idOf[f.target] == table.rows[s].id
  {
    var table := PopulateFileSets(hashed, FirstRowId);
    var f := sets[i].files[j];
    var s := LastSetWith(sets, f.target);
    HashedFile(sets, hashed, sourceDirectory, contents, sha, i, j);
    assert s == LastSetWith(hashed, f.target) by {
      HashingKeepsTargets(sets, hashed, sourceDirectory, contents, sha);
      LastSetWithSameTargets(hashed, sets, f.target);
    }
    k := AllFilesIndex(hashed, i, j);
    EveryTargetHasFileSet(hashed, FirstRowId, k);
    assert table.rows[s] == FileSetRow(FirstRowId + s, sets[s].id, sets[s].name) by {
      assert table.rows[s] == FileSetRow(FirstRowId + s, hashed[s].id, hashed[s].name);
    }
  }

  /** A hashed file keeps its source and target and carries its source's hash. */
  lemma HashedFile(sets: seq<FileSet>, hashed: seq<FileSet>, sourceDirectory: string,
                   contents: Contents, sha: HashFunction, i: nat, j: nat)
    requires HashFiles(sets, sourceDirectory, contents, sha) == Success(hashed)
    requires i < |sets| && j < |sets[i].files|
    ensures i < |hashed| && j < |hashed[i].files|
    ensures var f, g := sets[i].files[j], hashed[i].files[j];
            && g.source == f.source && g.target == f.target
            && Append(sourceDirectory, f.source) in contents
            && g.hash == sha(contents[Append(sourceDirectory, f.source)])
  {
    assert Hashed(hashed[i], sourceDirectory, contents, sha);
  }
}

=== FILE: build_database.dfy ===
/** The rows both repository builders of src/base/src/RepositoryBuilder.cpp
    write: `file_sets`, `content_objects` and `files`.

    SQLite is not modelled: a table is the sequence of rows inserted into
    it, and `GetLastRowId` after an insert is the row's id. The tables are
    created fresh, so ids count up from a first id (1 in SQLite).
 */
module BuildDatabase {
  import opened Seqs
  import opened Uuids
  import opened Digests
  import opened BuildInput
  import opened ContentObjects
  import opened Wrappers

  datatype FileSetRow = FileSetRow(id: int, uuid: Uuid, name: string)

  datatype ContentObjectRow = ContentObjectRow(id: int, hash: Digest, size: nat)

  datatype FileRow = FileRow(path: string, contentObjectId: int, fileSetId: int)

  /** The `file_sets` rows and the map from target path to file-set id that
      `PopulateFileSets` returns. */
  datatype FileSetTable = FileSetTable(rows: seq<FileSetRow>, idOf: map<string, int>)

  /** Index of the last file set that installs a file at `target`, or -1. */
  function LastSetWith(sets: seq<FileSet>, target: string): (i: int)
    ensures -1 <= i < |sets|
    ensures i >= 0 ==> target in TargetsOf(sets[i].files)
    ensures forall k :: i < k < |sets| ==> target !in TargetsOf(sets[k].files)
    decreases |sets|
  {
    if |sets| == 0 then -1
    else if target in TargetsOf(sets[|sets| - 1].files) then |sets| - 1
    else LastSetWith(sets[..|sets| - 1], target)
  }

  /** `result[file.target] = fileSetId` for each file of one set. */
  function AssignAll(idOf: map<string, int>, files: seq<File>, id: int): (r: map<string, int>)
    ensures forall t :: t in r <==> t in idOf || t in TargetsOf(files)
    ensures forall t :: t in r ==> r[t] == if t in TargetsOf(files) then id else idOf[t]
    decreases |files|
  {
    if |files| == 0 then idOf
    else
      var n := |files|;
      assert TargetsOf(files) == TargetsOf(files[..n - 1]) + [files[n - 1].target];
      AssignAll(idOf, files[..n - 1], id)[files[n - 1].target := id]
  }

  /** `PopulateFileSets`: one row per file set, ids counting up from
      `firstId`, and every target mapped to the id of the last file set
      that contains it. */
  function PopulateFileSets(sets: seq<FileSet>, firstId: int): (t: FileSetTable)
    ensures |t.rows| == |sets|
    ensures forall i :: 0 <= i < |sets| ==> t.rows[i] == FileSetRow(firstId + i, sets[i].id, sets[i].name)
    ensures forall p :: p in t.idOf <==> LastSetWith(sets, p) >= 0
    ensures forall p :: p in t.idOf ==> t.idOf[p] == firstId + LastSetWith(sets, p)
    decreases |sets|
  {
    if |sets| == 0 then FileSetTable([], map[])
    else
      var n := |sets|;
      var t := PopulateFileSets(sets[..n - 1], firstId);
      var rows := t.rows + [FileSetRow(firstId + n - 1, sets[n - 1].id, sets[n - 1].name)];
      var idOf := AssignAll(t.idOf, sets[n - 1].files, firstId + n - 1);
      assert forall i :: 0 <= i < n ==> rows[i] == FileSetRow(firstId + i, sets[i].id, sets[i].name) by {
        forall i | 0 <= i < n ensures rows[i] == FileSetRow(firstId + i, sets[i].id, sets[i].name) {
          if i < n - 1 {
            assert sets[..n - 1][i] == sets[i];
          }
        }
      }
      assert forall p :: p in idOf <==> LastSetWith(sets, p) >= 0;
      FileSetTable(rows, idOf)
  }

  /** Every file's target is in the map, so the lookup
      `fileToFileSetId.find(reference)->second` always finds its key. */
  lemma {:induction false} EveryTargetHasFileSet(sets: seq<FileSet>, firstId: int, k: nat)
    requires k < |AllFiles(sets)|
    ensures AllFiles(sets)[k].target in PopulateFileSets(sets, firstId).idOf
    decreases |sets|
  {
    var n := |sets|;
    var prefix := AllFiles(sets[..n - 1]);
    assert AllFiles(sets) == prefix + sets[n - 1].files;
    if k < |prefix| {
      EveryTargetHasFileSet(sets[..n - 1], firstId, k);
      var target := prefix[k].target;
      assert LastSetWith(sets[..n - 1], target) >= 0;
      if target !in TargetsOf(sets[n - 1].files) {
        assert LastSetWith(sets, target) == LastSetWith(sets[..n - 1], target);
      }
    } else {
      assert TargetsOf(sets[n - 1].files)[k - |prefix|] == AllFiles(sets)[k].target;
    }
  }

  /** The `content_objects` rows: one per content object, ids counting up. */
  function ContentObjectRows(objs: seq<UniqueContentObject>, firstId: int): (r: seq<ContentObjectRow>)
    ensures |r| == |objs|
    ensures forall i :: 0 <= i < |objs| ==> r[i] == ContentObjectRow(firstId + i, objs[i].hash, objs[i].size)
    ensures forall i, j :: 0 <= i < j < |r| ==> r[i].id < r[j].id
    ensures forall i :: 0 <= i < |r| ==> firstId <= r[i].id < firstId + |objs|
    ensures forall i :: 0 <= i < |r| - 1 ==> r[i + 1].id == r[i].id + 1
  {
    seq(|objs|, i requires 0 <= i < |objs| => ContentObjectRow(firstId + i, objs[i].hash, objs[i].size))
  }

  /** Every duplicate has a file-set id. */
  predicate DuplicatesKnown(objs: seq<UniqueContentObject>, idOf: map<string, int>) {
    forall i, j :: 0 <= i < |objs| && 0 <= j < |objs[i].duplicates| ==> objs[i].duplicates[j] in idOf
  }

  /** The `files` rows of one content object: one per duplicate, in order. */
  function FileRowsOf(o: UniqueContentObject, contentObjectId: int, idOf: map<string, int>): (r: seq<FileRow>)
    requires forall j :: 0 <= j < |o.duplicates| ==> o.duplicates[j] in idOf
    ensures |r| == |o.duplicates|
    ensures forall j :: 0 <= j < |r| ==>
              r[j] == FileRow(o.duplicates[j], contentObjectId, idOf[o.duplicates[j]])
    ensures forall x :: x in r ==>
              x.path in o.duplicates && x.path in idOf && x == FileRow(x.path, contentObjectId, idOf[x.path])
    ensures forall p :: p in o.duplicates ==> p in idOf && FileRow(p, contentObjectId, idOf[p]) in r
  {
    seq(|o.duplicates|, j requires 0 <= j < |o.duplicates| =>
      FileRow(o.duplicates[j], contentObjectId, idOf[o.duplicates[j]]))
  }

  /** The `files` rows: for each content object in turn, one row per
      duplicate with the object's id and the path's file-set id. */
  function FileRows(objs: seq<UniqueContentObject>, firstId: int, idOf: map<string, int>): (r: seq<FileRow>)
    requires DuplicatesKnown(objs, idOf)
    ensures |r| == TotalDuplicates(objs)
    decreases |objs|
  {
    if |objs| == 0 then []
    else
      var n := |objs|;
      DuplicatesKnownPrefix(objs, idOf);
      FileRows(objs[..n - 1], firstId, idOf) + FileRowsOf(objs[n - 1], firstId + n - 1, idOf)
  }

  lemma DuplicatesKnownPrefix(objs: seq<UniqueContentObject>, idOf: map<string, int>)
    requires |objs| > 0 && DuplicatesKnown(objs, idOf)
    ensures DuplicatesKnown(objs[..|objs| - 1], idOf)
  {
    assert forall i :: 0 <= i < |objs| - 1 ==> objs[..|objs| - 1][i] == objs[i];
  }

  /** The row of duplicate `j` of content object `i` sits after the rows of
      the objects before `i`: the object's id, the duplicate's path and its
      file-set id. */
  lemma {:induction false} FileRowsAt(objs: seq<UniqueContentObject>, firstId: int, idOf: map<string, int>,
                                      i: nat, j: nat)
    requires DuplicatesKnown(objs, idOf)
    requires i < |objs| && j < |objs[i].duplicates|
    ensures objs[i].duplicates[j] in idOf
    ensures TotalDuplicates(objs[..i]) + j < |FileRows(objs, firstId, idOf)|
    ensures FileRows(objs, firstId, idOf)[TotalDuplicates(objs[..i]) + j]
            == FileRow(objs[i].duplicates[j], firstId + i, idOf[objs[i].duplicates[j]])
    decreases |objs|
  {
    var n := |objs|;
    DuplicatesKnownPrefix(objs, idOf);
    var prefix := FileRows(objs[..n - 1], firstId, idOf);
    var r := FileRows(objs, firstId, idOf);
    if i == n - 1 {
      assert r[|prefix| + j] == FileRowsOf(objs[n - 1], firstId + n - 1, idOf)[j];
    } else {
      TakeOfTake(objs, n - 1, i);
      assert objs[..n - 1][i] == objs[i];
      FileRowsAt(objs[..n - 1], firstId, idOf, i, j);
      assert r[TotalDuplicates(objs[..i]) + j] == prefix[TotalDuplicates(objs[..i]) + j];
    }
  }

  /** Every row is the row of some duplicate of some content object: the
      rows hold nothing else. */
  lemma {:induction false} FileRowsFrom(objs: seq<UniqueContentObject>, firstId: int, idOf: map<string, int>,
                                        k: nat) returns (i: nat, j: nat)
    requires DuplicatesKnown(objs, idOf)
    requires k < |FileRows(objs, firstId, idOf)|
    ensures i < |objs| && j < |objs[i].duplicates|
    ensures k == TotalDuplicates(objs[..i]) + j
    decreases |objs|
  {
    var n := |objs|;
    DuplicatesKnownPrefix(objs, idOf);
    var prefix := FileRows(objs[..n - 1], firstId, idOf);
    if k < |prefix| {
      i, j := FileRowsFrom(objs[..n - 1], firstId, idOf, k);
      TakeOfTake(objs, n - 1, i);
      assert objs[..n - 1][i] == objs[i];
    } else {
      i, j := n - 1, k - |prefix|;
    }
  }

  /** Every duplicate of every content object of a build has a file-set id:
      the lookups of the second loop never miss. */
  lemma DuplicatesHaveFileSets(sets: seq<FileSet>, sourceDirectory: string, contents: Contents, firstId: int)
    requires FindUniqueFileContents(sets, sourceDirectory, contents).Success?
    ensures DuplicatesKnown(FindUniqueFileContents(sets, sourceDirectory, contents).value,
                            PopulateFileSets(sets, firstId).idOf)
  {
    var objs := FindUniqueFileContents(sets, sourceDirectory, contents).value;
    forall i, j | 0 <= i < |objs| && 0 <= j < |objs[i].duplicates|
      ensures objs[i].duplicates[j] in PopulateFileSets(sets, firstId).idOf
    {
      DuplicateHasFileSet(sets, sourceDirectory, contents, firstId, i, j);
    }
  }

  lemma DuplicateHasFileSet(sets: seq<FileSet>, sourceDirectory: string, contents: Contents, firstId: int,
                            i: nat, j: nat)
    requires FindUniqueFileContents(sets, sourceDirectory, contents).Success?
    requires i < |FindUniqueFileContents(sets, sourceDirectory, contents).value|
    requires j < |FindUniqueFileContents(sets, sourceDirectory, contents).value[i].duplicates|
    ensures FindUniqueFileContents(sets, sourceDirectory, contents).value[i].duplicates[j]
              in PopulateFileSets(sets, firstId).idOf
  {
    var k := DuplicateIsTarget(sets, sourceDirectory, contents, i, j);
    EveryTargetHasFileSet(sets, firstId, k);
  }

  /** Every file of every file set gets a `files` row at its target, with
      the id of the content object holding its hash and the id of the last
      file set that installs that target. */
  lemma EveryFileHasRow(sets: seq<FileSet>, sourceDirectory: string, contents: Contents,
                        objs: seq<UniqueContentObject>, firstFileSetId: int, firstContentObjectId: int, k: nat)
    requires FindUniqueFileContents(sets, sourceDirectory, contents) == Success(objs)
    requires k < |AllFiles(sets)|
    ensures var idOf := PopulateFileSets(sets, firstFileSetId).idOf;
            var f := AllFiles(sets)[k];
            DuplicatesKnown(objs, idOf)
            && f.target in idOf
            && exists i :: 0 <= i < |objs| && objs[i].hash == f.hash
                 && FileRow(f.target, firstContentObjectId + i, idOf[f.target])
                      in FileRows(objs, firstContentObjectId, idOf)
  {
    var files := AllFiles(sets);
    var idOf := PopulateFileSets(sets, firstFileSetId).idOf;
    DuplicatesHaveFileSets(sets, sourceDirectory, contents, firstFileSetId);
    EveryTargetHasFileSet(sets, firstFileSetId, k);
    var f := files[k];
    var i := ObjectOfFile(sets, sourceDirectory, contents, k);
    var j := WithHashPosition(files, k);
    assert objs[i].duplicates[j] == f.target;
    FileRowsAt(objs, firstContentObjectId, idOf, i, j);
    var rows := FileRows(objs, firstContentObjectId, idOf);
    assert rows[TotalDuplicates(objs[..i]) + j] == FileRow(f.target, firstContentObjectId + i, idOf[f.target]);
  }

  /** The content object holding a file's hash, whose duplicates are the
      targets of the files with that hash. */
  lemma ObjectOfFile(sets: seq<FileSet>, sourceDirectory: string, contents: Contents, k: nat) returns (i: nat)
    requires FindUniqueFileContents(sets, sourceDirectory, contents).Success?
    requires k < |AllFiles(sets)|
    ensures var objs := FindUniqueFileContents(sets, sourceDirectory, contents).value;
            var h := AllFiles(sets)[k].hash;
            i < |objs| && objs[i].hash == h && objs[i].duplicates == TargetsOf(WithHash(AllFiles(sets), h))
  {
    var objs := FindUniqueFileContents(sets, sourceDirectory, contents).value;
    FindUniqueFileContentsGroups(sets, sourceDirectory, contents);
    i :| 0 <= i < |objs| && objs[i].hash == AllFiles(sets)[k].hash;
  }

  /** A file is found in the group of its own hash. */
  lemma {:induction false} WithHashPosition(files: seq<File>, k: nat) returns (j: nat)
    requires k < |files|
    ensures j < |WithHash(files, files[k].hash)| && WithHash(files, files[k].hash)[j] == files[k]
    decreases |files|
  {
    var n := |files|;
    if k == n - 1 {
      j := |WithHash(files[..n - 1], files[k].hash)|;
    } else {
      j := WithHashPosition(files[..n - 1], k);
    }
  }

  /** Where a loose repository stores a content object, below its objects
      directory: the digest's text. */
  function LooseObjectPath(objectsDirectory: string, hash: Digest): string {
    Paths.Append(objectsDirectory, DigestText(hash))
  }

  /** `copy_file(kv.sourceFile, contentObjectPath / ToString(kv.hash))` for
      each content object of the loose builder, as (from, to) pairs. */
  function LooseCopies(objs: seq<UniqueContentObject>, objectsDirectory: string): (r: seq<(string, string)>)
    ensures |r| == |objs|
    ensures forall i :: 0 <= i < |objs| ==> r[i] == (objs[i].sourceFile, LooseObjectPath(objectsDirectory, objs[i].hash))
  {
    seq(|objs|, i requires 0 <= i < |objs| => (objs[i].sourceFile, LooseObjectPath(objectsDirectory, objs[i].hash)))
  }

  /** Distinct contents are copied to distinct object files, so no copy
      overwrites another. */
  lemma LooseCopiesDistinct(objs: seq<UniqueContentObject>, objectsDirectory: string, i: nat, j: nat)
    requires i < j < |objs| && objs[i].hash != objs[j].hash
    ensures LooseCopies(objs, objectsDirectory)[i].1 != LooseCopies(objs, objectsDirectory)[j].1
  {
    LooseObjectPathInjective(objectsDirectory, objs[i].hash, objs[j].hash);
  }

  /** Different digests are stored under different paths. */
  lemma LooseObjectPathInjective(objectsDirectory: string, a: Digest, b: Digest)
    requires a != b
    ensures LooseObjectPath(objectsDirectory, a) != LooseObjectPath(objectsDirectory, b)
  {
    var ta, tb := DigestText(a), DigestText(b);
    if ta == tb {
      DigestTextInjective(a, b);
    }
    DigestTextIsRelative(a);
    DigestTextIsRelative(b);
    AppendInjective(objectsDirectory, ta, tb);
  }

  /** Appending different names to the same directory gives different
      paths when the names have no separator at the front. */
  lemma AppendInjective(dir: string, a: string, b: string)
    requires a != b && !Paths.StartsWithSep(a) && !Paths.StartsWithSep(b)
    ensures Paths.Append(dir, a) != Paths.Append(dir, b)
  {
    if |a| == 0 || |b| == 0 {
    } else if |dir| == 0 || Paths.EndsWithSep(dir) {
      assert Paths.Append(dir, a)[|dir|..] == a;
      assert Paths.Append(dir, b)[|dir|..] == b;
    } else {
      assert Paths.Append(dir, a)[|dir| + 1..] == a;
      assert Paths.Append(dir, b)[|dir| + 1..] == b;
    }
  }
}

=== FILE: build_input.dfy ===
/** The first two steps of `BuildRepository` (src/base/src/RepositoryBuilder.cpp):
    reading the descriptor's file sets and hashing every file.

    The descriptor is the abstract element tree of module `Xml`; the text
    of a missing attribute reads as the empty string, as pugixml's
    `as_string` gives. `Uuid::Parse` is a parameter.
 */
module BuildInput {
  import opened Wrappers
  import opened Paths
  import opened Xml
  import opened Uuids
  import opened Digests

  /** A file of a file set: where it is read from, where it is installed,
      and its content hash (empty until the files are hashed). */
  datatype File = File(source: string, target: string, hash: Digest)

  datatype FileSet = FileSet(files: seq<File>, name: string, id: Uuid)

  /** `node.attribute(name).as_string()`. */
  function AttrText(e: Element, name: string): string {
    GetAttr(e.attrs, name).GetOr("")
  }

  /** One `File` node: `Target` is used when the attribute exists, even
      with an empty value, and the source otherwise. */
  function ReadFile(node: Element): (f: File)
    ensures f.source == GetAttr(node.attrs, "Source").GetOr("")
    ensures GetAttr(node.attrs, "Target").Some? ==> f.target == GetAttr(node.attrs, "Target").value
    ensures GetAttr(node.attrs, "Target").None? ==> f.target == f.source
    ensures f.hash == []
  {
    var source := AttrText(node, "Source");
    var target := match GetAttr(node.attrs, "Target")
      case Some(t) => t
      case None => source;
    File(source, target, [])
  }

  /** A `File` node carrying only a `Source`, the shape the manifest
      builder writes, is installed at its source path. */
  lemma ReadFileWithoutTarget(node: Element, source: string)
    requires GetAttr(node.attrs, "Source") == Some(source) && GetAttr(node.attrs, "Target") == None
    ensures ReadFile(node) == File(source, source, [])
  {
  }

  /** A `File` node with both attributes keeps them apart. */
  lemma ReadFileWithTarget(source: string, target: string)
    ensures ReadFile(Element("File", [Attr("Source", source), Attr("Target", target)], "", [])) == File(source, target, [])
  {
    var attrs := [Attr("Source", source), Attr("Target", target)];
    assert attrs[1..] == [Attr("Target", target)];
    assert GetAttr(attrs, "Source") == Some(source);
    assert GetAttr(attrs, "Target") == GetAttr(attrs[1..], "Target") == Some(target);
  }

  /** One `FileSet` node: its name, its parsed id and one file per `File`
      child, in document order. Children with other tags are ignored. */
  function ReadFileSet(node: Element, parseId: string -> Uuid): (s: FileSet)
    ensures s.name == AttrText(node, "Name") && s.id == parseId(AttrText(node, "Id"))
    ensures |s.files| == |ChildrenNamed(node, "File")|
    ensures forall j :: 0 <= j < |s.files| ==> s.files[j] == ReadFile(ChildrenNamed(node, "File")[j])
  {
    var fileNodes := ChildrenNamed(node, "File");
    FileSet(seq(|fileNodes|, j requires 0 <= j < |fileNodes| => ReadFile(fileNodes[j])),
            AttrText(node, "Name"), parseId(AttrText(node, "Id")))
  }

  /** `GetFileSets`: one file set per `FileSet` element anywhere in the
      document (`//FileSet`), in document order. */
  function GetFileSets(root: Element, parseId: string -> Uuid): (r: seq<FileSet>)
    ensures |r| == |SelectTag(DocumentNodes(root), "FileSet")|
    ensures forall i :: 0 <= i < |r| ==> r[i] == ReadFileSet(SelectTag(DocumentNodes(root), "FileSet")[i], parseId)
  {
    var nodes := SelectTag(DocumentNodes(root), "FileSet");
    seq(|nodes|, i requires 0 <= i < |nodes| => ReadFileSet(nodes[i], parseId))
  }

  const CannotHash: string := "Could not open file for hashing."

  /** The hash of one file, read from `sourceDirectory / source`. */
  function HashFile(f: File, sourceDirectory: string, contents: Contents, sha: HashFunction): (r: Result<File>)
    ensures r.Success? <==> Append(sourceDirectory, f.source) in contents
    ensures r.Failure? ==> r.error == CannotHash
    ensures r.Success? ==> r.value == f.(hash := sha(contents[Append(sourceDirectory, f.source)]))
  {
    var path := Append(sourceDirectory, f.source);
    if path in contents then Success(f.(hash := sha(contents[path]))) else Failure(CannotHash)
  }

  /** Every file of a sequence hashed in order; the first missing file stops. */
  function HashAll(files: seq<File>, sourceDirectory: string, contents: Contents, sha: HashFunction)
    : (r: Result<seq<File>>)
    ensures r.Success? <==> forall j :: 0 <= j < |files| ==> Append(sourceDirectory, files[j].source) in contents
    ensures r.Failure? ==> r.error == CannotHash
    ensures r.Success? ==> |r.value| == |files|
    ensures r.Success? ==> forall j :: 0 <= j < |files| ==>
              r.value[j] == files[j].(hash := sha(contents[Append(sourceDirectory, files[j].source)]))
    decreases |files|
  {
    if |files| == 0 then Success([])
    else
      match HashFile(files[0], sourceDirectory, contents, sha)
      case Failure(e) => Failure(e)
      case Success(f) =>
        match HashAll(files[1..], sourceDirectory, contents, sha)
        case Failure(e) =>
          assert exists j :: 1 <= j < |files| && Append(sourceDirectory, files[j].source) !in contents by {
            var j :| 0 <= j < |files[1..]| && Append(sourceDirectory, files[1..][j].source) !in contents;
            assert files[1..][j] == files[j + 1];
          }
          Failure(e)
        case Success(rest) =>
          assert forall j :: 1 <= j < |files| ==> files[j] == files[1..][j - 1];
          Success([f] + rest)
  }

  /** A file set is hashed when each of its files carries the hash of the
      contents at `sourceDirectory / source`. */
  predicate Hashed(s: FileSet, sourceDirectory: string, contents: Contents, sha: HashFunction) {
    forall j :: 0 <= j < |s.files| ==>
      Append(sourceDirectory, s.files[j].source) in contents
      && s.files[j].hash == sha(contents[Append(sourceDirectory, s.files[j].source)])
  }

  /** Every source file of the file sets is present. */
  predicate AllSourcesPresent(sets: seq<FileSet>, sourceDirectory: string, contents: Contents) {
    forall i, j :: 0 <= i < |sets| && 0 <= j < |sets[i].files| ==>
      Append(sourceDirectory, sets[i].files[j].source) in contents
  }

  /** `out` is `s` with each file hashed: same name, id, sources and
      targets, and every hash taken from `sourceDirectory / source`. */
  predicate HashedCopy(out: FileSet, s: FileSet, sourceDirectory: string, contents: Contents, sha: HashFunction) {
    && out.name == s.name && out.id == s.id
    && |out.files| == |s.files|
    && (forall j :: 0 <= j < |s.files| ==>
          out.files[j].source == s.files[j].source && out.files[j].target == s.files[j].target)
    && Hashed(out, sourceDirectory, contents, sha)
  }

  lemma HashAllCopy(s: FileSet, files: seq<File>, sourceDirectory: string, contents: Contents, sha: HashFunction)
    requires HashAll(s.files, sourceDirectory, contents, sha) == Success(files)
    ensures HashedCopy(s.(files := files), s, sourceDirectory, contents, sha)
  {
  }

  /** `HashFiles`: each file of each file set gets the hash of its source
      file; names, ids, sources and targets are unchanged. Hashing a file
      that cannot be read is an error. */
  function HashFiles(sets: seq<FileSet>, sourceDirectory: string, contents: Contents, sha: HashFunction)
    : (r: Result<seq<FileSet>>)
    ensures r.Success? <==> AllSourcesPresent(sets, sourceDirectory, contents)
    ensures r.Failure? ==> r.error == CannotHash
    ensures r.Success? ==> |r.value| == |sets|
    ensures r.Success? ==> forall i :: 0 <= i < |sets| ==>
              HashedCopy(r.value[i], sets[i], sourceDirectory, contents, sha)
    decreases |sets|
  {
    if |sets| == 0 then Success([])
    else
      match HashAll(sets[0].files, sourceDirectory, contents, sha)
      case Failure(e) => Failure(e)
      case Success(files) =>
        match HashFiles(sets[1..], sourceDirectory, contents, sha)
        case Failure(e) =>
          SourcesPresentCons(sets, sourceDirectory, contents);
          Failure(e)
        case Success(rest) =>
          SourcesPresentCons(sets, sourceDirectory, contents);
          HashedCopyCons(sets, files, rest, sourceDirectory, contents, sha);
          Success([sets[0].(files := files)] + rest)
  }

  lemma SourcesPresentCons(sets: seq<FileSet>, sourceDirectory: string, contents: Contents)
    requires |sets| > 0
    ensures AllSourcesPresent(sets, sourceDirectory, contents)
            <==> (forall j :: 0 <= j < |sets[0].files| ==> Append(sourceDirectory, sets[0].files[j].source) in contents)
                 && AllSourcesPresent(sets[1..], sourceDirectory, contents)
  {
    if !AllSourcesPresent(sets[1..], sourceDirectory, contents) {
      var i, j :| 0 <= i < |sets[1..]| && 0 <= j < |sets[1..][i].files|
                  && Append(sourceDirectory, sets[1..][i].files[j].source) !in contents;
      assert sets[1..][i] == sets[i + 1];
    }
    assert forall i :: 1 <= i < |sets| ==> sets[i] == sets[1..][i - 1];
  }

  lemma HashedCopyCons(sets: seq<FileSet>, files: seq<File>, rest: seq<FileSet>,
                       sourceDirectory: string, contents: Contents, sha: HashFunction)
    requires |sets| > 0 && HashAll(sets[0].files, sourceDirectory, contents, sha) == Success(files)
    requires |rest| == |sets| - 1
    requires forall i :: 0 <= i < |rest| ==> HashedCopy(rest[i], sets[1..][i], sourceDirectory, contents, sha)
    ensures forall i :: 0 <= i < |sets| ==>
              HashedCopy(([sets[0].(files := files)] + rest)[i], sets[i], sourceDirectory, contents, sha)
  {
    var r := [sets[0].(files := files)] + rest;
    forall i | 0 <= i < |sets| ensures HashedCopy(r[i], sets[i], sourceDirectory, contents, sha) {
      if i == 0 {
        HashAllCopy(sets[0], files, sourceDirectory, contents, sha);
      } else {
        assert r[i] == rest[i - 1] && sets[i] == sets[1..][i - 1];
      }
    }
  }
}

=== FILE: content_objects.dfy ===
/** `FindUniqueFileContents` (src/base/src/RepositoryBuilder.cpp): files
    with the same content hash become one content object, which remembers
    every target path that shares it.

    The source collects the groups in an `unordered_map`, so the order of
    the resulting content objects is unspecified; the model lists them in
    the order their hash was first met, and the contracts below hold for
    any order.
 */
module ContentObjects {
  import opened Wrappers
  import opened Seqs
  import opened Paths
  import opened Digests
  import opened BuildInput

  /** One unique content: the file it is read from, its hash and size, and
      the target path of every file that has this content. */
  datatype UniqueContentObject = UniqueContentObject(sourceFile: string, hash: Digest, size: nat, duplicates: seq<string>)

  /** Every file of every file set, file sets in order. */
  function AllFiles(sets: seq<FileSet>): seq<File>
    decreases |sets|
  {
    if |sets| == 0 then [] else AllFiles(sets[..|sets| - 1]) + sets[|sets| - 1].files
  }

  function HashesOf(files: seq<File>): (r: seq<Digest>)
    ensures |r| == |files| && forall k :: 0 <= k < |files| ==> r[k] == files[k].hash
  {
    seq(|files|, k requires 0 <= k < |files| => files[k].hash)
  }

  function TargetsOf(files: seq<File>): (r: seq<string>)
    ensures |r| == |files| && forall k :: 0 <= k < |files| ==> r[k] == files[k].target
  {
    seq(|files|, k requires 0 <= k < |files| => files[k].target)
  }

  /** The files whose hash is `h`, in order. */
  function WithHash(files: seq<File>, h: Digest): (r: seq<File>)
    ensures |r| <= |files|
    ensures forall k :: 0 <= k < |r| ==> r[k].hash == h
    decreases |files|
  {
    if |files| == 0 then []
    else
      var prefix := WithHash(files[..|files| - 1], h);
      if files[|files| - 1].hash == h then prefix + [files[|files| - 1]] else prefix
  }

  /** A hash that some file has selects at least that file. */
  lemma {:induction false} WithHashNonEmpty(files: seq<File>, k: nat)
    requires k < |files|
    ensures |WithHash(files, files[k].hash)| > 0
    decreases |files|
  {
    if k < |files| - 1 {
      WithHashNonEmpty(files[..|files| - 1], k);
    }
  }

  /** A hash no file has selects nothing. */
  lemma {:induction false} WithHashEmpty(files: seq<File>, h: Digest)
    requires h !in HashesOf(files)
    ensures WithHash(files, h) == []
    decreases |files|
  {
    if |files| > 0 {
      var n := |files|;
      assert HashesOf(files[..n - 1]) == HashesOf(files)[..n - 1];
      assert files[n - 1].hash == HashesOf(files)[n - 1];
      WithHashEmpty(files[..n - 1], h);
    }
  }

  /** The map the first loop of the source fills, with the order in which
      its keys were inserted. */
  datatype Grouping = Grouping(order: seq<Digest>, groups: map<Digest, seq<File>>)

  /** `uniqueContents[file.hash].push_back(...)` for every file in turn:
      each hash is a key once, first-seen order, and its group holds the
      files with that hash in the order they were met. */
  function Group(files: seq<File>): (g: Grouping)
    ensures g.order == Dedup(HashesOf(files))
    ensures forall h :: h in g.groups <==> h in g.order
    ensures forall h :: h in g.groups ==> g.groups[h] == WithHash(files, h)
    decreases |files|
  {
    if |files| == 0 then Grouping([], map[])
    else
      var n := |files|;
      var g := Group(files[..n - 1]);
      var g' := Push(g, files[n - 1]);
      GroupStepOrder(files, g, g');
      NewKeyHasNoFiles(files[..n - 1], g, files[n - 1].hash);
      GroupStepGroups(files, g, g');
      g'
  }

  /** Adding one file to the group of its hash. */
  function Push(g: Grouping, f: File): Grouping {
    if f.hash in g.groups then Grouping(g.order, g.groups[f.hash := g.groups[f.hash] + [f]])
    else Grouping(g.order + [f.hash], g.groups[f.hash := [f]])
  }

  lemma GroupStepOrder(files: seq<File>, g: Grouping, g': Grouping)
    requires |files| > 0 && g' == Push(g, files[|files| - 1])
    requires g.order == Dedup(HashesOf(files[..|files| - 1]))
    requires forall h :: h in g.groups <==> h in g.order
    ensures g'.order == Dedup(HashesOf(files))
    ensures forall h :: h in g'.groups <==> h in g'.order
  {
    var n := |files|;
    var prefix := files[..n - 1];
    assert HashesOf(files) == HashesOf(prefix) + [files[n - 1].hash];
    DedupSnoc(HashesOf(prefix), files[n - 1].hash);
  }

  lemma WithHashSnoc(files: seq<File>, h: Digest)
    requires |files| > 0
    ensures WithHash(files, h) == if files[|files| - 1].hash == h then WithHash(files[..|files| - 1], h) + [files[|files| - 1]]
                                  else WithHash(files[..|files| - 1], h)
  {
  }

  lemma NewKeyHasNoFiles(files: seq<File>, g: Grouping, h: Digest)
    requires g.order == Dedup(HashesOf(files))
    requires forall h :: h in g.groups <==> h in g.order
    ensures h !in g.groups ==> WithHash(files, h) == []
  {
    if h !in g.groups {
      WithHashEmpty(files, h);
    }
  }

  lemma GroupStepGroups(files: seq<File>, g: Grouping, g': Grouping)
    requires |files| > 0 && g' == Push(g, files[|files| - 1])
    requires files[|files| - 1].hash !in g.groups ==> WithHash(files[..|files| - 1], files[|files| - 1].hash) == []
    requires forall h :: h in g.groups ==> g.groups[h] == WithHash(files[..|files| - 1], h)
    ensures forall h :: h in g'.groups ==> g'.groups[h] == WithHash(files, h)
  {
    forall h | h in g'.groups
      ensures g'.groups[h] == WithHash(files, h)
    {
      GroupStepAt(files, g, h);
    }
  }

  lemma GroupStepAt(files: seq<File>, g: Grouping, h: Digest)
    requires |files| > 0
    requires files[|files| - 1].hash !in g.groups ==> WithHash(files[..|files| - 1], files[|files| - 1].hash) == []
    requires h in g.groups ==> g.groups[h] == WithHash(files[..|files| - 1], h)
    ensures h in Push(g, files[|files| - 1]).groups ==> Push(g, files[|files| - 1]).groups[h] == WithHash(files, h)
  {
    var n := |files|;
    var f := files[n - 1];
    var prefix := files[..n - 1];
    WithHashSnoc(files, h);
  }

  const CannotStat: string := "Could not stat file."

  /** The content objects for the keys `order` of a grouping, in that order.
      The size is the size of the first file's source, read back with
      `Stat`; a file that cannot be found is an error. */
  function Objects(order: seq<Digest>, groups: map<Digest, seq<File>>, sourceDirectory: string, contents: Contents)
    : (r: Result<seq<UniqueContentObject>>)
    requires forall k :: 0 <= k < |order| ==> order[k] in groups && |groups[order[k]]| > 0
    ensures r.Success? <==> forall k :: 0 <= k < |order| ==>
              Append(sourceDirectory, groups[order[k]][0].source) in contents
    ensures r.Success? ==> |r.value| == |order| && forall k :: 0 <= k < |order| ==>
              && r.value[k].hash == order[k]
              && r.value[k].sourceFile == Append(sourceDirectory, groups[order[k]][0].source)
              && r.value[k].sourceFile in contents
              && r.value[k].size == |contents[r.value[k].sourceFile]|
              && r.value[k].duplicates == TargetsOf(groups[order[k]])
    decreases |order|
  {
    if |order| == 0 then Success([])
    else
      var n := |order|;
      match Objects(order[..n - 1], groups, sourceDirectory, contents)
      case Failure(e) =>
        assert exists k :: 0 <= k < n - 1 && Append(sourceDirectory, groups[order[k]][0].source) !in contents by {
          var k :| 0 <= k < n - 1 && Append(sourceDirectory, groups[order[..n - 1][k]][0].source) !in contents;
        }
        Failure(e)
      case Success(prefix) =>
        var group := groups[order[n - 1]];
        var sourceFile := Append(sourceDirectory, group[0].source);
        if sourceFile in contents then
          Success(prefix + [UniqueContentObject(sourceFile, order[n - 1], |contents[sourceFile]|, TargetsOf(group))])
        else Failure(CannotStat)
  }

  /** An element of a hash's group is one of the files. */
  lemma {:induction false} WithHashMember(files: seq<File>, h: Digest, k: nat)
    requires k < |WithHash(files, h)|
    ensures WithHash(files, h)[k] in files
    decreases |files|
  {
    var n := |files|;
    var prefix := WithHash(files[..n - 1], h);
    if k < |prefix| {
      WithHashMember(files[..n - 1], h, k);
      assert files[..n - 1] <= files;
    }
  }

  /** What `Group` provides to the second loop: distinct keys, each with a
      non-empty group, and every file's hash among them. */
  lemma GroupFacts(files: seq<File>)
    ensures var g := Group(files);
            && NoDuplicates(g.order)
            && (forall k :: 0 <= k < |g.order| ==>
                  g.order[k] in g.groups && |g.groups[g.order[k]]| > 0
                  && g.groups[g.order[k]] == WithHash(files, g.order[k]))
            && forall k :: 0 <= k < |files| ==> files[k].hash in g.order
  {
    var g := Group(files);
    var hs := HashesOf(files);
    forall k | 0 <= k < |g.order| ensures |WithHash(files, g.order[k])| > 0 {
      KeyHasFiles(files, g.order[k]);
    }
    forall k | 0 <= k < |files| ensures files[k].hash in g.order {
      assert hs[k] == files[k].hash;
    }
  }

  /** A hash met among the files selects at least one file. */
  lemma KeyHasFiles(files: seq<File>, h: Digest)
    requires h in Dedup(HashesOf(files))
    ensures |WithHash(files, h)| > 0
  {
    var hs := HashesOf(files);
    var i :| 0 <= i < |hs| && hs[i] == h;
    WithHashNonEmpty(files, i);
  }

  /** `FindUniqueFileContents`: one content object per key of the
      grouping of all files. */
  function FindUniqueFileContents(sets: seq<FileSet>, sourceDirectory: string, contents: Contents)
    : Result<seq<UniqueContentObject>>
  {
    var files := AllFiles(sets);
    var g := Group(files);
    GroupFacts(files);
    Objects(g.order, g.groups, sourceDirectory, contents)
  }

  /** The first file met with the same hash as `files[k]`. */
  function FirstWithSameHash(files: seq<File>, k: nat): File
    requires k < |files|
  {
    WithHashNonEmpty(files, k);
    WithHash(files, files[k].hash)[0]
  }

  /** Every file's source is found under the source directory. */
  predicate SourcesFound(files: seq<File>, sourceDirectory: string, contents: Contents) {
    forall k :: 0 <= k < |files| ==> Append(sourceDirectory, files[k].source) in contents
  }

  /** The source that represents each file's content is found. */
  predicate FirstSourcesFound(files: seq<File>, sourceDirectory: string, contents: Contents) {
    forall k :: 0 <= k < |files| ==> Append(sourceDirectory, FirstWithSameHash(files, k).source) in contents
  }

  /** `Stat` is called once per content, on the first source with that
      content. */
  lemma ObjectsOutcome(files: seq<File>, g: Grouping, sourceDirectory: string, contents: Contents)
    requires NoDuplicates(g.order)
    requires forall k :: 0 <= k < |g.order| ==>
               g.order[k] in g.groups && |g.groups[g.order[k]]| > 0
               && g.groups[g.order[k]] == WithHash(files, g.order[k])
    requires forall k :: 0 <= k < |files| ==> files[k].hash in g.order
    ensures Objects(g.order, g.groups, sourceDirectory, contents).Success?
            <==> FirstSourcesFound(files, sourceDirectory, contents)
  {
    if Objects(g.order, g.groups, sourceDirectory, contents).Failure? {
      var i :| 0 <= i < |g.order| && Append(sourceDirectory, g.groups[g.order[i]][0].source) !in contents;
      var k :| 0 <= k < |files| && files[k] == WithHash(files, g.order[i])[0] by {
        WithHashMember(files, g.order[i], 0);
      }
      assert FirstWithSameHash(files, k) == WithHash(files, g.order[i])[0];
    } else {
      forall k | 0 <= k < |files|
        ensures Append(sourceDirectory, FirstWithSameHash(files, k).source) in contents
      {
        var i :| 0 <= i < |g.order| && g.order[i] == files[k].hash;
      }
    }
  }

  /** A first source is a source, so it is found when all of them are. */
  lemma SourcesFoundFirst(files: seq<File>, sourceDirectory: string, contents: Contents)
    requires SourcesFound(files, sourceDirectory, contents)
    ensures FirstSourcesFound(files, sourceDirectory, contents)
  {
    forall k | 0 <= k < |files|
      ensures Append(sourceDirectory, FirstWithSameHash(files, k).source) in contents
    {
      WithHashNonEmpty(files, k);
      WithHashMember(files, files[k].hash, 0);
    }
  }

  /** The call succeeds exactly when the first source of each content can
      be found, in particular whenever every source can. */
  lemma FindUniqueFileContentsOutcome(sets: seq<FileSet>, sourceDirectory: string, contents: Contents)
    ensures FindUniqueFileContents(sets, sourceDirectory, contents).Success?
            <==> FirstSourcesFound(AllFiles(sets), sourceDirectory, contents)
    ensures SourcesFound(AllFiles(sets), sourceDirectory, contents) ==>
              FindUniqueFileContents(sets, sourceDirectory, contents).Success?
  {
    var files := AllFiles(sets);
    var g := Group(files);
    GroupFacts(files);
    ObjectsOutcome(files, g, sourceDirectory, contents);
    if SourcesFound(files, sourceDirectory, contents) {
      SourcesFoundFirst(files, sourceDirectory, contents);
    }
  }

  /** Each content object belongs to exactly one distinct hash among the
      files, every hash has one, its duplicates are the targets of all
      files with that hash in encounter order, and its source is the first
      such file's source under the source directory. */
  lemma FindUniqueFileContentsGroups(sets: seq<FileSet>, sourceDirectory: string, contents: Contents)
    requires FindUniqueFileContents(sets, sourceDirectory, contents).Success?
    ensures var r := FindUniqueFileContents(sets, sourceDirectory, contents).value;
            var files := AllFiles(sets);
            && (forall i, j :: 0 <= i < j < |r| ==> r[i].hash != r[j].hash)
            && (forall k :: 0 <= k < |files| ==> exists i :: 0 <= i < |r| && r[i].hash == files[k].hash)
            && forall i :: 0 <= i < |r| ==>
                 var same := WithHash(files, r[i].hash);
                 && |same| > 0
                 && r[i].duplicates == TargetsOf(same)
                 && r[i].sourceFile == Append(sourceDirectory, same[0].source)
                 && r[i].size == |contents[r[i].sourceFile]|
  {
    var files := AllFiles(sets);
    var g := Group(files);
    GroupFacts(files);
    var r := Objects(g.order, g.groups, sourceDirectory, contents).value;
    assert r == FindUniqueFileContents(sets, sourceDirectory, contents).value;
    forall k | 0 <= k < |files|
      ensures exists i :: 0 <= i < |r| && r[i].hash == files[k].hash
    {
      var i :| 0 <= i < |g.order| && g.order[i] == files[k].hash;
      assert r[i].hash == files[k].hash;
    }
  }

  /** A content object's source file is the source of a file with its
      hash, read from `sourceDirectory`. */
  lemma ObjectSource(sets: seq<FileSet>, sourceDirectory: string, contents: Contents, i: nat) returns (k: nat)
    requires FindUniqueFileContents(sets, sourceDirectory, contents).Success?
    requires i < |FindUniqueFileContents(sets, sourceDirectory, contents).value|
    ensures var o := FindUniqueFileContents(sets, sourceDirectory, contents).value[i];
            && k < |AllFiles(sets)| && AllFiles(sets)[k].hash == o.hash
            && o.sourceFile == Append(sourceDirectory, AllFiles(sets)[k].source)
            && o.sourceFile in contents && o.size == |contents[o.sourceFile]|
  {
    var files := AllFiles(sets);
    var g := Group(files);
    GroupFacts(files);
    k := ObjectsSource(g.order, g.groups, files, sourceDirectory, contents, i);
  }

  /** `ObjectSource` at the level of a grouping. */
  lemma ObjectsSource(order: seq<Digest>, groups: map<Digest, seq<File>>, files: seq<File>,
                      sourceDirectory: string, contents: Contents, i: nat) returns (k: nat)
    requires forall k :: 0 <= k < |order| ==>
               order[k] in groups && |groups[order[k]]| > 0 && groups[order[k]] == WithHash(files, order[k])
    requires Objects(order, groups, sourceDirectory, contents).Success?
    requires i < |Objects(order, groups, sourceDirectory, contents).value|
    ensures var o := Objects(order, groups, sourceDirectory, contents).value[i];
            && k < |files| && files[k].hash == o.hash
            && o.sourceFile == Append(sourceDirectory, files[k].source)
            && o.sourceFile in contents && o.size == |contents[o.sourceFile]|
  {
    var h := order[i];
    WithHashMember(files, h, 0);
    k :| 0 <= k < |files| && files[k] == WithHash(files, h)[0];
  }

  /** Each duplicate of a content object is the target of a file with
      that content. */
  lemma DuplicateIsTarget(sets: seq<FileSet>, sourceDirectory: string, contents: Contents, i: nat, j: nat)
    returns (k: nat)
    requires FindUniqueFileContents(sets, sourceDirectory, contents).Success?
    requires i < |FindUniqueFileContents(sets, sourceDirectory, contents).value|
    requires j < |FindUniqueFileContents(sets, sourceDirectory, contents).value[i].duplicates|
    ensures k < |AllFiles(sets)|
    ensures var o := FindUniqueFileContents(sets, sourceDirectory, contents).value[i];
            AllFiles(sets)[k].target == o.duplicates[j] && AllFiles(sets)[k].hash == o.hash
  {
    var files := AllFiles(sets);
    var o := FindUniqueFileContents(sets, sourceDirectory, contents).value[i];
    var same := WithHash(files, o.hash);
    assert o.duplicates == TargetsOf(same) by {
      FindUniqueFileContentsGroups(sets, sourceDirectory, contents);
    }
    k := GroupMemberIndex(files, o.hash, j);
  }

  /** The `j`th file with hash `h` sits at some index of the files. */
  lemma GroupMemberIndex(files: seq<File>, h: Digest, j: nat) returns (k: nat)
    requires j < |WithHash(files, h)|
    ensures k < |files| && files[k] == WithHash(files, h)[j]
    ensures files[k].target == TargetsOf(WithHash(files, h))[j] && files[k].hash == h
  {
    WithHashMember(files, h, j);
    k :| 0 <= k < |files| && files[k] == WithHash(files, h)[j];
  }

  /** Total number of duplicates over all content objects. */
  function TotalDuplicates(objs: seq<UniqueContentObject>): nat
    decreases |objs|
  {
    if |objs| == 0 then 0 else TotalDuplicates(objs[..|objs| - 1]) + |objs[|objs| - 1].duplicates|
  }

  /** Number of files whose hash is one of `hs`. */
  function CountWithHashes(files: seq<File>, hs: seq<Digest>): nat
    decreases |hs|
  {
    if |hs| == 0 then 0 else CountWithHashes(files, hs[..|hs| - 1]) + |WithHash(files, hs[|hs| - 1])|
  }

  /** One more file adds one to the count of the hashes that include its
      own, and nothing to the others. */
  lemma {:induction false} CountWithHashesSnoc(files: seq<File>, f: File, hs: seq<Digest>)
    requires NoDuplicates(hs)
    ensures CountWithHashes(files + [f], hs) == CountWithHashes(files, hs) + if f.hash in hs then 1 else 0
    decreases |hs|
  {
    if |hs| > 0 {
      var n := |hs|;
      CountWithHashesSnoc(files, f, hs[..n - 1]);
      assert (files + [f])[..|files|] == files;
      if f.hash == hs[n - 1] {
        assert f.hash !in hs[..n - 1];
      }
    }
  }

  /** The distinct hashes account for every file exactly once. */
  lemma {:induction false} CountWithHashesDedup(files: seq<File>)
    ensures CountWithHashes(files, Dedup(HashesOf(files))) == |files|
    decreases |files|
  {
    if |files| > 0 {
      var n := |files|;
      var prefix := files[..n - 1];
      var f := files[n - 1];
      var d := Dedup(HashesOf(prefix));
      CountWithHashesDedup(prefix);
      SplitLast(files);
      HashesOfSnoc(files);
      DedupSnoc(HashesOf(prefix), f.hash);
      CountWithHashesSnoc(prefix, f, d);
      if f.hash !in d {
        CountWithNewHash(files, d, f.hash);
        assert f.hash !in HashesOf(prefix);
        WithHashEmpty(prefix, f.hash);
      }
    }
  }

  lemma HashesOfSnoc(files: seq<File>)
    requires |files| > 0
    ensures HashesOf(files) == HashesOf(files[..|files| - 1]) + [files[|files| - 1].hash]
  {
  }

  /** Counting one more hash adds the files with that hash. */
  lemma CountWithNewHash(files: seq<File>, hs: seq<Digest>, h: Digest)
    ensures CountWithHashes(files, hs + [h]) == CountWithHashes(files, hs) + |WithHash(files, h)|
  {
    PrefixOfAppend(hs, [h]);
  }

  lemma {:induction false} ObjectsTotal(order: seq<Digest>, groups: map<Digest, seq<File>>, files: seq<File>,
                                        objs: seq<UniqueContentObject>)
    requires |objs| == |order|
    requires forall k :: 0 <= k < |order| ==> objs[k].duplicates == TargetsOf(WithHash(files, order[k]))
    ensures TotalDuplicates(objs) == CountWithHashes(files, order)
    decreases |order|
  {
    if |order| > 0 {
      ObjectsTotal(order[..|order| - 1], groups, files, objs[..|objs| - 1]);
    }
  }

  /** Every file is recorded as exactly one duplicate: the duplicate lists
      together are as long as the list of all files. */
  lemma TotalDuplicatesIsFileCount(sets: seq<FileSet>, sourceDirectory: string, contents: Contents)
    requires FindUniqueFileContents(sets, sourceDirectory, contents).Success?
    ensures TotalDuplicates(FindUniqueFileContents(sets, sourceDirectory, contents).value) == |AllFiles(sets)|
  {
    var files := AllFiles(sets);
    var g := Group(files);
    GroupFacts(files);
    var r := Objects(g.order, g.groups, sourceDirectory, contents).value;
    assert r == FindUniqueFileContents(sets, sourceDirectory, contents).value;
    ObjectsTotal(g.order, g.groups, files, r);
    CountWithHashesDedup(files);
  }
}

=== FILE: deploy.dfy ===
/** Deploying a repository and opening one, from src/Core/src/Repository.cpp.

    `DeployedRepository::CreateFrom` installs file sets of another
    repository into a target directory. For each file set it reads the
    (hash, path) rows of its files, collects the distinct hashes in the
    order first met, the (hash, path) pairs and the parent directories,
    creates those directories, and asks the other repository for the
    distinct hashes; every content object sent back is written to every
    path recorded for it. The other repository is the parameter `fetch`.

    `OpenRepository` tells the two kinds apart by the `.ky` directory.
 */
module Deploy {
  import opened Seqs
  import opened Paths
  import opened Text
  import opened Digests
  import opened Validation
  import opened Repair
  import Uuids
  import BuildInput
  import ContentObjects
  import BuildDatabase
  import Build

  /** One row of the per-file-set query `SELECT Hash, Path`. */
  datatype FileEntry = FileEntry(hash: Digest, path: string)

  /** The hash column. */
  function Hashes(rows: seq<FileEntry>): (r: seq<Digest>)
    ensures |r| == |rows|
    ensures forall i :: 0 <= i < |rows| ==> r[i] == rows[i].hash
  {
    seq(|rows|, i requires 0 <= i < |rows| => rows[i].hash)
  }

  /** The (hash, path) pairs in row order: `contentObjectToFiles`, an
      unordered multimap whose `equal_range` is read in insertion order. */
  function Entries(rows: seq<FileEntry>): (r: seq<(Digest, string)>)
    ensures |r| == |rows|
    ensures forall i :: 0 <= i < |rows| ==> r[i] == (rows[i].hash, rows[i].path)
  {
    seq(|rows|, i requires 0 <= i < |rows| => (rows[i].hash, rows[i].path))
  }

  /** The parent directory of every file: `uniquePaths`. */
  function Parents(rows: seq<FileEntry>): set<string> {
    set i | 0 <= i < |rows| :: ParentPath(rows[i].path)
  }

  /** `contentObjectToFiles.find (hash) != contentObjectToFiles.end ()`. */
  predicate HasKey(entries: seq<(Digest, string)>, h: Digest) {
    exists k :: 0 <= k < |entries| && entries[k].0 == h
  }

  /** The collection loop of `CreateFrom`: a hash is pushed onto
      `uniqueContentObjects` when the multimap does not hold it yet, then
      the pair is inserted and the parent directory recorded. The result
      is the first-seen dedup of the hashes, every pair, and the set of
      parent directories. */
  method Collect(rows: seq<FileEntry>) returns (unique: seq<Digest>, entries: seq<(Digest, string)>, dirs: set<string>)
    ensures unique == Dedup(Hashes(rows))
    ensures entries == Entries(rows)
    ensures dirs == Parents(rows)
  {
    unique := [];
    entries := [];
    dirs := {};
    for i := 0 to |rows|
      invariant unique == Dedup(Hashes(rows[..i]))
      invariant entries == Entries(rows[..i])
      invariant dirs == Parents(rows[..i])
    {
      var h := rows[i].hash;
      CollectStep(rows, i);
      if !HasKey(entries, h) {
        unique := unique + [h];
      }
      entries := entries + [(h, rows[i].path)];
      dirs := dirs + {ParentPath(rows[i].path)};
    }
    assert rows[..|rows|] == rows;
  }

  /** One step of the collection loop, on the reference definitions: the
      multimap lookup agrees with the dedup seen so far, and each column
      grows by the row's value. */
  lemma CollectStep(rows: seq<FileEntry>, i: nat)
    requires i < |rows|
    ensures HasKey(Entries(rows[..i]), rows[i].hash) <==> rows[i].hash in Dedup(Hashes(rows[..i]))
    ensures Dedup(Hashes(rows[..i + 1])) ==
              if HasKey(Entries(rows[..i]), rows[i].hash) then Dedup(Hashes(rows[..i]))
              else Dedup(Hashes(rows[..i])) + [rows[i].hash]
    ensures Entries(rows[..i + 1]) == Entries(rows[..i]) + [(rows[i].hash, rows[i].path)]
    ensures Parents(rows[..i + 1]) == Parents(rows[..i]) + {ParentPath(rows[i].path)}
  {
    var h := rows[i].hash;
    var prefix := Hashes(rows[..i]);
    assert HasKey(Entries(rows[..i]), h) <==> h in Dedup(prefix) by {
      HasKeySeen(rows, i);
      DedupMembers(prefix, h);
    }
    assert Dedup(Hashes(rows[..i + 1])) == if h in Dedup(prefix) then Dedup(prefix) else Dedup(prefix) + [h] by {
      HashesSnoc(rows, i);
      DedupSnoc(prefix, h);
    }
    assert Entries(rows[..i + 1]) == Entries(rows[..i]) + [(h, rows[i].path)];
    ParentsSnoc(rows, i);
  }

  lemma HashesSnoc(rows: seq<FileEntry>, i: nat)
    requires i < |rows|
    ensures Hashes(rows[..i + 1]) == Hashes(rows[..i]) + [rows[i].hash]
  {
  }

  /** The multimap holds a hash exactly when an earlier row has it. */
  lemma HasKeySeen(rows: seq<FileEntry>, i: nat)
    requires i < |rows|
    ensures HasKey(Entries(rows[..i]), rows[i].hash) <==> rows[i].hash in Hashes(rows[..i])
  {
    var h := rows[i].hash;
    var prefix := Hashes(rows[..i]);
    if h in prefix {
      var k :| 0 <= k < i && prefix[k] == h;
      assert Entries(rows[..i])[k].0 == h;
    }
  }

  lemma ParentsSnoc(rows: seq<FileEntry>, i: nat)
    requires i < |rows|
    ensures Parents(rows[..i + 1]) == Parents(rows[..i]) + {ParentPath(rows[i].path)}
  {
    assert forall k :: 0 <= k < i ==> rows[..i + 1][k] == rows[..i][k];
    assert rows[..i + 1][i] == rows[i];
  }

  /** A value is in the dedup exactly when it is in the sequence. */
  lemma DedupMembers<T>(s: seq<T>, x: T)
    ensures x in Dedup(s) <==> x in s
  {
    if x in s {
      var i :| 0 <= i < |s| && s[i] == x;
    }
    if x in Dedup(s) {
      var i :| 0 <= i < |Dedup(s)| && Dedup(s)[i] == x;
    }
  }

  /** What deploying one file set does: the directories created, the
      hashes requested and the files written, with their bytes, in order. */
  datatype DeployPlan = DeployPlan(directories: set<string>, requested: seq<Digest>, writes: seq<(string, seq<byte>)>)

  /** `targetDirectory / path` for every write. */
  function Relocate(target: string, writes: seq<(string, seq<byte>)>): (r: seq<(string, seq<byte>)>)
    ensures |r| == |writes|
    ensures forall m :: 0 <= m < |writes| ==> r[m] == (Append(target, writes[m].0), writes[m].1)
  {
    seq(|writes|, m requires 0 <= m < |writes| => (Append(target, writes[m].0), writes[m].1))
  }

  /** One file set of `CreateFrom`: the parent directories are created
      under the target, the distinct hashes are requested, and each
      content object is written to every file recorded with its hash. */
  function DeployFileSet(target: string, rows: seq<FileEntry>, fetch: Fetch): (r: DeployPlan)
    ensures r.requested == Dedup(Hashes(rows))
  {
    var unique := Dedup(Hashes(rows));
    DeployPlan(set d | d in Parents(rows) :: Append(target, d), unique,
               Relocate(target, FanOut(unique, Entries(rows), fetch)))
  }

  /** The directories created are exactly the parents of the files, under
      the target. */
  lemma DeployDirectories(target: string, rows: seq<FileEntry>, fetch: Fetch)
    ensures forall i :: 0 <= i < |rows| ==>
              Append(target, ParentPath(rows[i].path)) in DeployFileSet(target, rows, fetch).directories
    ensures forall d :: d in DeployFileSet(target, rows, fetch).directories ==>
              exists i :: 0 <= i < |rows| && d == Append(target, ParentPath(rows[i].path))
  {
  }

  /** Every file of the file set is written, at `target / path`, with the
      bytes sent back for its hash. */
  lemma DeployWritesEveryFile(target: string, rows: seq<FileEntry>, fetch: Fetch, i: nat)
    requires i < |rows|
    ensures (Append(target, rows[i].path), fetch(rows[i].hash)) in DeployFileSet(target, rows, fetch).writes
  {
    var unique := Dedup(Hashes(rows));
    var fan := FanOut(unique, Entries(rows), fetch);
    assert Hashes(rows)[i] == rows[i].hash;
    FanOutCovers(unique, Entries(rows), fetch, i);
    var m :| 0 <= m < |fan| && fan[m] == (rows[i].path, fetch(rows[i].hash));
    assert DeployFileSet(target, rows, fetch).writes[m] == (Append(target, rows[i].path), fetch(rows[i].hash));
  }

  /** Every write is of some file of the file set, with its hash's bytes. */
  lemma DeployWriteOrigin(target: string, rows: seq<FileEntry>, fetch: Fetch, m: nat) returns (i: nat)
    requires m < |DeployFileSet(target, rows, fetch).writes|
    ensures i < |rows|
    ensures DeployFileSet(target, rows, fetch).writes[m] == (Append(target, rows[i].path), fetch(rows[i].hash))
  {
    var unique := Dedup(Hashes(rows));
    var entries := Entries(rows);
    var fan := FanOut(unique, entries, fetch);
    var h :| h in unique && (h, fan[m].0) in entries && fan[m].1 == fetch(h);
    i :| 0 <= i < |entries| && entries[i] == (h, fan[m].0);
  }

  /** Files installed at the same place are recorded with the same hash. */
  predicate SamePathSameHash(target: string, rows: seq<FileEntry>) {
    forall i, j :: 0 <= i < |rows| && 0 <= j < |rows| && Append(target, rows[i].path) == Append(target, rows[j].path)
      ==> rows[i].hash == rows[j].hash
  }

  /** After the writes, every file holds its content object; when the
      other repository sends correct content, a deployed repository whose
      `files` rows carry these hashes and sizes validates as intact. */
  lemma DeployedFilesIntact(target: string, rows: seq<FileEntry>, fetch: Fetch, sha: HashFunction,
                            contents: Contents, i: nat)
    requires SamePathSameHash(target, rows)
    requires i < |rows|
    ensures var after := ApplyWrites(contents, DeployFileSet(target, rows, fetch).writes);
            var p := Append(target, rows[i].path);
            && p in after && after[p] == fetch(rows[i].hash)
            && (sha(fetch(rows[i].hash)) == rows[i].hash ==>
                  Classify(after, p, |fetch(rows[i].hash)|, rows[i].hash, sha) == Ok)
  {
    var writes := DeployFileSet(target, rows, fetch).writes;
    var p := Append(target, rows[i].path);
    DeployWritesEveryFile(target, rows, fetch, i);
    var k :| 0 <= k < |writes| && writes[k] == (p, fetch(rows[i].hash));
    forall m | 0 <= m < |writes| && writes[m].0 == p
      ensures writes[m].1 == fetch(rows[i].hash)
    {
      var j := DeployWriteOrigin(target, rows, fetch, m);
    }
    ApplyWritesConsistent(contents, writes, p, fetch(rows[i].hash), k);
  }

  /** The two kinds `OpenRepository` can return. */
  datatype RepositoryKind = LooseRepository | DeployedRepository

  /** An opened repository: its kind, its root and the database it opens. */
  datatype Opened = Opened(kind: RepositoryKind, root: string, databasePath: string)

  /** `OpenRepository`: loose when `path / ".ky"` exists, deployed
      otherwise. A loose repository opens `.ky/repository.db`, a deployed
      one `k.db`. `existing` is the set of paths that exist. */
  function OpenRepository(path: string, existing: set<string>): (r: Opened)
    ensures r.root == path
    ensures r.kind == LooseRepository <==> Append(path, ".ky") in existing
  {
    if Append(path, ".ky") in existing then
      Opened(LooseRepository, path, Append(Append(path, ".ky"), "repository.db"))
    else
      Opened(DeployedRepository, path, Append(path, "k.db"))
  }

  /** A loose build's output opens as a loose repository, reading the
      database the builder wrote, and its objects are where validation
      looks for them. */
  lemma OpenLooseBuild(sets: seq<BuildInput.FileSet>, objs: seq<ContentObjects.UniqueContentObject>, target: string,
                       contents: Contents, existing: set<string>)
    requires BuildDatabase.DuplicatesKnown(objs, BuildDatabase.PopulateFileSets(sets, Build.FirstRowId).idOf)
    requires Build.SourcesReadable(objs, contents)
    requires forall d :: d in Build.BuildLoose(sets, objs, target, contents).directories ==> d in existing
    ensures var out := Build.BuildLoose(sets, objs, target, contents);
            && OpenRepository(target, existing).kind == LooseRepository
            && OpenRepository(target, existing).databasePath == out.databasePath
            && forall i :: 0 <= i < |objs| ==> out.written[i].0 == ObjectPath(target, objs[i].hash)
  {
    assert Build.BuildLoose(sets, objs, target, contents).directories[1] == Append(target, ".ky");
  }

  /** A deployment creates `k.db` in a directory without `.ky`, and such a
      directory opens as a deployed repository reading that database. */
  lemma OpenDeployed(target: string, existing: set<string>)
    requires Append(target, ".ky") !in existing
    ensures OpenRepository(target, existing).kind == DeployedRepository
    ensures OpenRepository(target, existing).databasePath == Append(target, "k.db")
  {
  }

  /** A packed build has no `.ky` directory, so unless one exists already
      it opens as a deployed repository, whose `k.db` the packed builder
      never writes: this revision cannot open a packed repository. */
  lemma OpenPackedBuild(sets: seq<BuildInput.FileSet>, objs: seq<ContentObjects.UniqueContentObject>, target: string,
                        contents: Contents, packageUuid: Uuids.Uuid, existing: set<string>)
    requires BuildDatabase.DuplicatesKnown(objs, BuildDatabase.PopulateFileSets(sets, Build.FirstRowId).idOf)
    requires Build.SourcesReadable(objs, contents)
    requires Append(target, ".ky") !in existing
    ensures var out := Build.BuildPacked(sets, objs, target, contents, packageUuid);
            && OpenRepository(target, existing).kind == DeployedRepository
            && OpenRepository(target, existing).databasePath != out.databasePath
  {
    assert |Append(target, "k.db")| < |Append(target, "repository.db")|;
  }
}

=== FILE: digests.dfy ===
/** Content hashes and the file contents they are computed over.

    SHA-256 itself is not modelled: every operation that hashes takes the
    hash function as a parameter `sha`. A digest is a byte string; the
    installer checks that stored hashes have the SHA-256 length. The
    textual form of a digest is its lower-case hexadecimal text.
 */
module Digests {
  import opened Text

  type Digest = seq<byte>

  /** Bytes in a SHA-256 digest. */
  const DigestSize: nat := 32

  /** The hash function the source calls, as an uninterpreted parameter. */
  type HashFunction = seq<byte> -> Digest

  /** `ToString(hash)`, the name of a content object in a loose repository. */
  function DigestText(d: Digest): (r: string)
    ensures |r| == 2 * |d|
  {
    Hex(d)
  }

  /** Different digests have different names, so content objects never
      share a file. */
  lemma DigestTextInjective(a: Digest, b: Digest)
    requires DigestText(a) == DigestText(b)
    ensures a == b
  {
    HexInjective(a, b);
  }

  /** A digest's name is a plain relative file name. */
  lemma DigestTextIsRelative(d: Digest)
    ensures forall k :: 0 <= k < |DigestText(d)| ==> DigestText(d)[k] != '/'
  {
    HexDigitsOnly(d);
  }

  /** The regular files of a file system, by path, with their contents. */
  type Contents = map<string, seq<byte>>
}

=== FILE: installer.dfy ===
/** The pure parts of src/Core/src/Installer.cpp: the installation
    environment, `Join` and the three query strings built from the
    selected features, and the per-row decisions `Install` takes while it
    stages content objects and deploys files.

    The database is not modelled: each query's result rows are an input.
    Creating, sizing and copying files become values describing what is
    done (`Allocation`, `FileAction`); logging is left out.
 */
module Installer {
  import opened Wrappers
  import opened Seqs
  import opened Paths
  import opened Text
  import opened Digests

  /** `InstallationEnvironment`: the selected feature ids and the named
      properties. The property type is not part of this model, so it is a
      type parameter. */
  datatype Environment<P> = Environment(selectedFeatures: seq<int>, properties: map<string, P>)

  /** `SelectFeatures`: the selection is replaced. */
  function SelectFeatures<P>(env: Environment<P>, ids: seq<int>): (r: Environment<P>)
    ensures GetSelectedFeatures(r) == ids
    ensures r.properties == env.properties
  {
    env.(selectedFeatures := ids)
  }

  function GetSelectedFeatures<P>(env: Environment<P>): seq<int> {
    env.selectedFeatures
  }

  /** `HasProperty`: `find (name) != end ()`. */
  predicate HasProperty<P>(env: Environment<P>, name: string) {
    name in env.properties
  }

  /** `GetProperty`: dereferences `find (name)`, which the source only does
      for a property that is set. */
  function GetProperty<P>(env: Environment<P>, name: string): P
    requires HasProperty(env, name)
  {
    env.properties[name]
  }

  /** `SetProperty`: `properties_ [name] = value`. The property is then
      set and reads back as `value`; every other property, and the
      selection, are as before. */
  function SetProperty<P>(env: Environment<P>, name: string, value: P): (r: Environment<P>)
    ensures HasProperty(r, name) && GetProperty(r, name) == value
    ensures forall n :: n != name ==> (HasProperty(r, n) <==> HasProperty(env, n))
    ensures forall n :: n != name && HasProperty(env, n) ==> GetProperty(r, n) == GetProperty(env, n)
    ensures GetSelectedFeatures(r) == GetSelectedFeatures(env)
  {
    env.(properties := env.properties[name := value])
  }

  /** A later `SetProperty` of the same name overwrites the earlier one. */
  lemma SetPropertyOverwrites<P>(env: Environment<P>, name: string, a: P, b: P)
    ensures SetProperty(SetProperty(env, name, a), name, b) == SetProperty(env, name, b)
  {
  }

  /** A later `SelectFeatures` discards the earlier selection. */
  lemma SelectFeaturesOverwrites<P>(env: Environment<P>, a: seq<int>, b: seq<int>)
    ensures SelectFeatures(SelectFeatures(env, a), b) == SelectFeatures(env, b)
  {
  }

  /** The infix `Join` uses when none is given. */
  const DefaultInfix: string := ", "

  /** `Join` of already formatted elements: the elements in order, with
      the infix between consecutive ones. */
  function Join(elements: seq<string>, infix: string): string
    decreases |elements|
  {
    if |elements| == 0 then ""
    else if |elements| == 1 then elements[0]
    else Join(elements[..|elements| - 1], infix) + infix + elements[|elements| - 1]
  }

  /** The loop of `Join`: each element is streamed, followed by the infix
      unless it is the last one. */
  method JoinStream(elements: seq<string>, infix: string) returns (r: string)
    ensures r == Join(elements, infix)
  {
    r := "";
    var i := 0;
    while i < |elements|
      invariant 0 <= i <= |elements|
      invariant r == if i == 0 then "" else Join(elements[..i], infix) + (if i < |elements| then infix else "")
    {
      assert elements[..i + 1][..i] == elements[..i];
      r := r + elements[i];
      if i + 1 < |elements| {
        r := r + infix;
      }
      i := i + 1;
    }
    assert elements[..|elements|] == elements;
  }

  /** Where element `i` starts in the joined text: after every earlier
      element and one infix each. */
  function Offset(elements: seq<string>, infix: string, i: nat): nat
    requires i <= |elements|
    decreases i
  {
    if i == 0 then 0 else Offset(elements, infix, i - 1) + |elements[i - 1]| + |infix|
  }

  /** Offsets depend only on the elements before them. */
  lemma {:induction false} OffsetPrefix(elements: seq<string>, infix: string, k: nat, i: nat)
    requires i <= k <= |elements|
    ensures Offset(elements[..k], infix, i) == Offset(elements, infix, i)
    decreases i
  {
    if i > 0 {
      OffsetPrefix(elements, infix, k, i - 1);
    }
  }

  /** The joined text ends with the last element, so it is as long as the
      elements and one infix between each pair. */
  lemma {:induction false} JoinLength(elements: seq<string>, infix: string)
    requires |elements| > 0
    ensures |Join(elements, infix)| == Offset(elements, infix, |elements| - 1) + |elements[|elements| - 1]|
    decreases |elements|
  {
    var n := |elements|;
    if n > 1 {
      JoinLength(elements[..n - 1], infix);
      OffsetPrefix(elements, infix, n - 1, n - 2);
    }
  }

  /** Element `i` appears in the joined text at its offset. */
  lemma {:induction false} JoinElementAt(elements: seq<string>, infix: string, i: nat)
    requires i < |elements|
    ensures Offset(elements, infix, i) + |elements[i]| <= |Join(elements, infix)|
    ensures Join(elements, infix)[Offset(elements, infix, i)..Offset(elements, infix, i) + |elements[i]|] == elements[i]
    decreases |elements|
  {
    var n := |elements|;
    if n > 1 {
      var prefix := elements[..n - 1];
      var j := Join(prefix, infix);
      var o := Offset(elements, infix, i);
      if i == n - 1 {
        JoinLength(prefix, infix);
        OffsetPrefix(elements, infix, n - 1, n - 2);
        SliceAfter(j + infix, elements[n - 1]);
      } else {
        JoinElementAt(prefix, infix, i);
        OffsetPrefix(elements, infix, n - 1, i);
        SliceWithin(j + infix, elements[n - 1], o, o + |elements[i]|);
        SliceWithin(j, infix, o, o + |elements[i]|);
      }
    }
  }

  /** Between element `i` and element `i + 1` stands exactly the infix. */
  lemma {:induction false} JoinInfixAt(elements: seq<string>, infix: string, i: nat)
    requires i + 1 < |elements|
    ensures Offset(elements, infix, i + 1) <= |Join(elements, infix)|
    ensures Join(elements, infix)[Offset(elements, infix, i) + |elements[i]|..Offset(elements, infix, i + 1)] == infix
    decreases |elements|
  {
    var n := |elements|;
    var prefix := elements[..n - 1];
    var j := Join(prefix, infix);
    var lo := Offset(elements, infix, i) + |elements[i]|;
    JoinLength(elements, infix);
    if i + 2 == n {
      JoinLength(prefix, infix);
      OffsetPrefix(elements, infix, n - 1, i);
      SliceWithin(j + infix, elements[n - 1], lo, lo + |infix|);
      SliceAfter(j, infix);
    } else {
      JoinInfixAt(prefix, infix, i);
      OffsetPrefix(elements, infix, n - 1, i);
      OffsetPrefix(elements, infix, n - 1, i + 1);
      SliceWithin(j + infix, elements[n - 1], lo, lo + |infix|);
      SliceWithin(j, infix, lo, lo + |infix|);
    }
  }

  /** A slice inside the first part of a concatenation. */
  lemma SliceWithin(a: string, b: string, lo: nat, hi: nat)
    requires lo <= hi <= |a|
    ensures (a + b)[lo..hi] == a[lo..hi]
  {
  }

  /** The second part of a concatenation, sliced from its start. */
  lemma SliceAfter(a: string, b: string)
    ensures (a + b)[|a|..|a| + |b|] == b
  {
  }

  /** Elements that are non-empty and free of a character `c`. */
  predicate PlainElements(elements: seq<string>, c: char) {
    forall k :: 0 <= k < |elements| ==> |elements[k]| > 0 && c !in elements[k]
  }

  /** An infix that starts with `c` and holds no other `c`. */
  predicate SeparatorInfix(infix: string, c: char) {
    |infix| > 0 && infix[0] == c && c !in infix[1..]
  }

  /** The joined text is empty exactly when there are no elements. */
  lemma JoinEmpty(elements: seq<string>, infix: string, c: char)
    requires PlainElements(elements, c)
    ensures Join(elements, infix) == "" <==> |elements| == 0
  {
    if |elements| > 0 {
      JoinLength(elements, infix);
    }
  }

  /** The separator character occurs exactly when there are two or more
      elements. */
  lemma JoinHasSeparator(elements: seq<string>, infix: string, c: char)
    requires PlainElements(elements, c) && SeparatorInfix(infix, c)
    ensures c in Join(elements, infix) <==> |elements| >= 2
  {
    var n := |elements|;
    if n >= 2 {
      var j := Join(elements[..n - 1], infix);
      assert Join(elements, infix)[|j|] == c;
    } else if n == 1 {
      assert Join(elements, infix) == elements[0];
    }
  }

  /** A text split at a `c` followed by no other `c` splits only there. */
  lemma LastSeparatorUnique(x1: string, y1: string, x2: string, y2: string, c: char)
    requires x1 + [c] + y1 == x2 + [c] + y2
    requires c !in y1 && c !in y2
    ensures x1 == x2 && y1 == y2
  {
    var s := x1 + [c] + y1;
    NoSeparatorAfter(x1, y1, c);
    NoSeparatorAfter(x2, y2, c);
    assert s[|x1|] == c && s[|x2|] == c;
    assert |x1| == |x2|;
    assert x1 == s[..|x1|];
    assert x2 == s[..|x2|];
    assert y1 == s[|x1| + 1..];
    assert y2 == s[|x2| + 1..];
  }

  /** After a `c` followed by no other `c`, there is no `c`. */
  lemma NoSeparatorAfter(x: string, y: string, c: char)
    requires c !in y
    ensures forall k :: |x| < k < |x + [c] + y| ==> (x + [c] + y)[k] != c
  {
    forall k | |x| < k < |x + [c] + y| ensures (x + [c] + y)[k] != c {
      assert (x + [c] + y)[k] == y[k - |x| - 1];
    }
  }

  /** Joined texts are equal only for equal elements, when the elements
      are plain and the infix is a separator: the list can be read back. */
  lemma {:induction false} JoinInjective(a: seq<string>, b: seq<string>, infix: string, c: char)
    requires PlainElements(a, c) && PlainElements(b, c) && SeparatorInfix(infix, c)
    requires Join(a, infix) == Join(b, infix)
    ensures a == b
    decreases |a|
  {
    JoinEmpty(a, infix, c);
    JoinEmpty(b, infix, c);
    JoinHasSeparator(a, infix, c);
    JoinHasSeparator(b, infix, c);
    var n := |a|;
    var m := |b|;
    if n == 1 {
      assert Join(a, infix) == a[0] && Join(b, infix) == b[0];
    } else if n >= 2 {
      var ja := Join(a[..n - 1], infix);
      var jb := Join(b[..m - 1], infix);
      assert Join(a, infix) == ja + [c] + (infix[1..] + a[n - 1]);
      assert Join(b, infix) == jb + [c] + (infix[1..] + b[m - 1]);
      LastSeparatorUnique(ja, infix[1..] + a[n - 1], jb, infix[1..] + b[m - 1], c);
      assert a[n - 1] == (infix[1..] + a[n - 1])[|infix| - 1..];
      assert b[m - 1] == (infix[1..] + b[m - 1])[|infix| - 1..];
      JoinInjective(a[..n - 1], b[..m - 1], infix, c);
      assert a == a[..n - 1] + [a[n - 1]];
      assert b == b[..m - 1] + [b[m - 1]];
    }
  }

  /** The feature ids as `operator<<` writes them. */
  function IdTexts(ids: seq<int>): (r: seq<string>)
    ensures |r| == |ids|
    ensures forall k :: 0 <= k < |ids| ==> r[k] == IntText(ids[k])
  {
    seq(|ids|, k requires 0 <= k < |ids| => IntText(ids[k]))
  }

  /** `Join (featureIds)` with the default infix. */
  function FeatureList(ids: seq<int>): string {
    Join(IdTexts(ids), DefaultInfix)
  }

  /** Different selections give different feature lists. */
  lemma FeatureListInjective(a: seq<int>, b: seq<int>)
    requires FeatureList(a) == FeatureList(b)
    ensures a == b
  {
    JoinInjective(IdTexts(a), IdTexts(b), DefaultInfix, ',');
    forall k | 0 <= k < |a| ensures a[k] == b[k] {
      IntTextInjective(a[k], b[k]);
    }
  }

  /** A query: a fixed prefix, the feature list, a fixed suffix. The
      three parts can be read back from the text. */
  function InQuery(prefix: string, ids: seq<int>, suffix: string): (r: string)
    ensures |r| == |prefix| + |FeatureList(ids)| + |suffix|
    ensures r[..|prefix|] == prefix
    ensures r[|prefix|..|r| - |suffix|] == FeatureList(ids)
    ensures r[|r| - |suffix|..] == suffix
  {
    prefix + FeatureList(ids) + suffix
  }

  const SourcePackagesPrefix: string :=
    "SELECT Filename FROM source_packages WHERE Id IN ("
    + "SELECT SourcePackageId FROM storage_mapping WHERE ContentObjectId "
    + "IN (SELECT ContentObjectId FROM files WHERE FeatureId IN ("
  const SourcePackagesSuffix: string := ")) GROUP BY SourcePackageId);"

  const ContentObjectsPrefix: string :=
    "SELECT Hash, ChunkCount, Size, LENGTH(Hash) FROM content_objects WHERE Id IN ("
    + "SELECT ContentObjectId FROM files WHERE FeatureId IN ("
  const ContentObjectsSuffix: string := ") GROUP BY ContentObjectId);"

  const FilesPrefix: string :=
    "SELECT Path, Hash, LENGTH(Hash) FROM files JOIN content_objects "
    + "ON files.ContentObjectId = content_objects.Id WHERE FeatureId IN ("
  const FilesSuffix: string := ");"

  /** `GetSourcePackagesForSelectedFeaturesQueryString`. */
  function SourcePackagesQuery(ids: seq<int>): (r: string)
    ensures |SourcePackagesPrefix| + |SourcePackagesSuffix| <= |r|
    ensures r[..|SourcePackagesPrefix|] == SourcePackagesPrefix
    ensures r[|SourcePackagesPrefix|..|r| - |SourcePackagesSuffix|] == FeatureList(ids)
    ensures r[|r| - |SourcePackagesSuffix|..] == SourcePackagesSuffix
  {
    InQuery(SourcePackagesPrefix, ids, SourcePackagesSuffix)
  }

  /** `GetContentObjectHashesChunkCountForSelectedFeaturesQueryString`. */
  function ContentObjectsQuery(ids: seq<int>): (r: string)
    ensures |ContentObjectsPrefix| + |ContentObjectsSuffix| <= |r|
    ensures r[..|ContentObjectsPrefix|] == ContentObjectsPrefix
    ensures r[|ContentObjectsPrefix|..|r| - |ContentObjectsSuffix|] == FeatureList(ids)
    ensures r[|r| - |ContentObjectsSuffix|..] == ContentObjectsSuffix
  {
    InQuery(ContentObjectsPrefix, ids, ContentObjectsSuffix)
  }

  /** `GetFilesForSelectedFeaturesQueryString`. */
  function FilesQuery(ids: seq<int>): (r: string)
    ensures |FilesPrefix| + |FilesSuffix| <= |r|
    ensures r[..|FilesPrefix|] == FilesPrefix
    ensures r[|FilesPrefix|..|r| - |FilesSuffix|] == FeatureList(ids)
    ensures r[|r| - |FilesSuffix|..] == FilesSuffix
  {
    InQuery(FilesPrefix, ids, FilesSuffix)
  }

  /** Each query determines the selection it was built from. */
  lemma QueriesDetermineSelection(a: seq<int>, b: seq<int>)
    ensures SourcePackagesQuery(a) == SourcePackagesQuery(b) ==> a == b
    ensures ContentObjectsQuery(a) == ContentObjectsQuery(b) ==> a == b
    ensures FilesQuery(a) == FilesQuery(b) ==> a == b
  {
    if SourcePackagesQuery(a) == SourcePackagesQuery(b) {
      FeatureListInjective(a, b);
    }
    if ContentObjectsQuery(a) == ContentObjectsQuery(b) {
      FeatureListInjective(a, b);
    }
    if FilesQuery(a) == FilesQuery(b) {
      FeatureListInjective(a, b);
    }
  }

  /** `LENGTH(Hash)` read with `sqlite3_column_int64`: the blob's length,
      or 0 for NULL. */
  function HashLength(hash: Option<seq<byte>>): nat {
    match hash
    case None => 0
    case Some(b) => |b|
  }

  /** A hash the installer accepts: `LENGTH(Hash) == sizeof (hash.hash)`. */
  predicate WellFormed(hash: Option<seq<byte>>) {
    HashLength(hash) == DigestSize
  }

  /** A row of the content-object query; `Hash` may be NULL. */
  datatype ObjectQueryRow = ObjectQueryRow(hash: Option<seq<byte>>, chunkCount: int, size: int)

  /** A staging file created with its size set. */
  datatype Allocation = Allocation(path: string, size: int)

  /** What the content-object loop leaves: `requiredContentObjects` and
      the staging files created, in order. */
  datatype Staging = Staging(required: map<Digest, int>, allocations: seq<Allocation>)

  /** The content-object loop of `Install`: a row whose hash length is not
      the digest size is skipped; any other row records its chunk count
      (a later row with the same hash overwrites it) and creates
      `stagingDirectory / ToString (hash)` with the row's size. */
  function StageContentObjects(staging: string, rows: seq<ObjectQueryRow>): (r: Staging)
    ensures |r.allocations| <= |rows|
    ensures forall i :: 0 <= i < |rows| && WellFormed(rows[i].hash) ==> rows[i].hash.value in r.required
    ensures forall h :: h in r.required ==> |h| == DigestSize
    decreases |rows|
  {
    if |rows| == 0 then Staging(map[], [])
    else
      var n := |rows|;
      var s := StageContentObjects(staging, rows[..n - 1]);
      assert forall i :: 0 <= i < n - 1 ==> rows[..n - 1][i] == rows[i];
      var row := rows[n - 1];
      if !WellFormed(row.hash) then s
      else
        var h := row.hash.value;
        Staging(s.required[h := row.chunkCount],
                s.allocations + [Allocation(Append(staging, DigestText(h)), row.size)])
  }

  /** Only the hashes of well-formed rows are required. */
  lemma {:induction false} StagingRequiresOnlyRows(staging: string, rows: seq<ObjectQueryRow>, h: Digest)
    requires h in StageContentObjects(staging, rows).required
    ensures exists i :: 0 <= i < |rows| && WellFormed(rows[i].hash) && rows[i].hash.value == h
    decreases |rows|
  {
    var n := |rows|;
    var row := rows[n - 1];
    if !(WellFormed(row.hash) && row.hash.value == h) {
      StagingRequiresOnlyRows(staging, rows[..n - 1], h);
      var i :| 0 <= i < n - 1 && WellFormed(rows[..n - 1][i].hash) && rows[..n - 1][i].hash.value == h;
      assert rows[i] == rows[..n - 1][i];
    }
  }

  /** Every well-formed row creates its staging file with that row's size;
      a later row with the same hash creates the file again. */
  lemma StagingAllocates(staging: string, rows: seq<ObjectQueryRow>, i: nat)
    requires i < |rows| && WellFormed(rows[i].hash)
    ensures Allocation(Append(staging, DigestText(rows[i].hash.value)), rows[i].size)
              in StageContentObjects(staging, rows).allocations
    decreases |rows|
  {
    var n := |rows|;
    if i < n - 1 {
      assert rows[..n - 1][i] == rows[i];
      StagingAllocates(staging, rows[..n - 1], i);
    }
  }

  /** The rows the content-object loop does not skip, in query order. */
  function WellFormedRows(rows: seq<ObjectQueryRow>): (r: seq<ObjectQueryRow>)
    ensures |r| <= |rows|
    ensures forall x :: x in r <==> x in rows && WellFormed(x.hash)
    decreases |rows|
  {
    if |rows| == 0 then []
    else
      var n := |rows|;
      var w := WellFormedRows(rows[..n - 1]);
      assert rows == rows[..n - 1] + [rows[n - 1]];
      if WellFormed(rows[n - 1].hash) then w + [rows[n - 1]] else w
  }

  /** The staging files created are exactly those of the rows that are not
      skipped, one per row and in query order; a malformed row creates
      nothing. */
  lemma {:induction false} StagingAllocatesExactly(staging: string, rows: seq<ObjectQueryRow>)
    ensures var a := StageContentObjects(staging, rows).allocations;
            var w := WellFormedRows(rows);
            && |a| == |w|
            && forall k :: 0 <= k < |a| ==> a[k] == Allocation(Append(staging, DigestText(w[k].hash.value)), w[k].size)
    decreases |rows|
  {
    if |rows| > 0 {
      var n := |rows|;
      StagingAllocatesExactly(staging, rows[..n - 1]);
    }
  }

  /** `requiredContentObjects [hash] = chunkCount` overwrites: the chunk
      count kept for a hash is that of the last well-formed row carrying
      it. */
  lemma {:induction false} StagingKeepsLastChunkCount(staging: string, rows: seq<ObjectQueryRow>, i: nat)
    requires i < |rows| && WellFormed(rows[i].hash)
    requires forall j :: i < j < |rows| && WellFormed(rows[j].hash) ==> rows[j].hash.value != rows[i].hash.value
    ensures rows[i].hash.value in StageContentObjects(staging, rows).required
    ensures StageContentObjects(staging, rows).required[rows[i].hash.value] == rows[i].chunkCount
    decreases |rows|
  {
    var n := |rows|;
    if i < n - 1 {
      var p := rows[..n - 1];
      assert forall j :: 0 <= j < n - 1 ==> p[j] == rows[j];
      StagingKeepsLastChunkCount(staging, p, i);
    }
  }

  /** The filter handed to the source-package reader: a content object is
      extracted exactly when it is required. */
  predicate Wanted(s: Staging, h: Digest) {
    h in s.required
  }

  /** A row of the file query; `Hash` may be NULL. */
  datatype FileQueryRow = FileQueryRow(path: string, hash: Option<seq<byte>>)

  /** What the deploy loop does with one file row. */
  datatype FileAction = CreateEmpty(target: string) | CopyObject(source: string, target: string) | SkipFile

  /** One iteration of the deploy loop: a NULL hash creates an empty file;
      a hash of the wrong length skips the row; any other hash copies the
      staged content object to `targetDirectory / path`. */
  function FileStep(targetDirectory: string, staging: string, row: FileQueryRow): (a: FileAction)
    ensures a.SkipFile? <==> row.hash.Some? && !WellFormed(row.hash)
    ensures a.CreateEmpty? <==> row.hash.None?
    ensures a.CreateEmpty? ==> a.target == Append(targetDirectory, row.path)
    ensures a.CopyObject? ==> a == CopyObject(Append(staging, DigestText(row.hash.value)), Append(targetDirectory, row.path))
  {
    match row.hash
    case None => CreateEmpty(Append(targetDirectory, row.path))
    case Some(h) =>
      if |h| != DigestSize then SkipFile
      else CopyObject(Append(staging, DigestText(h)), Append(targetDirectory, row.path))
  }

  /** The deploy loop: one action per row, in row order. Only a row with
      a malformed hash is skipped; every other row writes
      `targetDirectory / path`, inside a directory the directory loop
      created; a copy reads the staging file named by the row's hash. */
  function DeployFiles(targetDirectory: string, staging: string, rows: seq<FileQueryRow>): (r: seq<FileAction>)
    ensures |r| == |rows|
    ensures forall i :: 0 <= i < |rows| ==> r[i] == FileStep(targetDirectory, staging, rows[i])
    ensures forall i :: 0 <= i < |rows| ==> (r[i].SkipFile? <==> rows[i].hash.Some? && !WellFormed(rows[i].hash))
    ensures forall i :: 0 <= i < |rows| && !r[i].SkipFile? ==>
              r[i].target == Append(targetDirectory, rows[i].path)
              && ParentPath(r[i].target) in Directories(targetDirectory, rows)
    ensures forall i :: 0 <= i < |rows| && r[i].CopyObject? ==>
              rows[i].hash.Some? && r[i].source == Append(staging, DigestText(rows[i].hash.value))
  {
    seq(|rows|, i requires 0 <= i < |rows| => FileStep(targetDirectory, staging, rows[i]))
  }

  /** The directory loop: the parent of every file's target path, each
      once; rows that are later skipped contribute too. */
  function Directories(targetDirectory: string, rows: seq<FileQueryRow>): (r: set<string>)
    ensures forall i :: 0 <= i < |rows| ==> ParentPath(Append(targetDirectory, rows[i].path)) in r
    ensures forall d :: d in r ==> exists i :: 0 <= i < |rows| && d == ParentPath(Append(targetDirectory, rows[i].path))
    ensures |r| <= |rows|
  {
    var parents := TargetParents(targetDirectory, rows);
    var r := Elements(parents);
    assert forall d :: d in r ==> exists i :: 0 <= i < |rows| && d == parents[i] by {
      forall d | d in r ensures exists i :: 0 <= i < |rows| && d == parents[i] {
        assert d in parents;
      }
    }
    r
  }

  /** The parent directory of every row's target, in row order. */
  function TargetParents(targetDirectory: string, rows: seq<FileQueryRow>): (r: seq<string>)
    ensures |r| == |rows|
    ensures forall i :: 0 <= i < |rows| ==> r[i] == ParentPath(Append(targetDirectory, rows[i].path))
  {
    seq(|rows|, i requires 0 <= i < |rows| => ParentPath(Append(targetDirectory, rows[i].path)))
  }

  /** The joined text starts with the first element and ends with the
      last; no elements join to the empty text. */
  lemma {:induction false} JoinEnds(elements: seq<string>, infix: string)
    ensures |elements| == 0 ==> Join(elements, infix) == ""
    ensures |elements| > 0 ==> |elements[0]| <= |Join(elements, infix)|
                               && Join(elements, infix)[..|elements[0]|] == elements[0]
    ensures |elements| > 0 ==> |elements[|elements| - 1]| <= |Join(elements, infix)|
                               && Join(elements, infix)[|Join(elements, infix)| - |elements[|elements| - 1]|..]
                                  == elements[|elements| - 1]
    decreases |elements|
  {
    var n := |elements|;
    if n > 1 {
      JoinEnds(elements[..n - 1], infix);
      var j := Join(elements[..n - 1], infix);
      assert Join(elements, infix) == j + (infix + elements[n - 1]);
      assert (j + (infix + elements[n - 1]))[..|j|] == j;
    }
  }

  /** When every well-formed file hash is among the content-object rows
      (both queries select the same features), every copy reads a staging
      file that the content-object loop created, and that object is one the
      source-package reader extracts. */
  lemma CopiesReadStagedObjects(targetDirectory: string, staging: string,
                                objects: seq<ObjectQueryRow>, files: seq<FileQueryRow>, i: nat)
    requires i < |files|
    requires forall k :: 0 <= k < |files| && WellFormed(files[k].hash) ==>
               exists j :: 0 <= j < |objects| && objects[j].hash == files[k].hash
    ensures var a := DeployFiles(targetDirectory, staging, files)[i];
            var s := StageContentObjects(staging, objects);
            a.CopyObject? ==>
              Wanted(s, files[i].hash.value)
              && exists size :: Allocation(a.source, size) in s.allocations
  {
    var a := DeployFiles(targetDirectory, staging, files)[i];
    if a.CopyObject? {
      var j :| 0 <= j < |objects| && objects[j].hash == files[i].hash;
      StagingAllocates(staging, objects, j);
    }
  }
}

=== FILE: manifest.dfy ===
/** The manifest builder of scripts/kyla.py.

    A `FileRepositoryBuilder` accumulates a `Properties` element and a list
    of file-set builders; `Finalize` assembles the `FileRepository` tree

      FileRepository
        Properties   (one Property Name="PackageType" Value=... per call)
        FileSets     (one FileSet Name=... Id=... per AddFileSet, in order)
          File Source=...

    Python objects are shared by reference; here the builder is a value and
    a file set is addressed by its position (the handle `AddFileSet`
    returns). The directory walk, the generated UUIDs and the library's
    exceptions are inputs and `Failure` values.
 */
module Manifest {
  import opened Wrappers
  import opened Seqs
  import opened Text
  import opened Paths
  import opened Xml
  import opened Uuids

  datatype PackageType = Loose | Packed | Bundle

  /** `packageType.name`. */
  function PackageTypeName(t: PackageType): string {
    match t
    case Loose => "Loose"
    case Packed => "Packed"
    case Bundle => "Bundle"
  }

  /** What a caller may pass as a file-set id: a `uuid.UUID`, or a string
      taken as it is. */
  datatype IdArg = UuidId(uuid: Uuid) | TextId(text: string)

  /** `_IdString`: a UUID becomes its upper-cased canonical text, anything
      else is returned unchanged. */
  function IdString(id: IdArg): (r: string)
    ensures id.UuidId? ==> |r| == 36
    ensures id.TextId? ==> r == id.text
  {
    match id
    case UuidId(u) => Upper(CanonicalText(u))
    case TextId(s) => s
  }

  /** A UUID id is written in upper-case canonical form and reads back as
      the same UUID. */
  lemma IdStringOfUuid(u: Uuid)
    ensures IsUpperCanonical(IdString(UuidId(u)))
    ensures ParseCanonical(IdString(UuidId(u))) == Some(u)
  {
    UpperCanonicalForm(u);
    ParseCanonicalRoundTrip(u);
  }

  /** Two UUID ids are written the same only if they are the same UUID. */
  lemma IdStringInjectiveOnUuids(u: Uuid, v: Uuid)
    requires IdString(UuidId(u)) == IdString(UuidId(v))
    ensures u == v
  {
    IdStringOfUuid(u);
    IdStringOfUuid(v);
  }

  datatype FileSetBuilder = FileSetBuilder(element: Element)

  datatype FileRepositoryBuilder = FileRepositoryBuilder(propertyNode: Element, fileSets: seq<FileSetBuilder>)

  /** `FileRepositoryBuilder(name, version)`: both arguments are ignored. */
  function NewBuilder(): (b: FileRepositoryBuilder)
    ensures b.propertyNode.tag == "Properties" && b.propertyNode.children == []
    ensures b.propertyNode.attrs == [] && b.fileSets == []
  {
    FileRepositoryBuilder(NewElement("Properties"), [])
  }

  /** The `Property` element one `SetPackageType` call creates. */
  function PackageTypeProperty(t: PackageType): (p: Element)
    ensures p.tag == "Property" && p.children == []
    ensures GetAttr(p.attrs, "Name") == Some("PackageType")
    ensures GetAttr(p.attrs, "Value") == Some(PackageTypeName(t))
    ensures GetAttr(p.attrs, "SourcePackage") == None
  {
    var named := SetAttr([], "Name", "PackageType");
    SetAttrKeepsOthers(named, "Value", PackageTypeName(t), "Name");
    SetAttrKeepsOthers(named, "Value", PackageTypeName(t), "SourcePackage");
    NewElement("Property").(attrs := SetAttr(named, "Value", PackageTypeName(t)))
  }

  /** `SetPackageType`: appends one `Property` named `PackageType` whose
      value is the enum's name; nothing else changes. */
  function SetPackageType(b: FileRepositoryBuilder, t: PackageType): (r: FileRepositoryBuilder)
    ensures r.fileSets == b.fileSets
    ensures r.propertyNode.tag == b.propertyNode.tag && r.propertyNode.attrs == b.propertyNode.attrs
    ensures |r.propertyNode.children| == |b.propertyNode.children| + 1
    ensures r.propertyNode.children[..|b.propertyNode.children|] == b.propertyNode.children
    ensures var p := r.propertyNode.children[|b.propertyNode.children|];
            p.tag == "Property" && p.children == []
            && GetAttr(p.attrs, "Name") == Some("PackageType")
            && GetAttr(p.attrs, "Value") == Some(PackageTypeName(t))
  {
    b.(propertyNode := AppendChild(b.propertyNode, PackageTypeProperty(t)))
  }

  /** `SetPackageType` called once for each of `ts`, in order. */
  function SetPackageTypes(b: FileRepositoryBuilder, ts: seq<PackageType>): (r: FileRepositoryBuilder)
    ensures r.fileSets == b.fileSets
    ensures r.propertyNode.tag == b.propertyNode.tag && r.propertyNode.attrs == b.propertyNode.attrs
    ensures |r.propertyNode.children| == |b.propertyNode.children| + |ts|
    ensures r.propertyNode.children[..|b.propertyNode.children|] == b.propertyNode.children
    decreases |ts|
  {
    if |ts| == 0 then b
    else
      var b' := SetPackageType(b, ts[0]);
      var r := SetPackageTypes(b', ts[1..]);
      PrefixOfPrefix(r.propertyNode.children, b'.propertyNode.children, b.propertyNode.children);
      r
  }

  /** The `Property` elements a run of `SetPackageType` calls creates. */
  function PackageTypeProperties(ts: seq<PackageType>): seq<Element> {
    Map(ts, PackageTypeProperty)
  }

  /** Every call contributes its own `Property`, in call order: repeated
      calls give repeated elements, and no call is merged or dropped. */
  lemma {:induction false} SetPackageTypesAppends(b: FileRepositoryBuilder, ts: seq<PackageType>)
    ensures var r := SetPackageTypes(b, ts);
            && r.fileSets == b.fileSets
            && r.propertyNode.tag == b.propertyNode.tag
            && r.propertyNode.children == b.propertyNode.children + PackageTypeProperties(ts)
    decreases |ts|
  {
    if |ts| > 0 {
      var b' := SetPackageType(b, ts[0]);
      SetPackageTypesAppends(b', ts[1..]);
      SetPackageTypesStep(b, ts);
    }
  }

  /** One step of `SetPackageTypes`: the first call's `Property`, then the
      rest. */
  lemma SetPackageTypesStep(b: FileRepositoryBuilder, ts: seq<PackageType>)
    requires |ts| > 0
    ensures SetPackageTypes(b, ts) == SetPackageTypes(SetPackageType(b, ts[0]), ts[1..])
    ensures SetPackageType(b, ts[0]).fileSets == b.fileSets
    ensures SetPackageType(b, ts[0]).propertyNode.tag == b.propertyNode.tag
    ensures b.propertyNode.children + PackageTypeProperties(ts)
            == SetPackageType(b, ts[0]).propertyNode.children + PackageTypeProperties(ts[1..])
  {
    var c, p, rest := b.propertyNode.children, PackageTypeProperty(ts[0]), PackageTypeProperties(ts[1..]);
    MapCons(ts, PackageTypeProperty);
    AppendAfter(c, p, rest, PackageTypeProperties(ts), SetPackageType(b, ts[0]).propertyNode.children + rest);
  }

  /** Call `k` of a run of `SetPackageType` calls is the `Property` after
      the ones already there, with the value of the `k`th type. */
  lemma SetPackageTypesValue(b: FileRepositoryBuilder, ts: seq<PackageType>, k: nat)
    requires k < |ts|
    ensures var r := SetPackageTypes(b, ts);
            && |r.propertyNode.children| == |b.propertyNode.children| + |ts|
            && GetAttr(r.propertyNode.children[|b.propertyNode.children| + k].attrs, "Value")
                 == Some(PackageTypeName(ts[k]))
  {
    SetPackageTypesAppends(b, ts);
    var r := SetPackageTypes(b, ts);
    assert r.propertyNode.children[|b.propertyNode.children| + k] == PackageTypeProperties(ts)[k];
  }

  const NoneAttributeError: string := "TypeError: attribute value must be a string, not None"

  /** `FileSetBuilder(name, fileSetId)`: a `FileSet` element with `Name`
      and `Id` set. A missing id is replaced by the freshly generated UUID
      `generated` (`uuid.uuid4()`); a missing name cannot be stored as an
      attribute value, and lxml rejects it, as it rejects a name or id text
      holding a character XML cannot carry. */
  function NewFileSet(name: Option<string>, id: Option<IdArg>, generated: Uuid): (r: Result<FileSetBuilder>)
    ensures r.Success? <==> name.Some? && XmlChars(name.value) && XmlChars(IdString(id.GetOr(UuidId(generated))))
    ensures name.None? ==> r == Failure(NoneAttributeError)
    ensures name.Some? && r.Failure? ==> r == Failure(IllegalCharError)
    ensures r.Success? ==>
              && r.value.element.tag == "FileSet"
              && r.value.element.children == []
              && GetAttr(r.value.element.attrs, "Name") == Some(name.value)
              && GetAttr(r.value.element.attrs, "Id") == Some(IdString(id.GetOr(UuidId(generated))))
              && GetAttr(r.value.element.attrs, "SourcePackage") == None
  {
    match name
    case None => Failure(NoneAttributeError)
    case Some(n) =>
      var idText := IdString(id.GetOr(UuidId(generated)));
      var withName :- Set([], "Name", n);
      var attrs :- Set(withName, "Id", idText);
      var e := NewElement("FileSet").(attrs := attrs);
      assert e == FileSetElement(n, idText);
      Success(FileSetBuilder(e))
  }

  /** A UUID id is always text XML can carry, so with a UUID id (given or
      generated) a file set is refused only for its name. */
  lemma UuidIdAccepted(name: Option<string>, id: Option<IdArg>, generated: Uuid)
    requires id.None? || id.value.UuidId?
    ensures NewFileSet(name, id, generated).Success? <==> name.Some? && XmlChars(name.value)
  {
    UuidTextAccepted(if id.None? then generated else id.value.uuid);
  }

  /** The canonical text of a UUID holds only hex digits and hyphens. */
  lemma UuidTextAccepted(u: Uuid)
    ensures XmlChars(IdString(UuidId(u)))
  {
    var t := IdString(UuidId(u));
    IdStringOfUuid(u);
    forall k | 0 <= k < |t| ensures XmlChar(t[k]) {
      if !IsHyphenPosition(k) {
        HexDigitIsXml(t[k]);
      }
    }
  }

  lemma HexDigitIsXml(c: char)
    requires c in UpperHexDigits
    ensures XmlChar(c)
  {
    var i :| 0 <= i < |UpperHexDigits| && UpperHexDigits[i] == c;
    assert '0' <= UpperHexDigits[i] <= 'F';
  }

  /** A `FileSet` element with the attributes `Name` and `Id`. */
  function FileSetElement(name: string, idText: string): (e: Element)
    ensures e.tag == "FileSet" && e.children == []
    ensures GetAttr(e.attrs, "Name") == Some(name)
    ensures GetAttr(e.attrs, "Id") == Some(idText)
    ensures GetAttr(e.attrs, "SourcePackage") == None
  {
    var withName := SetAttr([], "Name", name);
    SetAttrKeepsOthers(withName, "Id", idText, "Name");
    SetAttrKeepsOthers(withName, "Id", idText, "SourcePackage");
    NewElement("FileSet").(attrs := SetAttr(withName, "Id", idText))
  }

  /** `AddFileSet(name, fileSetId)`: the new file set goes to the end of
      the list and its position is the handle returned; the property list
      is untouched. */
  function AddFileSet(b: FileRepositoryBuilder, name: Option<string>, id: Option<IdArg>, generated: Uuid)
    : (r: Result<(FileRepositoryBuilder, nat)>)
    ensures r.Success? <==> name.Some? && XmlChars(name.value) && XmlChars(IdString(id.GetOr(UuidId(generated))))
    ensures r.Success? ==>
              && r.value.1 == |b.fileSets|
              && r.value.0.propertyNode == b.propertyNode
              && r.value.0.fileSets == b.fileSets + [NewFileSet(name, id, generated).value]
  {
    match NewFileSet(name, id, generated)
    case Failure(e) => Failure(e)
    case Success(fb) => Success((b.(fileSets := b.fileSets + [fb]), |b.fileSets|))
  }

  /** `SetSourcePackage`: the source assigns to the element's `set` method
      instead of calling it, so the element's attributes never change. */
  function SetSourcePackage(fs: FileSetBuilder, sourcePackage: string): (r: FileSetBuilder)
    ensures r.element.attrs == fs.element.attrs
    ensures GetAttr(r.element.attrs, "SourcePackage") == GetAttr(fs.element.attrs, "SourcePackage")
    ensures r.element.children == fs.element.children
  {
    fs
  }

  /** One `(dirpath, dirnames, filenames)` triple of `os.walk`. */
  datatype WalkEntry = WalkEntry(dirpath: string, dirnames: seq<string>, filenames: seq<string>)

  /** `directory[len(baseDirectory) + 1:]`, with Python's slice clamping. */
  function RelativeDirAsWritten(base: string, dir: string): (r: string)
    ensures |r| <= |dir| && r == dir[|dir| - |r|..]
    ensures |r| == if |dir| > |base| then |dir| - |base| - 1 else 0
  {
    if |base| + 1 <= |dir| then dir[|base| + 1..] else ""
  }

  /** The `Source` of a walked file: the prefix, the entry's directory
      relative to the base, and the file name, joined. The relative
      directory is the corrected `RelativeDir`, which agrees with the slice
      as written whenever the base has no trailing separator. */
  function WalkedSource(base: string, prefix: string, e: WalkEntry, name: string): string {
    PyJoin([prefix, RelativeDir(base, e.dirpath), name])
  }

  /** A `File` element with its `Source` attribute. */
  function FileElement(source: string): (f: Element)
    ensures f.tag == "File" && f.children == []
    ensures GetAttr(f.attrs, "Source") == Some(source)
  {
    NewElement("File").(attrs := SetAttr([], "Source", source))
  }

  /** Number of files in the first `i` walk entries. */
  function FilesBefore(walk: seq<WalkEntry>, i: nat): nat
    requires i <= |walk|
    decreases i
  {
    if i == 0 then 0 else |walk[0].filenames| + FilesBefore(walk[1..], i - 1)
  }

  /** The `File` elements for one walk entry, one per file name in order. */
  function EntryFiles(base: string, prefix: string, e: WalkEntry): (r: seq<Element>)
    ensures |r| == |e.filenames|
    ensures forall j :: 0 <= j < |r| ==> r[j] == FileElement(WalkedSource(base, prefix, e, e.filenames[j]))
  {
    seq(|e.filenames|, j requires 0 <= j < |e.filenames| =>
      FileElement(WalkedSource(base, prefix, e, e.filenames[j])))
  }

  /** Every `Source` one walk entry produces is text XML can carry. */
  predicate EntryAccepted(base: string, prefix: string, e: WalkEntry) {
    forall j :: 0 <= j < |e.filenames| ==> XmlChars(WalkedSource(base, prefix, e, e.filenames[j]))
  }

  /** Every `Source` a walk produces is text XML can carry. */
  predicate WalkAccepted(base: string, prefix: string, walk: seq<WalkEntry>) {
    forall i :: 0 <= i < |walk| ==> EntryAccepted(base, prefix, walk[i])
  }

  /** `AddFilesFromDirectory(baseDirectory, prefix)` over the walk `walk`:
      one `File` is appended per file name, entry after entry, and a
      directory without files adds nothing. lxml's `set` raises as soon as
      a `Source` holds a character XML cannot carry (a file name may hold
      any byte but `/` and NUL), and the call fails. */
  function AddFilesFromDirectory(fs: FileSetBuilder, base: string, prefix: string, walk: seq<WalkEntry>)
    : (r: Result<FileSetBuilder>)
    ensures r.Success? <==> WalkAccepted(base, prefix, walk)
    ensures r.Failure? ==> r.error == IllegalCharError
    ensures r.Success? ==>
              && r.value.element.tag == fs.element.tag && r.value.element.attrs == fs.element.attrs
              && |r.value.element.children| == |fs.element.children| + FilesBefore(walk, |walk|)
              && r.value.element.children[..|fs.element.children|] == fs.element.children
    decreases |walk|
  {
    if |walk| == 0 then Success(fs)
    else if !EntryAccepted(base, prefix, walk[0]) then Failure(IllegalCharError)
    else
      var fs' := FileSetBuilder(fs.element.(children := fs.element.children + EntryFiles(base, prefix, walk[0])));
      WalkAcceptedCons(base, prefix, walk);
      match AddFilesFromDirectory(fs', base, prefix, walk[1..])
      case Failure(e) => Failure(e)
      case Success(r) =>
        PrefixOfAppend(fs.element.children, EntryFiles(base, prefix, walk[0]));
        PrefixOfPrefix(r.element.children, fs'.element.children, fs.element.children);
        Success(r)
  }

  /** A walk is accepted when its first entry and the rest are. */
  lemma WalkAcceptedCons(base: string, prefix: string, walk: seq<WalkEntry>)
    requires |walk| > 0
    ensures WalkAccepted(base, prefix, walk)
            <==> EntryAccepted(base, prefix, walk[0]) && WalkAccepted(base, prefix, walk[1..])
  {
    assert forall i :: 1 <= i < |walk| ==> walk[1..][i - 1] == walk[i];
  }

  /** Where each walked file lands: the `j`-th file of the `i`-th entry is
      a `File` whose `Source` is `prefix`, the entry's directory relative
      to the base, and the file name, joined. */
  lemma {:induction false} AddFilesFromDirectoryPlacesEachFile(
    fs: FileSetBuilder, base: string, prefix: string, walk: seq<WalkEntry>, i: nat, j: nat)
    requires i < |walk| && j < |walk[i].filenames|
    requires AddFilesFromDirectory(fs, base, prefix, walk).Success?
    ensures var r := AddFilesFromDirectory(fs, base, prefix, walk).value;
            var k := |fs.element.children| + FilesBefore(walk, i) + j;
            k < |r.element.children|
            && r.element.children[k] == FileElement(WalkedSource(base, prefix, walk[i], walk[i].filenames[j]))
    decreases |walk|
  {
    var n := |fs.element.children|;
    var added := EntryFiles(base, prefix, walk[0]);
    var fs' := FileSetBuilder(fs.element.(children := fs.element.children + added));
    var r := AddFilesFromDirectory(fs, base, prefix, walk).value;
    WalkAcceptedCons(base, prefix, walk);
    assert r == AddFilesFromDirectory(fs', base, prefix, walk[1..]).value;
    FilesBeforeBound(walk, i);
    if i == 0 {
      AppendedAt(fs.element.children, added, fs'.element.children, j);
      PrefixAt(r.element.children, fs'.element.children, n + j);
    } else {
      assert walk[i] == walk[1..][i - 1];
      AddFilesFromDirectoryPlacesEachFile(fs', base, prefix, walk[1..], i - 1, j);
    }
  }

  lemma {:induction false} FilesBeforeBound(walk: seq<WalkEntry>, i: nat)
    requires i < |walk|
    ensures FilesBefore(walk, i) + |walk[i].filenames| <= FilesBefore(walk, |walk|)
    decreases i
  {
    if i > 0 {
      FilesBeforeBound(walk[1..], i - 1);
      assert walk[1..][i - 1] == walk[i];
    }
    FilesBeforeMonotone(walk, i + 1);
  }

  lemma {:induction false} FilesBeforeMonotone(walk: seq<WalkEntry>, i: nat)
    requires i <= |walk|
    ensures FilesBefore(walk, i) <= FilesBefore(walk, |walk|)
    ensures 0 < i ==> FilesBefore(walk, i) == FilesBefore(walk, i - 1) + |walk[i - 1].filenames|
    decreases i
  {
    if i > 0 {
      FilesBeforeMonotone(walk[1..], i - 1);
      if i > 1 {
        assert walk[1..][i - 2] == walk[i - 1];
      }
    }
  }

  /** The directory `dir` met by a walk from `base`, relative to `base`:
      what the slice in the source is meant to compute. A base that already
      ends with the separator is followed directly by the subdirectory. */
  function RelativeDir(base: string, dir: string): string {
    if |dir| <= |base| then ""
    else if EndsWithSep(base) then dir[|base|..]
    else dir[|base| + 1..]
  }

  /** `os.walk(base)` yields `base` itself and `os.path.join(base, sub)`
      for each subdirectory path `sub`; the corrected slice recovers `sub`
      whether or not `base` ends with the separator. */
  lemma RelativeDirRecoversSubpath(base: string, sub: string)
    requires |base| > 0 && |sub| > 0 && !StartsWithSep(sub)
    ensures RelativeDir(base, base) == ""
    ensures RelativeDir(base, PyJoin2(base, sub)) == sub
  {
  }

  /** For a base without a trailing separator the slice as written is the
      corrected one. */
  lemma RelativeDirAsWrittenAgrees(base: string, sub: string)
    requires |base| > 0 && !EndsWithSep(base) && |sub| > 0 && !StartsWithSep(sub)
    ensures RelativeDirAsWritten(base, base) == RelativeDir(base, base) == ""
    ensures RelativeDirAsWritten(base, PyJoin2(base, sub)) == RelativeDir(base, PyJoin2(base, sub)) == sub
  {
  }

  /** The slice as written drops one character of the subdirectory when the
      base ends with the separator: walking `data/` with a subdirectory `ab`
      makes its files appear under `b`. */
  lemma RelativeDirAsWrittenDropsFirstCharacter()
    ensures PyJoin2("data/", "ab") == "data/ab"
    ensures RelativeDirAsWritten("data/", PyJoin2("data/", "ab")) == "b"
    ensures RelativeDir("data/", PyJoin2("data/", "ab")) == "ab"
  {
  }

  /** A file set addressed by its handle. */
  function UpdateFileSet(b: FileRepositoryBuilder, h: nat, fs: FileSetBuilder): (r: FileRepositoryBuilder)
    requires h < |b.fileSets|
    ensures r.propertyNode == b.propertyNode && |r.fileSets| == |b.fileSets|
    ensures r.fileSets[h] == fs
    ensures forall k :: 0 <= k < |b.fileSets| && k != h ==> r.fileSets[k] == b.fileSets[k]
  {
    b.(fileSets := b.fileSets[h := fs])
  }

  /** The `Properties` element, then a `FileSets` element holding the file
      sets' elements in the order they were added. */
  function FileRepositoryTree(b: FileRepositoryBuilder): (root: Element)
    ensures root.tag == "FileRepository" && root.attrs == []
    ensures |root.children| == 2
    ensures root.children[0] == b.propertyNode
    ensures root.children[1].tag == "FileSets" && root.children[1].attrs == []
    ensures |root.children[1].children| == |b.fileSets|
    ensures forall i :: 0 <= i < |b.fileSets| ==> root.children[1].children[i] == b.fileSets[i].element
  {
    var sets := seq(|b.fileSets|, i requires 0 <= i < |b.fileSets| => b.fileSets[i].element);
    Element("FileRepository", [], "", [b.propertyNode, NewElement("FileSets").(children := sets)])
  }

  /** The declaration `Finalize` writes in front of the compact text. */
  const Declaration: string := "<?xml version=\"1.0\" encoding=\"UTF-8\"?>"

  /** The declaration minidom's `toprettyxml()` writes. */
  const PrettyDeclaration: string := "<?xml version=\"1.0\" ?>"

  lemma DeclarationsAreDeclarations()
    ensures IsDeclaration(Declaration) && IsDeclaration(PrettyDeclaration)
  {
    assert |Declaration| == 38 && Declaration[36] == '?' && Declaration[37] == '>';
    assert Declaration[0] == '<' && Declaration[1] == '?';
    assert Declaration[36..] == "?>" && Declaration[..2] == "<?";
    assert |PrettyDeclaration| == 22 && PrettyDeclaration[20] == '?' && PrettyDeclaration[21] == '>';
    assert PrettyDeclaration[0] == '<' && PrettyDeclaration[1] == '?';
    assert PrettyDeclaration[20..] == "?>" && PrettyDeclaration[..2] == "<?";
  }

  /** `Finalize(prettyPrint)`: the compact text is the declaration glued to
      lxml's serialization of the tree; the pretty text is minidom's
      re-rendering of that document. Either text, read back, is the tree. */
  function Finalize(b: FileRepositoryBuilder, prettyPrint: bool): (r: string)
    ensures !prettyPrint ==> |r| > |Declaration| && r[..|Declaration|] == Declaration
    ensures prettyPrint ==> |r| > |PrettyDeclaration| && r[..|PrettyDeclaration| + 1] == PrettyDeclaration + "\n"
    ensures !prettyPrint && Writable(FileRepositoryTree(b)) ==> ParseDocument(r) == Some(FileRepositoryTree(b))
    ensures prettyPrint && Writable(FileRepositoryTree(b)) && NoText(FileRepositoryTree(b))
            ==> ParseDocument(r) == Some(FileRepositoryTree(b))
  {
    var tree := FileRepositoryTree(b);
    DeclarationsAreDeclarations();
    if prettyPrint then
      var text := PrettyDocument(PrettyDeclaration, tree);
      assert text == (PrettyDeclaration + "\n") + (Pretty(tree, "") + "\n");
      assert text[..|PrettyDeclaration| + 1] == PrettyDeclaration + "\n";
      assert Writable(tree) && NoText(tree) ==> ParseDocument(text) == Some(tree) by {
        if Writable(tree) && NoText(tree) {
          PrettyDocumentReadsBack(PrettyDeclaration, tree);
        }
      }
      text
    else
      var text := Declaration + Serialize(tree);
      assert text[..|Declaration|] == Declaration;
      assert Writable(tree) ==> ParseDocument(text) == Some(tree) by {
        if Writable(tree) {
          CompactDocumentReadsBack(Declaration, tree);
        }
      }
      text
  }

  /** Every element a builder holds can be written out and read back, and
      none carries text. */
  predicate Readable(b: FileRepositoryBuilder) {
    && Writable(b.propertyNode) && NoText(b.propertyNode)
    && forall i :: 0 <= i < |b.fileSets| ==> Writable(b.fileSets[i].element) && NoText(b.fileSets[i].element)
  }

  /** A tree assembled from a readable builder reads back. */
  lemma TreeOfReadable(b: FileRepositoryBuilder)
    requires Readable(b)
    ensures Writable(FileRepositoryTree(b)) && NoText(FileRepositoryTree(b))
  {
    var root := FileRepositoryTree(b);
    var sets := root.children[1];
    assert forall i :: 0 <= i < |sets.children| ==> sets.children[i] == b.fileSets[i].element;
    assert Writable(sets) && NoText(sets);
    assert forall i :: 0 <= i < |root.children| ==> Writable(root.children[i]) && NoText(root.children[i]);
  }

  /** An element without attributes, text or children, tagged with a name. */
  lemma LeafWritable(e: Element)
    requires IsName(e.tag) && e.text == "" && e.children == []
    requires forall i :: 0 <= i < |e.attrs| ==> IsName(e.attrs[i].name) && XmlChars(e.attrs[i].value)
    ensures Writable(e) && NoText(e)
  {
  }

  /** Appending a readable child keeps an element readable. */
  lemma AppendKeepsWritable(parent: Element, cs: seq<Element>)
    requires Writable(parent) && NoText(parent)
    requires forall i :: 0 <= i < |cs| ==> Writable(cs[i]) && NoText(cs[i])
    ensures var r := parent.(children := parent.children + cs);
            Writable(r) && NoText(r)
  {
    var r := parent.(children := parent.children + cs);
    assert forall i :: 0 <= i < |r.children| ==>
      r.children[i] == if i < |parent.children| then parent.children[i] else cs[i - |parent.children|];
  }

  /** The attributes `SetAttr` leaves are named by names and hold values
      XML can carry. */
  lemma {:induction false} SetAttrKeepsNames(attrs: seq<Attr>, name: string, value: string)
    requires IsName(name) && XmlChars(value)
    requires forall i :: 0 <= i < |attrs| ==> IsName(attrs[i].name) && XmlChars(attrs[i].value)
    ensures forall i :: 0 <= i < |SetAttr(attrs, name, value)| ==>
              IsName(SetAttr(attrs, name, value)[i].name) && XmlChars(SetAttr(attrs, name, value)[i].value)
    decreases |attrs|
  {
    var r := SetAttr(attrs, name, value);
    if |attrs| > 0 && attrs[0].name != name {
      SetAttrKeepsNames(attrs[1..], name, value);
      var t := SetAttr(attrs[1..], name, value);
      assert r == [attrs[0]] + t;
      assert forall i :: 1 <= i < |r| ==> r[i] == t[i - 1];
    } else if |attrs| > 0 {
      assert forall i :: 1 <= i < |r| ==> r[i] == attrs[i];
    }
  }

  /** The `Property` elements the builder creates are readable. */
  lemma PropertyWritable(t: PackageType)
    ensures Writable(PackageTypeProperty(t)) && NoText(PackageTypeProperty(t))
  {
    assert IsName("Name") && IsName("Value") && IsName("Property");
    assert XmlChars("PackageType") && XmlChars(PackageTypeName(t));
    SetAttrKeepsNames([], "Name", "PackageType");
    SetAttrKeepsNames(SetAttr([], "Name", "PackageType"), "Value", PackageTypeName(t));
    LeafWritable(PackageTypeProperty(t));
  }

  /** The `FileSet` elements the builder creates are readable. */
  lemma FileSetElementWritable(name: string, idText: string)
    requires XmlChars(name) && XmlChars(idText)
    ensures Writable(FileSetElement(name, idText)) && NoText(FileSetElement(name, idText))
  {
    assert IsName("Name") && IsName("Id") && IsName("FileSet");
    SetAttrKeepsNames([], "Name", name);
    SetAttrKeepsNames(SetAttr([], "Name", name), "Id", idText);
    LeafWritable(FileSetElement(name, idText));
  }

  /** The `File` elements the builder creates are readable. */
  lemma FileElementWritable(source: string)
    requires XmlChars(source)
    ensures Writable(FileElement(source)) && NoText(FileElement(source))
  {
    assert IsName("Source") && IsName("File");
    SetAttrKeepsNames([], "Source", source);
    LeafWritable(FileElement(source));
  }

  /** Adding walked files keeps a file set readable. */
  lemma {:induction false} AddFilesKeepsWritable(fs: FileSetBuilder, base: string, prefix: string, walk: seq<WalkEntry>)
    requires Writable(fs.element) && NoText(fs.element)
    requires AddFilesFromDirectory(fs, base, prefix, walk).Success?
    ensures var r := AddFilesFromDirectory(fs, base, prefix, walk).value.element;
            Writable(r) && NoText(r)
    decreases |walk|
  {
    if |walk| > 0 {
      WalkAcceptedCons(base, prefix, walk);
      assert EntryAccepted(base, prefix, walk[0]);
      var added := EntryFiles(base, prefix, walk[0]);
      forall j | 0 <= j < |added|
        ensures Writable(added[j]) && NoText(added[j])
      {
        FileElementWritable(WalkedSource(base, prefix, walk[0], walk[0].filenames[j]));
      }
      AppendKeepsWritable(fs.element, added);
      var fs' := FileSetBuilder(fs.element.(children := fs.element.children + added));
      AddFilesKeepsWritable(fs', base, prefix, walk[1..]);
    }
  }

  lemma NewBuilderReadable()
    ensures Readable(NewBuilder())
  {
    assert IsName("Properties");
  }

  /** Every operation keeps the builder readable. */
  lemma ApplyKeepsReadable(b: FileRepositoryBuilder, op: Operation)
    requires Readable(b) && Apply(b, op).Success?
    ensures Readable(Apply(b, op).value)
  {
    match op
    case SetPackageTypeOp(t) =>
      PropertyWritable(t);
      AppendKeepsWritable(b.propertyNode, [PackageTypeProperty(t)]);
    case AddFileSetOp(q) =>
      AddFileSetKeepsReadable(b, q);
    case SetSourcePackageOp(_, _) =>
    case AddFilesFromDirectoryOp(h, base, prefix, walk) =>
      AddFilesKeepsWritable(b.fileSets[h], base, prefix, walk);
      UpdateKeepsReadable(b, h, AddFilesFromDirectory(b.fileSets[h], base, prefix, walk).value);
  }

  lemma AddFileSetKeepsReadable(b: FileRepositoryBuilder, q: FileSetRequest)
    requires Readable(b) && AddFileSet(b, q.name, q.id, q.generated).Success?
    ensures Readable(AddFileSet(b, q.name, q.id, q.generated).value.0)
  {
    var fs := NewFileSet(q.name, q.id, q.generated).value;
    FileSetElementWritable(q.name.value, IdString(q.id.GetOr(UuidId(q.generated))));
    var b' := AddFileSet(b, q.name, q.id, q.generated).value.0;
    assert forall i :: 0 <= i < |b'.fileSets| ==> b'.fileSets[i] == if i < |b.fileSets| then b.fileSets[i] else fs;
  }

  lemma UpdateKeepsReadable(b: FileRepositoryBuilder, h: nat, fs: FileSetBuilder)
    requires Readable(b) && h < |b.fileSets| && Writable(fs.element) && NoText(fs.element)
    ensures Readable(UpdateFileSet(b, h, fs))
  {
  }

  /** Every script keeps the builder readable. */
  lemma {:induction false} RunKeepsReadable(b: FileRepositoryBuilder, ops: seq<Operation>)
    requires Readable(b) && Run(b, ops).Success?
    ensures Readable(Run(b, ops).value)
    decreases |ops|
  {
    if |ops| > 0 {
      ApplyKeepsReadable(b, ops[0]);
      RunKeepsReadable(Apply(b, ops[0]).value, ops[1..]);
    }
  }

  /** Whatever a script does with a new builder, the text `Finalize` writes,
      pretty or compact, reads back as the builder's `FileRepository` tree:
      the properties and the file sets in order, with every attribute. */
  lemma FinalizedScriptReadsBack(ops: seq<Operation>, prettyPrint: bool)
    requires Run(NewBuilder(), ops).Success?
    ensures var b := Run(NewBuilder(), ops).value;
            ParseDocument(Finalize(b, prettyPrint)) == Some(FileRepositoryTree(b))
  {
    NewBuilderReadable();
    RunKeepsReadable(NewBuilder(), ops);
    TreeOfReadable(Run(NewBuilder(), ops).value);
  }

  /** One `AddFileSet` request: name, optional id, and the UUID `uuid4`
      would generate. */
  datatype FileSetRequest = FileSetRequest(name: Option<string>, id: Option<IdArg>, generated: Uuid)

  /** A request lxml accepts: a name is given, and the name and the id
      text hold only characters XML can carry. */
  predicate Accepted(q: FileSetRequest) {
    q.name.Some? && XmlChars(q.name.value) && XmlChars(IdString(q.id.GetOr(UuidId(q.generated))))
  }

  /** `AddFileSet` for each request in order; the first failure stops. */
  function AddFileSets(b: FileRepositoryBuilder, reqs: seq<FileSetRequest>): Result<FileRepositoryBuilder>
    decreases |reqs|
  {
    if |reqs| == 0 then Success(b)
    else
      match AddFileSet(b, reqs[0].name, reqs[0].id, reqs[0].generated)
      case Failure(e) => Failure(e)
      case Success(step) => AddFileSets(step.0, reqs[1..])
  }

  /** The file set one request creates. */
  function Requested(q: FileSetRequest): Result<FileSetBuilder> {
    NewFileSet(q.name, q.id, q.generated)
  }

  /** A run of `AddFileSet` calls succeeds exactly when every call names
      its file set with text XML can carry and its id text can be carried
      too. */
  lemma {:induction false} AddFileSetsSucceeds(b: FileRepositoryBuilder, reqs: seq<FileSetRequest>)
    ensures AddFileSets(b, reqs).Success? <==> forall k :: 0 <= k < |reqs| ==> Accepted(reqs[k])
    decreases |reqs|
  {
    if |reqs| > 0 {
      assert forall k :: 1 <= k < |reqs| ==> reqs[k] == reqs[1..][k - 1];
      if Accepted(reqs[0]) {
        AddFileSetsSucceeds(AddFileSet(b, reqs[0].name, reqs[0].id, reqs[0].generated).value.0, reqs[1..]);
      }
    }
  }

  /** The file sets a run of requests creates, one per request, up to the
      first request that fails. */
  function RequestedAll(reqs: seq<FileSetRequest>): seq<FileSetBuilder> {
    Successes(reqs, Requested)
  }

  /** When every request is accepted, entry `k` of the run is the file set
      request `k` creates, and there is one entry per request. */
  lemma RequestedAllAt(reqs: seq<FileSetRequest>, k: nat)
    requires forall k :: 0 <= k < |reqs| ==> Accepted(reqs[k])
    requires k < |reqs|
    ensures |RequestedAll(reqs)| == |reqs|
    ensures Requested(reqs[k]).Success? && RequestedAll(reqs)[k] == Requested(reqs[k]).value
  {
    SuccessesAt(reqs, Requested, k);
  }

  /** A successful run of `AddFileSet` calls appends one file set per call,
      in call order, and leaves the properties alone. */
  lemma {:induction false} AddFileSetsAppends(b: FileRepositoryBuilder, reqs: seq<FileSetRequest>)
    requires AddFileSets(b, reqs).Success?
    ensures AddFileSets(b, reqs).value.propertyNode == b.propertyNode
    ensures AddFileSets(b, reqs).value.fileSets == b.fileSets + RequestedAll(reqs)
    decreases |reqs|
  {
    if |reqs| > 0 {
      var b' := AddFileSetsStep(b, reqs);
      AddFileSetsAppends(b', reqs[1..]);
      AppendAfter(b.fileSets, Requested(reqs[0]).value, RequestedAll(reqs[1..]), RequestedAll(reqs),
                  AddFileSets(b', reqs[1..]).value.fileSets);
    }
  }

  /** The first call of a run: its file set is appended, and the rest of
      the run continues from there. */
  lemma AddFileSetsStep(b: FileRepositoryBuilder, reqs: seq<FileSetRequest>) returns (b': FileRepositoryBuilder)
    requires |reqs| > 0 && AddFileSets(b, reqs).Success?
    ensures Accepted(reqs[0]) && Requested(reqs[0]).Success?
    ensures b'.propertyNode == b.propertyNode
    ensures b'.fileSets == b.fileSets + [Requested(reqs[0]).value]
    ensures RequestedAll(reqs) == [Requested(reqs[0]).value] + RequestedAll(reqs[1..])
    ensures AddFileSets(b, reqs) == AddFileSets(b', reqs[1..])
  {
    b' := AddFileSet(b, reqs[0].name, reqs[0].id, reqs[0].generated).value.0;
  }

  /** `Finalize` lists the file sets in the order `AddFileSet` was called,
      each with the name and id it was given (or the generated one). */
  lemma FileSetsInCallOrder(b: FileRepositoryBuilder, reqs: seq<FileSetRequest>, k: nat)
    requires AddFileSets(b, reqs).Success? && k < |reqs|
    ensures var sets := FileRepositoryTree(AddFileSets(b, reqs).value).children[1].children;
            && |sets| == |b.fileSets| + |reqs|
            && GetAttr(sets[|b.fileSets| + k].attrs, "Name") == reqs[k].name
            && GetAttr(sets[|b.fileSets| + k].attrs, "Id")
                 == Some(IdString(reqs[k].id.GetOr(UuidId(reqs[k].generated))))
  {
    AddFileSetsSucceeds(b, reqs);
    var r := AddFileSets(b, reqs).value;
    var e := Requested(reqs[k]).value.element;
    assert |r.fileSets| == |b.fileSets| + |reqs| && r.fileSets[|b.fileSets| + k].element == e by {
      AddFileSetsAppends(b, reqs);
      RequestedAllAt(reqs, k);
      AppendedAt(b.fileSets, RequestedAll(reqs), r.fileSets, k);
    }
    assert FileRepositoryTree(r).children[1].children[|b.fileSets| + k] == e;
  }

  /** The operations a script can apply to a builder. */
  datatype Operation =
    | SetPackageTypeOp(packageType: PackageType)
    | AddFileSetOp(request: FileSetRequest)
    | SetSourcePackageOp(handle: nat, sourcePackage: string)
    | AddFilesFromDirectoryOp(handle: nat, base: string, prefix: string, walk: seq<WalkEntry>)

  const BadHandle: string := "IndexError: no file set with this handle"

  /** One operation; a handle that was never returned is an error. */
  function Apply(b: FileRepositoryBuilder, op: Operation): Result<FileRepositoryBuilder> {
    match op
    case SetPackageTypeOp(t) => Success(SetPackageType(b, t))
    case AddFileSetOp(q) =>
      var (b', _) :- AddFileSet(b, q.name, q.id, q.generated);
      Success(b')
    case SetSourcePackageOp(h, p) =>
      if h < |b.fileSets| then Success(UpdateFileSet(b, h, SetSourcePackage(b.fileSets[h], p)))
      else Failure(BadHandle)
    case AddFilesFromDirectoryOp(h, base, prefix, walk) =>
      if h < |b.fileSets| then
        var fs :- AddFilesFromDirectory(b.fileSets[h], base, prefix, walk);
        Success(UpdateFileSet(b, h, fs))
      else Failure(BadHandle)
  }

  /** Operations applied in order, stopping at the first failure. */
  function Run(b: FileRepositoryBuilder, ops: seq<Operation>): Result<FileRepositoryBuilder>
    decreases |ops|
  {
    if |ops| == 0 then Success(b)
    else
      var b' :- Apply(b, ops[0]);
      Run(b', ops[1..])
  }

  /** No file set carries a `SourcePackage` attribute. */
  predicate NoSourcePackage(b: FileRepositoryBuilder) {
    forall i :: 0 <= i < |b.fileSets| ==> GetAttr(b.fileSets[i].element.attrs, "SourcePackage") == None
  }

  /** Every operation keeps file sets free of `SourcePackage`. */
  lemma ApplyKeepsNoSourcePackage(b: FileRepositoryBuilder, op: Operation)
    requires NoSourcePackage(b) && Apply(b, op).Success?
    ensures NoSourcePackage(Apply(b, op).value)
  {
    match op
    case SetPackageTypeOp(_) =>
    case AddFileSetOp(q) =>
      var b' := Apply(b, op).value;
      assert b'.fileSets == b.fileSets + [NewFileSet(q.name, q.id, q.generated).value];
    case SetSourcePackageOp(_, _) =>
    case AddFilesFromDirectoryOp(_, _, _, _) =>
  }

  /** Whatever a script does through the builder's operations, including
      calling `SetSourcePackage`, no file set ends up with a
      `SourcePackage` attribute. */
  lemma {:induction false} RunKeepsNoSourcePackage(b: FileRepositoryBuilder, ops: seq<Operation>)
    requires NoSourcePackage(b) && Run(b, ops).Success?
    ensures NoSourcePackage(Run(b, ops).value)
    decreases |ops|
  {
    if |ops| > 0 {
      ApplyKeepsNoSourcePackage(b, ops[0]);
      RunKeepsNoSourcePackage(Apply(b, ops[0]).value, ops[1..]);
    }
  }

  /** The finished document of any script that starts from a new builder
      has no `FileSet` with a `SourcePackage` attribute. */
  lemma NoSourcePackageEverAppears(ops: seq<Operation>, i: nat)
    requires Run(NewBuilder(), ops).Success?
    requires i < |FileRepositoryTree(Run(NewBuilder(), ops).value).children[1].children|
    ensures GetAttr(FileRepositoryTree(Run(NewBuilder(), ops).value).children[1].children[i].attrs, "SourcePackage")
            == None
  {
    RunKeepsNoSourcePackage(NewBuilder(), ops);
  }

  /** A new builder starts without any `SourcePackage` attribute. */
  lemma NewBuilderHasNoSourcePackage()
    ensures NoSourcePackage(NewBuilder())
  {
  }
}

=== FILE: package.dfy ===
/** The package file `data.kypkg` that the packed repository builder of
    src/base/src/RepositoryBuilder.cpp writes: a 64-byte header, then the
    content objects back to back, each recorded by a `storage_mapping` row.

    The header struct is written as its raw bytes; the model assumes a
    little-endian machine with no padding (8 + 8 + 48 bytes).
 */
module Package {
  import opened Seqs
  import opened Text

  /** `"KYLAPKG"` with its terminating zero: the 8 bytes `memcpy` copies. */
  const PackageMagic: seq<byte> := [0x4B, 0x59, 0x4C, 0x41, 0x50, 0x4B, 0x47, 0x00]

  const PackageVersion: nat := 0x0001000000000000

  const HeaderSize: nat := 64

  const TwoTo64: nat := 0x1_0000_0000_0000_0000

  /** The 8 little-endian bytes of an unsigned 64-bit value. */
  function LittleEndian64(n: nat): (r: seq<byte>)
    requires n < TwoTo64
    ensures |r| == 8
  {
    LittleEndian(n, 8)
  }

  function LittleEndian(n: nat, width: nat): (r: seq<byte>)
    ensures |r| == width
    decreases width
  {
    if width == 0 then [] else [(n % 256) as byte] + LittleEndian(n / 256, width - 1)
  }

  /** The value of little-endian bytes. */
  function ReadLittleEndian(bs: seq<byte>): nat
    decreases |bs|
  {
    if |bs| == 0 then 0 else bs[0] as nat + 256 * ReadLittleEndian(bs[1..])
  }

  function Pow256(width: nat): nat
    decreases width
  {
    if width == 0 then 1 else 256 * Pow256(width - 1)
  }

  /** Little-endian bytes read back as the value written, when the value
      fits the width. */
  lemma {:induction false} LittleEndianRoundTrip(n: nat, width: nat)
    requires n < Pow256(width)
    ensures ReadLittleEndian(LittleEndian(n, width)) == n
    decreases width
  {
    if width > 0 {
      LittleEndianRoundTrip(n / 256, width - 1);
      assert LittleEndian(n, width)[1..] == LittleEndian(n / 256, width - 1);
    }
  }

  /** `PackageHeader::Initialize`: the zeroed struct with the magic and the
      version filled in, as the bytes written to the package. */
  function HeaderBytes(): (r: seq<byte>)
    ensures |r| == HeaderSize
  {
    PackageMagic + LittleEndian64(PackageVersion) + seq(48, _ => 0 as byte)
  }

  /** The header reads back as the magic, the version and 48 zero bytes. */
  lemma HeaderLayout()
    ensures HeaderBytes()[..8] == PackageMagic
    ensures ReadLittleEndian(HeaderBytes()[8..16]) == PackageVersion
    ensures forall k :: 16 <= k < HeaderSize ==> HeaderBytes()[k] == 0
  {
    var h := HeaderBytes();
    assert h[8..16] == LittleEndian(PackageVersion, 8);
    assert Pow256(8) == TwoTo64;
    LittleEndianRoundTrip(PackageVersion, 8);
  }

  /** A `storage_mapping` row; the compression column is always NULL. */
  datatype StorageMapping = StorageMapping(
    contentObjectId: int, sourcePackageId: int,
    packageOffset: nat, packageSize: nat, sourceOffset: nat)

  /** The package bytes and the mapping rows of the packing loop. */
  datatype PackedPackage = PackedPackage(bytes: seq<byte>, mappings: seq<StorageMapping>)

  /** The packing loop: after the header, each content object is copied to
      the end of the package; its row records the offset before the copy
      (`Tell`), the number of bytes copied and a zero offset inside the
      object. Content object `i` has id `firstId + i`. */
  function Pack(objects: seq<seq<byte>>, firstId: int, packageId: int): (p: PackedPackage)
    ensures |p.mappings| == |objects|
    ensures |p.bytes| == HeaderSize + SumLengths(objects)
    decreases |objects|
  {
    if |objects| == 0 then PackedPackage(HeaderBytes(), [])
    else
      var n := |objects|;
      var p := Pack(objects[..n - 1], firstId, packageId);
      var m := StorageMapping(firstId + n - 1, packageId, |p.bytes|, |objects[n - 1]|, 0);
      PackedPackage(p.bytes + objects[n - 1], p.mappings + [m])
  }

  /** The package starts with the header, however many objects follow. */
  lemma {:induction false} PackHeader(objects: seq<seq<byte>>, firstId: int, packageId: int)
    ensures Pack(objects, firstId, packageId).bytes[..HeaderSize] == HeaderBytes()
    decreases |objects|
  {
    if |objects| > 0 {
      var n := |objects|;
      PackHeader(objects[..n - 1], firstId, packageId);
      var p := Pack(objects[..n - 1], firstId, packageId);
      assert (p.bytes + objects[n - 1])[..HeaderSize] == p.bytes[..HeaderSize];
    }
  }

  /** Row `i` names content object `firstId + i` in the package, starts
      after the header and every earlier object, and spans the object. */
  lemma {:induction false} PackMapping(objects: seq<seq<byte>>, firstId: int, packageId: int, i: nat)
    requires i < |objects|
    ensures var m := Pack(objects, firstId, packageId).mappings[i];
            && m.contentObjectId == firstId + i && m.sourcePackageId == packageId
            && m.packageOffset == HeaderSize + SumLengths(objects[..i])
            && m.packageSize == |objects[i]| && m.sourceOffset == 0
    decreases |objects|
  {
    var n := |objects|;
    if i < n - 1 {
      PackMapping(objects[..n - 1], firstId, packageId, i);
      assert objects[..n - 1][..i] == objects[..i];
    } else {
      assert objects[..n - 1] == objects[..i];
    }
  }

  /** The bytes a mapping row points at. */
  function Extract(bytes: seq<byte>, m: StorageMapping): seq<byte>
    requires m.packageOffset + m.packageSize <= |bytes|
  {
    bytes[m.packageOffset..m.packageOffset + m.packageSize]
  }

  /** Reading a content object back through its mapping row gives exactly
      the bytes that were copied in. */
  lemma {:induction false} PackExtract(objects: seq<seq<byte>>, firstId: int, packageId: int, i: nat)
    requires i < |objects|
    ensures var p := Pack(objects, firstId, packageId);
            p.mappings[i].packageOffset + p.mappings[i].packageSize <= |p.bytes|
            && Extract(p.bytes, p.mappings[i]) == objects[i]
    decreases |objects|
  {
    var n := |objects|;
    var prev := Pack(objects[..n - 1], firstId, packageId);
    var p := Pack(objects, firstId, packageId);
    assert p.bytes == prev.bytes + objects[n - 1];
    if i == n - 1 {
      PackMapping(objects, firstId, packageId, i);
      assert objects[..n - 1] == objects[..i];
      assert p.bytes[|prev.bytes|..] == objects[n - 1];
    } else {
      PackExtract(objects[..n - 1], firstId, packageId, i);
      assert p.mappings[i] == prev.mappings[i];
      assert p.bytes[..|prev.bytes|] == prev.bytes;
    }
  }

  /** Consecutive objects are contiguous: each starts where the previous one
      ends, the first right after the header, and the last ends at the end
      of the package. */
  lemma PackContiguous(objects: seq<seq<byte>>, firstId: int, packageId: int)
    ensures var p := Pack(objects, firstId, packageId);
            && (|objects| > 0 ==> p.mappings[0].packageOffset == HeaderSize)
            && (forall i :: 0 <= i < |objects| - 1 ==>
                  p.mappings[i + 1].packageOffset == p.mappings[i].packageOffset + p.mappings[i].packageSize)
            && (|objects| > 0 ==>
                  p.mappings[|objects| - 1].packageOffset + p.mappings[|objects| - 1].packageSize == |p.bytes|)
  {
    var p := Pack(objects, firstId, packageId);
    forall i | 0 <= i < |objects| - 1
      ensures p.mappings[i + 1].packageOffset == p.mappings[i].packageOffset + p.mappings[i].packageSize
    {
      PackMapping(objects, firstId, packageId, i);
      PackMapping(objects, firstId, packageId, i + 1);
      assert objects[..i + 1][..i] == objects[..i];
    }
    if |objects| > 0 {
      PackMapping(objects, firstId, packageId, 0);
      PackMapping(objects, firstId, packageId, |objects| - 1);
      assert objects[..|objects|] == objects;
      assert objects[..|objects|][..|objects| - 1] == objects[..|objects| - 1];
    }
  }

  /** Prefix sums grow with the prefix. */
  lemma {:induction false} SumLengthsMonotone<T>(ss: seq<seq<T>>, i: nat, j: nat)
    requires i <= j <= |ss|
    ensures i < j ==> SumLengths(ss[..i]) + |ss[i]| <= SumLengths(ss[..j])
    decreases j - i
  {
    if i < j {
      assert ss[..j][..j - 1] == ss[..j - 1];
      if i < j - 1 {
        SumLengthsMonotone(ss, i, j - 1);
      }
    }
  }

  /** The ranges of different objects do not overlap. */
  lemma PackDisjoint(objects: seq<seq<byte>>, firstId: int, packageId: int, i: nat, j: nat)
    requires i < j < |objects|
    ensures var p := Pack(objects, firstId, packageId);
            p.mappings[i].packageOffset + p.mappings[i].packageSize <= p.mappings[j].packageOffset
  {
    PackMapping(objects, firstId, packageId, i);
    PackMapping(objects, firstId, packageId, j);
    SumLengthsMonotone(objects, i, j);
  }
}

=== FILE: paths.dfy ===
/** Path text as the two languages build it.

    Python's `os.path.join` (the POSIX flavour) and boost::filesystem's
    `operator/` and `parent_path` are modelled on plain strings with `/` as
    the only separator. Paths are taken to be normalised already (no `.`,
    `..` or repeated separators), which lets string equality stand for
    path equality; boost's element-wise comparison and the Windows `\\`
    separator are not modelled.
 */
module Paths {
  import opened Wrappers

  const Sep: char := '/'

  predicate StartsWithSep(s: string) {
    |s| > 0 && s[0] == Sep
  }

  predicate EndsWithSep(s: string) {
    |s| > 0 && s[|s| - 1] == Sep
  }

  /** `os.path.join(path, b)`: an absolute `b` replaces what came before,
      otherwise a separator is inserted unless `path` is empty or already
      ends with one. */
  function PyJoin2(path: string, b: string): string {
    if StartsWithSep(b) then b
    else if |path| == 0 || EndsWithSep(path) then path + b
    else path + [Sep] + b
  }

  /** `os.path.join(parts[0], parts[1], ...)`. */
  function PyJoin(parts: seq<string>): string
    requires |parts| >= 1
    decreases |parts|
  {
    if |parts| == 1 then parts[0] else PyJoin2(PyJoin(parts[..|parts| - 1]), parts[|parts| - 1])
  }

  /** Three-argument join, the shape used for a walked file:
      an empty middle part adds nothing, an empty first part is dropped. */
  lemma PyJoin3(a: string, b: string, c: string)
    requires !StartsWithSep(b) && !StartsWithSep(c) && !EndsWithSep(a) && !EndsWithSep(b)
    ensures PyJoin([a, b, c]) ==
              if |a| == 0 && |b| == 0 then c
              else if |a| == 0 then b + [Sep] + c
              else if |b| == 0 then a + [Sep] + c
              else a + [Sep] + b + [Sep] + c
  {
    assert [a, b, c][..2] == [a, b];
    assert [a, b][..1] == [a];
    var ab := PyJoin2(a, b);
    assert PyJoin([a, b]) == ab;
    assert PyJoin([a, b, c]) == PyJoin2(ab, c);
    if |a| > 0 && |b| == 0 {
      assert ab == a + [Sep];
    }
  }

  /** boost::filesystem `a / b`: `b` is appended, with one separator added
      when neither side supplies one; an empty side contributes nothing. */
  function Append(a: string, b: string): (r: string)
    ensures |b| == 0 ==> r == a
    ensures |a| == 0 ==> r == b
  {
    if |b| == 0 then a
    else if |a| == 0 || EndsWithSep(a) || StartsWithSep(b) then a + b
    else a + [Sep] + b
  }

  /** Index of the last separator of `s`, if any. */
  function LastSep(s: string): (r: Option<nat>)
    ensures r.Some? ==> r.value < |s| && s[r.value] == Sep
                        && forall k :: r.value < k < |s| ==> s[k] != Sep
    ensures r.None? ==> forall k :: 0 <= k < |s| ==> s[k] != Sep
    decreases |s|
  {
    if |s| == 0 then None
    else if s[|s| - 1] == Sep then Some(|s| - 1)
    else LastSep(s[..|s| - 1])
  }

  /** boost::filesystem `parent_path` of a path without repeated
      separators: everything before the last separator, the root for a
      top-level absolute path, and the empty path when there is no
      separator at all. */
  function ParentPath(p: string): string {
    match LastSep(p)
    case None => ""
    case Some(i) => if i == 0 then [Sep] else p[..i]
  }

  /** `os.path.join(path, b)` keeps both texts whole: an absolute `b` is
      the result; otherwise the result is `path`, then one separator
      exactly when `path` is non-empty and does not end with one, then `b`. */
  lemma PyJoin2Parts(path: string, b: string)
    ensures StartsWithSep(b) ==> PyJoin2(path, b) == b
    ensures !StartsWithSep(b) ==>
              var r := PyJoin2(path, b);
              |r| == |path| + |b| + (if |path| > 0 && !EndsWithSep(path) then 1 else 0)
              && r[..|path|] == path && r[|r| - |b|..] == b
  {
  }

  /** `os.path.join(parts...)` ends with its last part, is that part when
      it is absolute, and starts with the first part when no later part is
      absolute. */
  lemma {:induction false} PyJoinEnds(parts: seq<string>)
    requires |parts| >= 1
    ensures StartsWithSep(parts[|parts| - 1]) ==> PyJoin(parts) == parts[|parts| - 1]
    ensures |parts[|parts| - 1]| <= |PyJoin(parts)|
            && PyJoin(parts)[|PyJoin(parts)| - |parts[|parts| - 1]|..] == parts[|parts| - 1]
    ensures (forall k :: 0 < k < |parts| ==> !StartsWithSep(parts[k])) ==>
              |parts[0]| <= |PyJoin(parts)| && PyJoin(parts)[..|parts[0]|] == parts[0]
    decreases |parts|
  {
    var n := |parts|;
    if n > 1 {
      var front := parts[..n - 1];
      PyJoinEnds(front);
      PyJoin2Parts(PyJoin(front), parts[n - 1]);
      if forall k :: 0 < k < n ==> !StartsWithSep(parts[k]) {
        assert forall k :: 0 < k < n - 1 ==> front[k] == parts[k];
        var j := PyJoin(front);
        assert PyJoin(parts)[..|j|] == j;
        assert j[..|parts[0]|] == parts[0];
      }
    }
  }

  /** `a / b` keeps both texts whole, with one separator inserted exactly
      when both are non-empty and neither supplies one. */
  lemma AppendParts(a: string, b: string)
    ensures var r := Append(a, b);
            |a| <= |r| && r[..|a|] == a && |b| <= |r| && r[|r| - |b|..] == b
            && |r| == |a| + |b| + (if |a| > 0 && |b| > 0 && !EndsWithSep(a) && !StartsWithSep(b) then 1 else 0)
  {
  }

  /** `parent_path` is empty exactly when there is no separator; otherwise
      it is the root for a top-level absolute path, or the text before the
      last separator. */
  lemma ParentPathParts(p: string)
    ensures var r := ParentPath(p);
            && (r == "" <==> Sep !in p)
            && (r == [Sep] || (|r| <= |p| && r == p[..|r|]))
            && (r == [Sep] ==> StartsWithSep(p))
            && (|r| > 0 && r != [Sep] ==>
                  |r| < |p| && p[|r|] == Sep && forall k :: |r| < k < |p| ==> p[k] != Sep)
  {
  }

  /** The parent of `dir / name` is `dir` for a plain file name. */
  lemma ParentOfAppend(dir: string, name: string)
    requires |name| > 0 && Sep !in name
    requires |dir| == 0 || (!EndsWithSep(dir) && dir != [Sep])
    ensures ParentPath(Append(dir, name)) == dir
  {
    var p := Append(dir, name);
    if |dir| == 0 {
      assert LastSep(p).None?;
    } else {
      assert p == dir + [Sep] + name;
      assert p[|dir|] == Sep;
      assert forall k :: |dir| < k < |p| ==> p[k] == name[k - |dir| - 1];
      assert LastSep(p) == Some(|dir|);
      assert p[..|dir|] == dir;
    }
  }
}

=== FILE: repair.dfy ===
/** `Repair` of both repository kinds in src/Core/src/Repository.cpp.

    Repair validates, collects what is not intact, asks the other
    repository for those content objects and writes what it sends back.
    The other repository is the parameter `fetch`: `GetContentObjects`
    calls back once per requested hash, in request order, with that hash's
    bytes. The writes are returned as (path, bytes) pairs in the order the
    callbacks perform them; `ApplyWrites` replays them on the file system.
 */
module Repair {
  import opened Seqs
  import opened Paths
  import opened Text
  import opened Digests
  import opened Sorting
  import opened Validation
  import BuildDatabase

  /** What the other repository returns for a hash. */
  type Fetch = Digest -> seq<byte>

  /** Some report that is not `Ok` carries hash `h`. */
  predicate HasNotOkHash(reports: seq<Report>, h: Digest) {
    exists i :: 0 <= i < |reports| && reports[i].result != Ok && reports[i].hash == h
  }

  lemma HasNotOkHashGrows(reports: seq<Report>, h: Digest)
    requires |reports| > 0
    ensures HasNotOkHash(reports[..|reports| - 1], h) ==> HasNotOkHash(reports, h)
  {
    var n := |reports|;
    if HasNotOkHash(reports[..n - 1], h) {
      var i :| 0 <= i < n - 1 && reports[..n - 1][i].result != Ok && reports[..n - 1][i].hash == h;
      assert reports[i] == reports[..n - 1][i];
    }
  }

  /** The hashes of the reports that are not `Ok`, in report order: what
      the loose repair's callback pushes. */
  function NotOkHashes(reports: seq<Report>): (r: seq<Digest>)
    ensures |r| <= |reports|
    ensures forall i :: 0 <= i < |reports| && reports[i].result != Ok ==> reports[i].hash in r
    ensures forall k :: 0 <= k < |r| ==> HasNotOkHash(reports, r[k])
    decreases |reports|
  {
    if |reports| == 0 then []
    else
      var n := |reports|;
      var prefix := NotOkHashes(reports[..n - 1]);
      assert forall i :: 0 <= i < n - 1 ==> reports[..n - 1][i] == reports[i];
      var r := if reports[n - 1].result != Ok then prefix + [reports[n - 1].hash] else prefix;
      assert forall k :: 0 <= k < |r| ==> HasNotOkHash(reports, r[k]) by {
        forall k | 0 <= k < |r| ensures HasNotOkHash(reports, r[k]) {
          if k < |prefix| {
            HasNotOkHashGrows(reports, prefix[k]);
          } else {
            assert reports[n - 1].result != Ok && reports[n - 1].hash == r[k];
          }
        }
      }
      r
  }

  /** When everything is intact, nothing is requested. */
  lemma {:induction false} NotOkHashesAllOk(reports: seq<Report>)
    requires forall i :: 0 <= i < |reports| ==> reports[i].result == Ok
    ensures NotOkHashes(reports) == []
    decreases |reports|
  {
    if |reports| > 0 {
      var n := |reports|;
      assert forall i :: 0 <= i < n - 1 ==> reports[..n - 1][i] == reports[i];
      NotOkHashesAllOk(reports[..n - 1]);
    }
  }

  /** The file system after the writes, in order: a later write to a path
      replaces an earlier one. */
  function ApplyWrites(contents: Contents, writes: seq<(string, seq<byte>)>): Contents
    decreases |writes|
  {
    if |writes| == 0 then contents
    else
      var n := |writes|;
      ApplyWrites(contents, writes[..n - 1])[writes[n - 1].0 := writes[n - 1].1]
  }

  /** A path no write names keeps its content, or its absence. */
  lemma {:induction false} ApplyWritesUnwritten(contents: Contents, writes: seq<(string, seq<byte>)>, p: string)
    requires forall k :: 0 <= k < |writes| ==> writes[k].0 != p
    ensures p in ApplyWrites(contents, writes) <==> p in contents
    ensures p in contents ==> ApplyWrites(contents, writes)[p] == contents[p]
    decreases |writes|
  {
    if |writes| > 0 {
      ApplyWritesUnwritten(contents, writes[..|writes| - 1], p);
    }
  }

  /** A path that is written, always with the same bytes, holds them. */
  lemma {:induction false} ApplyWritesConsistent(contents: Contents, writes: seq<(string, seq<byte>)>,
                                                 p: string, b: seq<byte>, k: nat)
    requires k < |writes| && writes[k].0 == p
    requires forall m :: 0 <= m < |writes| && writes[m].0 == p ==> writes[m].1 == b
    ensures p in ApplyWrites(contents, writes) && ApplyWrites(contents, writes)[p] == b
    decreases |writes|
  {
    var n := |writes|;
    if writes[n - 1].0 != p {
      ApplyWritesConsistent(contents, writes[..n - 1], p, b, k);
    }
  }

  /** The requests and the writes of one repair. */
  datatype RepairPlan = RepairPlan(requested: seq<Digest>, writes: seq<(string, seq<byte>)>)

  /** `LooseRepository::Impl::Repair`: every hash reported missing or
      corrupted is requested, once per report, in report order, and the
      bytes sent back are written to that hash's object file. */
  function RepairLoose(root: string, rows: seq<ObjectRow>, contents: Contents, sha: HashFunction, fetch: Fetch)
    : (r: RepairPlan)
    ensures r.requested == NotOkHashes(ValidateLoose(root, rows, contents, sha))
    ensures |r.writes| == |r.requested|
    ensures forall k :: 0 <= k < |r.writes| ==> r.writes[k] == (ObjectPath(root, r.requested[k]), fetch(r.requested[k]))
    ensures forall h :: h in r.requested <==> HasNotOkHash(ValidateLoose(root, rows, contents, sha), h)
    ensures var reports := ValidateLoose(root, rows, contents, sha);
            forall i :: 0 <= i < |reports| && reports[i].result != Ok ==>
              (reports[i].path, fetch(reports[i].hash)) in r.writes
  {
    var reports := ValidateLoose(root, rows, contents, sha);
    var requested := NotOkHashes(reports);
    var writes := ObjectWrites(root, requested, fetch);
    NotOkHashesExactly(reports);
    ObjectWritesCover(root, reports, requested, fetch);
    RepairPlan(requested, writes)
  }

  /** Each requested object written to its file under `.ky/objects`. */
  function ObjectWrites(root: string, requested: seq<Digest>, fetch: Fetch): (w: seq<(string, seq<byte>)>)
    ensures |w| == |requested|
    ensures forall k :: 0 <= k < |w| ==> w[k] == (ObjectPath(root, requested[k]), fetch(requested[k]))
  {
    seq(|requested|, k requires 0 <= k < |requested| => (ObjectPath(root, requested[k]), fetch(requested[k])))
  }

  /** A hash is requested exactly when some report on it is not Ok. */
  lemma NotOkHashesExactly(reports: seq<Report>)
    ensures forall h :: h in NotOkHashes(reports) <==> HasNotOkHash(reports, h)
  {
    forall h | HasNotOkHash(reports, h) ensures h in NotOkHashes(reports) {
      var i :| 0 <= i < |reports| && reports[i].result != Ok && reports[i].hash == h;
    }
  }

  /** When every report names its object's file, writing each requested
      object covers every report whose hash is requested. */
  lemma ObjectWritesCover(root: string, reports: seq<Report>, requested: seq<Digest>, fetch: Fetch)
    requires forall i :: 0 <= i < |reports| ==> reports[i].path == ObjectPath(root, reports[i].hash)
    ensures forall i :: 0 <= i < |reports| && reports[i].hash in requested ==>
              (reports[i].path, fetch(reports[i].hash)) in ObjectWrites(root, requested, fetch)
  {
    var writes := ObjectWrites(root, requested, fetch);
    forall i | 0 <= i < |reports| && reports[i].hash in requested
      ensures (reports[i].path, fetch(reports[i].hash)) in writes
    {
      var m := IndexOf(requested, reports[i].hash);
      assert writes[m] == (reports[i].path, fetch(reports[i].hash));
    }
  }

  /** The other repository sends, for every row's hash, bytes of the
      recorded size that hash to it. */
  predicate ServesRows(rows: seq<ObjectRow>, fetch: Fetch, sha: HashFunction) {
    forall i :: 0 <= i < |rows| ==> |fetch(rows[i].hash)| == rows[i].size && sha(fetch(rows[i].hash)) == rows[i].hash
  }

  /** Repair works: when the other repository serves correct content, a
      loose repository validates as intact after its repair. */
  lemma LooseRepairRestores(root: string, rows: seq<ObjectRow>, contents: Contents, sha: HashFunction, fetch: Fetch)
    requires ServesRows(rows, fetch, sha)
    ensures var after := ApplyWrites(contents, RepairLoose(root, rows, contents, sha, fetch).writes);
            forall k :: 0 <= k < |rows| ==> ValidateLoose(root, rows, after, sha)[k].result == Ok
  {
    forall k | 0 <= k < |rows|
      ensures ValidateLoose(root, rows, ApplyWrites(contents, RepairLoose(root, rows, contents, sha, fetch).writes), sha)[k].result == Ok
    {
      LooseRepairRestoresAt(root, rows, contents, sha, fetch, k);
    }
  }

  lemma LooseRepairRestoresAt(root: string, rows: seq<ObjectRow>, contents: Contents, sha: HashFunction,
                              fetch: Fetch, k: nat)
    requires ServesRows(rows, fetch, sha)
    requires k < |rows|
    ensures var after := ApplyWrites(contents, RepairLoose(root, rows, contents, sha, fetch).writes);
            ValidateLoose(root, rows, after, sha)[k].result == Ok
  {
    var plan := RepairLoose(root, rows, contents, sha, fetch);
    var after := ApplyWrites(contents, plan.writes);
    var ordered := SortBy(rows, ObjectSize);
    SortByMembers(rows, ObjectSize);
    var row := ordered[k];
    var j :| 0 <= j < |rows| && rows[j] == row;
    var p := ObjectPath(root, row.hash);
    var before := ValidateLoose(root, rows, contents, sha);
    assert before[k] == LooseReport(root, row, contents, sha);
    forall m | 0 <= m < |plan.writes| && plan.writes[m].0 == p
      ensures plan.writes[m].1 == fetch(row.hash)
    {
      if plan.requested[m] != row.hash {
        BuildDatabase.LooseObjectPathInjective(ObjectsDirectory(root), plan.requested[m], row.hash);
      }
    }
    if exists m :: 0 <= m < |plan.writes| && plan.writes[m].0 == p {
      var m :| 0 <= m < |plan.writes| && plan.writes[m].0 == p;
      ApplyWritesConsistent(contents, plan.writes, p, fetch(row.hash), m);
      ClassifyIntact(after, p, row.hash, sha);
    } else {
      LooseRepairWritesEveryObject(root, rows, contents, sha, fetch, k);
      ApplyWritesUnwritten(contents, plan.writes, p);
    }
  }

  /** Every object reported not intact is written with its bytes. */
  lemma LooseRepairWritesEveryObject(root: string, rows: seq<ObjectRow>, contents: Contents,
                                     sha: HashFunction, fetch: Fetch, i: nat)
    requires i < |rows|
    ensures var v := ValidateLoose(root, rows, contents, sha)[i];
            v.result != Ok ==> (v.path, fetch(v.hash)) in RepairLoose(root, rows, contents, sha, fetch).writes
  {
    var plan := RepairLoose(root, rows, contents, sha, fetch);
    var v := ValidateLoose(root, rows, contents, sha)[i];
    if v.result != Ok {
      var m := IndexOf(plan.requested, v.hash);
      assert plan.writes[m] == (v.path, fetch(v.hash));
    }
  }

  /** Some report that is not `Ok` has hash and path `x`. */
  predicate HasNotOkEntry(reports: seq<Report>, x: (Digest, string)) {
    exists i :: 0 <= i < |reports| && reports[i].result != Ok && x == (reports[i].hash, reports[i].path)
  }

  lemma HasNotOkEntryGrows(reports: seq<Report>, x: (Digest, string))
    requires |reports| > 0
    ensures HasNotOkEntry(reports[..|reports| - 1], x) ==> HasNotOkEntry(reports, x)
  {
    var n := |reports|;
    if HasNotOkEntry(reports[..n - 1], x) {
      var i :| 0 <= i < n - 1 && reports[..n - 1][i].result != Ok
               && x == (reports[..n - 1][i].hash, reports[..n - 1][i].path);
      assert reports[i] == reports[..n - 1][i];
    }
  }

  /** The (hash, path) pairs of the reports that are not `Ok`, in report
      order: what the deployed repair's callback puts in its multimap. */
  function NotOkEntries(reports: seq<Report>): (r: seq<(Digest, string)>)
    ensures forall i :: 0 <= i < |reports| && reports[i].result != Ok ==> (reports[i].hash, reports[i].path) in r
    ensures forall e :: 0 <= e < |r| ==> HasNotOkEntry(reports, r[e])
    decreases |reports|
  {
    if |reports| == 0 then []
    else
      var n := |reports|;
      var prefix := NotOkEntries(reports[..n - 1]);
      assert forall i :: 0 <= i < n - 1 ==> reports[..n - 1][i] == reports[i];
      var r := if reports[n - 1].result != Ok then prefix + [(reports[n - 1].hash, reports[n - 1].path)] else prefix;
      assert forall e :: 0 <= e < |r| ==> HasNotOkEntry(reports, r[e]) by {
        forall e | 0 <= e < |r| ensures HasNotOkEntry(reports, r[e]) {
          if e < |prefix| {
            HasNotOkEntryGrows(reports, prefix[e]);
          } else {
            assert reports[n - 1].result != Ok && r[e] == (reports[n - 1].hash, reports[n - 1].path);
          }
        }
      }
      r
  }

  /** `equal_range(hash)`: the paths recorded for a hash, in insertion order. */
  function PathsFor(entries: seq<(Digest, string)>, h: Digest): (r: seq<string>)
    ensures forall k :: 0 <= k < |r| ==> (h, r[k]) in entries
    ensures forall e :: 0 <= e < |entries| && entries[e].0 == h ==> entries[e].1 in r
    decreases |entries|
  {
    if |entries| == 0 then []
    else
      var n := |entries|;
      var prefix := PathsFor(entries[..n - 1], h);
      assert forall e :: 0 <= e < n - 1 ==> entries[..n - 1][e] == entries[e];
      if entries[n - 1].0 == h then prefix + [entries[n - 1].1] else prefix
  }

  /** The same bytes written to each path in turn. */
  function WriteAll(paths: seq<string>, b: seq<byte>): (r: seq<(string, seq<byte>)>)
    ensures |r| == |paths|
    ensures forall k :: 0 <= k < |r| ==> r[k] == (paths[k], b)
  {
    seq(|paths|, k requires 0 <= k < |paths| => (paths[k], b))
  }

  /** The writes of the fetch callback: for each requested hash in turn,
      its bytes to every path recorded for it. */
  function FanOut(hs: seq<Digest>, entries: seq<(Digest, string)>, fetch: Fetch): (r: seq<(string, seq<byte>)>)
    ensures forall k :: 0 <= k < |r| ==>
              exists h :: h in hs && (h, r[k].0) in entries && r[k].1 == fetch(h)
    decreases |hs|
  {
    if |hs| == 0 then []
    else
      var n := |hs|;
      var h := hs[n - 1];
      var paths := PathsFor(entries, h);
      var prefix := FanOut(hs[..n - 1], entries, fetch);
      var r := prefix + WriteAll(paths, fetch(h));
      assert forall k :: 0 <= k < |r| ==> exists h' :: h' in hs && (h', r[k].0) in entries && r[k].1 == fetch(h') by {
        forall k | 0 <= k < |r| ensures exists h' :: h' in hs && (h', r[k].0) in entries && r[k].1 == fetch(h') {
          if k < |prefix| {
            var h' :| h' in hs[..n - 1] && (h', prefix[k].0) in entries && prefix[k].1 == fetch(h');
            assert r[k] == prefix[k];
          } else {
            assert r[k] == (paths[k - |prefix|], fetch(h));
          }
        }
      }
      r
  }

  /** Every recorded (hash, path) pair whose hash is requested is written. */
  lemma {:induction false} FanOutCovers(hs: seq<Digest>, entries: seq<(Digest, string)>, fetch: Fetch, e: nat)
    requires e < |entries| && entries[e].0 in hs
    ensures (entries[e].1, fetch(entries[e].0)) in FanOut(hs, entries, fetch)
    decreases |hs|
  {
    var n := |hs|;
    var prefix := FanOut(hs[..n - 1], entries, fetch);
    var paths := PathsFor(entries, hs[n - 1]);
    var tail := WriteAll(paths, fetch(hs[n - 1]));
    assert FanOut(hs, entries, fetch) == prefix + tail;
    if entries[e].0 == hs[n - 1] {
      var k :| 0 <= k < |paths| && paths[k] == entries[e].1;
      assert tail[k] == (entries[e].1, fetch(entries[e].0));
      assert tail[k] == (prefix + tail)[|prefix| + k];
    } else {
      assert entries[e].0 in hs[..n - 1];
      FanOutCovers(hs[..n - 1], entries, fetch, e);
      assert forall x :: x in prefix ==> x in prefix + tail;
    }
  }

  /** `DeployedRepository::Impl::Repair`: each hash reported missing or
      corrupted is requested once, in the order first met, and the bytes
      sent back are written to every file reported with that hash. */
  function RepairDeployed(root: string, rows: seq<FileRecord>, contents: Contents, sha: HashFunction, fetch: Fetch)
    : (r: RepairPlan)
    ensures NoDuplicates(r.requested)
    ensures var reports := ValidateDeployed(root, rows, contents, sha);
            && (forall i :: 0 <= i < |reports| && reports[i].result != Ok ==> reports[i].hash in r.requested)
            && (forall k :: 0 <= k < |r.requested| ==> r.requested[k] in NotOkHashes(reports))
  {
    var reports := ValidateDeployed(root, rows, contents, sha);
    var requested := Dedup(NotOkHashes(reports));
    RepairPlan(requested, FanOut(requested, NotOkEntries(reports), fetch))
  }

  /** The deployed repair requests the hashes in the order they are first
      reported not intact. */
  lemma RepairDeployedFirstSeen(root: string, rows: seq<FileRecord>, contents: Contents, sha: HashFunction, fetch: Fetch)
    ensures var hs := NotOkHashes(ValidateDeployed(root, rows, contents, sha));
            var r := RepairDeployed(root, rows, contents, sha, fetch).requested;
            forall i, j :: 0 <= i < j < |r| ==> IndexOf(hs, r[i]) < IndexOf(hs, r[j])
  {
    DedupFirstSeenOrder(NotOkHashes(ValidateDeployed(root, rows, contents, sha)));
  }

  /** Every file reported not intact is written with its hash's bytes. */
  lemma RepairDeployedWritesEveryPath(root: string, rows: seq<FileRecord>, contents: Contents,
                                      sha: HashFunction, fetch: Fetch, i: nat)
    requires i < |rows|
    ensures var v := ValidateDeployed(root, rows, contents, sha)[i];
            v.result != Ok ==> (v.path, fetch(v.hash)) in RepairDeployed(root, rows, contents, sha, fetch).writes
  {
    var reports := ValidateDeployed(root, rows, contents, sha);
    var entries := NotOkEntries(reports);
    var v := reports[i];
    if v.result != Ok {
      var e :| 0 <= e < |entries| && entries[e] == (v.hash, v.path);
      FanOutCovers(Dedup(NotOkHashes(reports)), entries, fetch, e);
    }
  }

  /** The other repository serves correct content for every installed file. */
  predicate ServesFiles(rows: seq<FileRecord>, fetch: Fetch, sha: HashFunction) {
    forall i :: 0 <= i < |rows| ==> |fetch(rows[i].hash)| == rows[i].size && sha(fetch(rows[i].hash)) == rows[i].hash
  }

  /** Files installed at the same place are recorded with the same hash. */
  predicate OneHashPerPath(root: string, rows: seq<FileRecord>) {
    forall i, j :: 0 <= i < |rows| && 0 <= j < |rows| && Append(root, rows[i].path) == Append(root, rows[j].path)
      ==> rows[i].hash == rows[j].hash
  }

  /** Repair works: when the other repository serves correct content and
      no two rows disagree about one file, a deployed repository validates
      as intact after its repair. */
  lemma DeployedRepairRestores(root: string, rows: seq<FileRecord>, contents: Contents, sha: HashFunction, fetch: Fetch)
    requires ServesFiles(rows, fetch, sha) && OneHashPerPath(root, rows)
    ensures var after := ApplyWrites(contents, RepairDeployed(root, rows, contents, sha, fetch).writes);
            forall k :: 0 <= k < |rows| ==> ValidateDeployed(root, rows, after, sha)[k].result == Ok
  {
    forall k | 0 <= k < |rows|
      ensures ValidateDeployed(root, rows, ApplyWrites(contents, RepairDeployed(root, rows, contents, sha, fetch).writes), sha)[k].result == Ok
    {
      DeployedRepairRestoresAt(root, rows, contents, sha, fetch, k);
    }
  }

  /** The report at position `k` is about some row. */
  lemma DeployedReportRow(root: string, rows: seq<FileRecord>, contents: Contents, sha: HashFunction, k: nat)
    returns (j: nat)
    requires k < |rows|
    ensures j < |rows| && SortBy(rows, FileSize)[k] == rows[j]
    ensures ValidateDeployed(root, rows, contents, sha)[k] == DeployedReport(root, rows[j], contents, sha)
  {
    SortByMembers(rows, FileSize);
    j :| 0 <= j < |rows| && rows[j] == SortBy(rows, FileSize)[k];
  }

  /** Every write of a deployed repair puts a row's hash's bytes at that
      row's file. */
  lemma DeployedWriteOrigin(root: string, rows: seq<FileRecord>, contents: Contents, sha: HashFunction,
                            fetch: Fetch, m: nat) returns (j: nat)
    requires m < |RepairDeployed(root, rows, contents, sha, fetch).writes|
    ensures j < |rows|
    ensures var w := RepairDeployed(root, rows, contents, sha, fetch).writes[m];
            w.0 == Append(root, rows[j].path) && w.1 == fetch(rows[j].hash)
  {
    var reports := ValidateDeployed(root, rows, contents, sha);
    var entries := NotOkEntries(reports);
    var w := RepairDeployed(root, rows, contents, sha, fetch).writes[m];
    var h :| h in Dedup(NotOkHashes(reports)) && (h, w.0) in entries && w.1 == fetch(h);
    var e :| 0 <= e < |entries| && entries[e] == (h, w.0);
    assert HasNotOkEntry(reports, entries[e]);
    var i :| 0 <= i < |reports| && reports[i].result != Ok && entries[e] == (reports[i].hash, reports[i].path);
    j := DeployedReportRow(root, rows, contents, sha, i);
  }

  lemma DeployedRepairRestoresAt(root: string, rows: seq<FileRecord>, contents: Contents, sha: HashFunction,
                                 fetch: Fetch, k: nat)
    requires ServesFiles(rows, fetch, sha) && OneHashPerPath(root, rows)
    requires k < |rows|
    ensures var after := ApplyWrites(contents, RepairDeployed(root, rows, contents, sha, fetch).writes);
            ValidateDeployed(root, rows, after, sha)[k].result == Ok
  {
    var plan := RepairDeployed(root, rows, contents, sha, fetch);
    var after := ApplyWrites(contents, plan.writes);
    var j := DeployedReportRow(root, rows, contents, sha, k);
    var j' := DeployedReportRow(root, rows, after, sha, k);
    assert j' == j || rows[j'] == rows[j];
    var row := rows[j];
    var p := Append(root, row.path);
    forall m | 0 <= m < |plan.writes| && plan.writes[m].0 == p
      ensures plan.writes[m].1 == fetch(row.hash)
    {
      var o := DeployedWriteOrigin(root, rows, contents, sha, fetch, m);
    }
    if exists m :: 0 <= m < |plan.writes| && plan.writes[m].0 == p {
      var m :| 0 <= m < |plan.writes| && plan.writes[m].0 == p;
      ApplyWritesConsistent(contents, plan.writes, p, fetch(row.hash), m);
      ClassifyIntact(after, p, row.hash, sha);
    } else {
      RepairDeployedWritesEveryPath(root, rows, contents, sha, fetch, k);
      ApplyWritesUnwritten(contents, plan.writes, p);
    }
  }
}

=== FILE: seqs.dfy ===
/** Sequence vocabulary shared by the model: first occurrences, first-seen
    deduplication, total lengths and sets of elements.

    Several loops of the source collect "each hash once, in the order it was
    first met" by probing a hash map before a `push_back`; `Dedup` is the one
    definition of that result, and the lemmas here pin it down completely
    (no repeats, same members, first-seen order).
 */
module Seqs {

  /** No element occurs twice. */
  predicate NoDuplicates<T(==)>(s: seq<T>) {
    forall i, j :: 0 <= i < j < |s| ==> s[i] != s[j]
  }

  /** Position of the first occurrence of `x` in `s`. */
  function IndexOf<T(==)>(s: seq<T>, x: T): (i: nat)
    requires x in s
    ensures i < |s| && s[i] == x && x !in s[..i]
  {
    if s[0] == x then 0 else 1 + IndexOf(s[1..], x)
  }

  /** The first occurrence is the only index with `x` there and not before. */
  lemma IndexOfUnique<T>(s: seq<T>, x: T, i: nat)
    requires i < |s| && s[i] == x && x !in s[..i]
    ensures IndexOf(s, x) == i
  {
  }

  /** Extending a sequence does not move the first occurrence of an element
      already present. */
  lemma IndexOfPrefix<T>(s: seq<T>, k: nat, x: T)
    requires k <= |s| && x in s[..k]
    ensures IndexOf(s, x) == IndexOf(s[..k], x)
  {
    var i := IndexOf(s[..k], x);
    assert s[..k][..i] == s[..i];
    IndexOfUnique(s, x, i);
  }

  /** Each element of `s` once, in the order of first occurrence: the result
      of a loop that appends an element only when it has not seen it yet. */
  function Dedup<T(==)>(s: seq<T>): (r: seq<T>)
    ensures NoDuplicates(r)
    ensures forall i :: 0 <= i < |s| ==> s[i] in r
    ensures forall i :: 0 <= i < |r| ==> r[i] in s
    ensures |r| <= |s|
    decreases |s|
  {
    if |s| == 0 then []
    else
      var p := Dedup(s[..|s| - 1]);
      if s[|s| - 1] in p then p else p + [s[|s| - 1]]
  }

  /** Dedup of a one-element extension, the step the source's loops take. */
  lemma DedupSnoc<T>(s: seq<T>, x: T)
    ensures Dedup(s + [x]) == if x in Dedup(s) then Dedup(s) else Dedup(s) + [x]
  {
    assert (s + [x])[..|s + [x]| - 1] == s;
  }

  /** Dedup keeps the first-seen order: earlier entries of the result were
      first met earlier in the input. */
  lemma {:induction false} DedupFirstSeenOrder<T>(s: seq<T>)
    ensures forall i, j :: 0 <= i < j < |Dedup(s)| ==>
              IndexOf(s, Dedup(s)[i]) < IndexOf(s, Dedup(s)[j])
  {
    if |s| > 0 {
      var n := |s|;
      var s' := s[..n - 1];
      var p := Dedup(s');
      DedupFirstSeenOrder(s');
      forall y | y in p
        ensures IndexOf(s, y) == IndexOf(s', y) < n - 1
      {
        IndexOfPrefix(s, n - 1, y);
      }
      if s[n - 1] !in p {
        assert s[n - 1] !in s[..n - 1];
        IndexOfUnique(s, s[n - 1], n - 1);
      }
    }
  }

  /** Total number of elements of a sequence of sequences. */
  function SumLengths<T>(ss: seq<seq<T>>): nat
    decreases |ss|
  {
    if |ss| == 0 then 0 else SumLengths(ss[..|ss| - 1]) + |ss[|ss| - 1]|
  }

  /** Appending `x` and then `rest` is appending `[x] + rest`. Stated
      over any element type, so that callers with rich elements need not
      compare sequences element by element. */
  lemma AppendAfter<T>(f: seq<T>, x: T, rest: seq<T>, whole: seq<T>, result: seq<T>)
    requires whole == [x] + rest && result == (f + [x]) + rest
    ensures result == f + whole
  {
  }

  /** Element `k` of what was appended to `f`. */
  lemma AppendedAt<T>(f: seq<T>, w: seq<T>, result: seq<T>, k: nat)
    requires result == f + w && k < |w|
    ensures |result| == |f| + |w| && result[|f| + k] == w[k]
  {
  }

  /** An index inside a known prefix. */
  lemma PrefixAt<T>(r: seq<T>, p: seq<T>, i: nat)
    requires |p| <= |r| && r[..|p|] == p && i < |p|
    ensures r[i] == p[i]
  {
    assert r[..|p|][i] == r[i];
  }

  /** A prefix of a prefix. */
  lemma PrefixOfPrefix<T>(r: seq<T>, p: seq<T>, q: seq<T>)
    requires |p| <= |r| && r[..|p|] == p && |q| <= |p| && p[..|q|] == q
    ensures r[..|q|] == q
  {
    assert r[..|q|] == r[..|p|][..|q|];
  }

  /** Taking the first `i` of the first `n` is taking the first `i`. */
  lemma TakeOfTake<T>(s: seq<T>, n: nat, i: nat)
    requires i <= n <= |s|
    ensures s[..n][..i] == s[..i]
  {
  }

  /** A non-empty sequence is its front followed by its last element. */
  lemma SplitLast<T>(s: seq<T>)
    requires |s| > 0
    ensures s == s[..|s| - 1] + [s[|s| - 1]]
  {
  }

  /** What was appended to starts with what it was appended to. */
  lemma PrefixOfAppend<T>(a: seq<T>, b: seq<T>)
    ensures (a + b)[..|a|] == a
  {
  }

  /** The elements of `s` as a set, as inserting them one by one into a
      `std::set` leaves them. */
  function Elements<T>(s: seq<T>): (r: set<T>)
    ensures forall i :: 0 <= i < |s| ==> s[i] in r
    ensures forall x :: x in r ==> x in s
    ensures |r| <= |s|
    decreases |s|
  {
    if |s| == 0 then {}
    else
      var before := Elements(s[..|s| - 1]);
      assert |before + {s[|s| - 1]}| <= |before| + 1 by {
        if s[|s| - 1] in before {
          assert before + {s[|s| - 1]} == before;
        }
      }
      before + {s[|s| - 1]}
  }

  /** `f` applied to every element. */
  function Map<A, B>(s: seq<A>, f: A -> B): (r: seq<B>)
    ensures |r| == |s|
    ensures forall i :: 0 <= i < |s| ==> r[i] == f(s[i])
  {
    seq(|s|, i requires 0 <= i < |s| => f(s[i]))
  }

  lemma MapCons<A, B>(s: seq<A>, f: A -> B)
    requires |s| > 0
    ensures Map(s, f) == [f(s[0])] + Map(s[1..], f)
  {
    assert forall i :: 1 <= i < |s| ==> s[1..][i - 1] == s[i];
  }
}

=== FILE: sorting.dfy ===
/** `ORDER BY` on an integer column, as the validation queries of
    src/Core/src/Repository.cpp use it: rows in ascending key order, every
    row exactly once. Rows with equal keys keep their table order here;
    SQLite leaves that order open, so no contract depends on it.
 */
module Sorting {

  predicate SortedBy<T>(s: seq<T>, key: T -> int) {
    forall i, j :: 0 <= i < j < |s| ==> key(s[i]) <= key(s[j])
  }

  /** `x` placed before the first element with a larger-or-equal key. */
  function InsertBy<T>(x: T, s: seq<T>, key: T -> int): (r: seq<T>)
    requires SortedBy(s, key)
    ensures SortedBy(r, key)
    ensures multiset(r) == multiset(s) + multiset{x}
    ensures |r| == |s| + 1
    ensures r[0] == x || (|s| > 0 && r[0] == s[0])
    decreases |s|
  {
    if |s| == 0 || key(x) <= key(s[0]) then [x] + s
    else
      var rest := InsertBy(x, s[1..], key);
      assert s == [s[0]] + s[1..];
      assert key(s[0]) <= key(rest[0]);
      assert forall k :: 0 <= k < |rest| ==> key(rest[0]) <= key(rest[k]);
      [s[0]] + rest
  }

  /** The rows ordered by `key`: sorted, and a permutation of the input. */
  function SortBy<T>(s: seq<T>, key: T -> int): (r: seq<T>)
    ensures SortedBy(r, key)
    ensures multiset(r) == multiset(s)
    ensures |r| == |s|
    decreases |s|
  {
    if |s| == 0 then []
    else
      assert s == [s[0]] + s[1..];
      InsertBy(s[0], SortBy(s[1..], key), key)
  }

  /** Every row appears in the result, and nothing else does. */
  lemma SortByMembers<T>(s: seq<T>, key: T -> int)
    ensures forall i :: 0 <= i < |s| ==> s[i] in SortBy(s, key)
    ensures forall i :: 0 <= i < |s| ==> SortBy(s, key)[i] in s
  {
    var r := SortBy(s, key);
    forall i | 0 <= i < |s| ensures s[i] in r && r[i] in s {
      assert s[i] in multiset(s);
      assert r[i] in multiset(r);
    }
  }
}

=== FILE: string_ref.dfy ===
/** `StringRef` of src/base/inc/StringRef.h: a pointer and a length in
    bytes over characters the view does not own. As for `ArrayRef`,
    pointers are addresses, `nullptr` is address 0, and the characters are
    given by a `Buffer` laid out from a base address.
 */
module StringRefs {
  import opened ArrayRefs

  const Nul: char := 0 as char

  /** `length_` and `data_`. */
  datatype StringRef = StringRef(data: int, length: int)

  /** The view lies inside the buffer. */
  predicate Within(buf: Buffer<char>, s: StringRef) {
    buf.base <= s.data && 0 <= s.length && s.data - buf.base + s.length <= |buf.items|
  }

  /** The characters the view refers to. */
  function Contents(buf: Buffer<char>, s: StringRef): (r: string)
    requires Within(buf, s)
    ensures |r| == GetLength(s)
  {
    buf.items[s.data - buf.base..s.data - buf.base + s.length]
  }

  /** `p` is a non-null pointer into the buffer with a terminating `'\0'`
      at or after it: what `std::strlen` needs. */
  predicate Terminated(buf: Buffer<char>, p: int) {
    p != Null && NulFrom(buf, p)
  }

  /** A `'\0'` in the buffer at or after `p`. */
  predicate NulFrom(buf: Buffer<char>, p: int) {
    buf.base <= p && exists i :: p - buf.base <= i < |buf.items| && buf.items[i] == Nul
  }

  /** `std::strlen`: the number of characters before the first `'\0'`. */
  function Strlen(buf: Buffer<char>, p: int): (n: nat)
    requires NulFrom(buf, p)
    ensures p - buf.base + n < |buf.items| && buf.items[p - buf.base + n] == Nul
    ensures forall k :: p - buf.base <= k < p - buf.base + n ==> buf.items[k] != Nul
    decreases |buf.items| - (p - buf.base)
  {
    if buf.items[p - buf.base] == Nul then 0
    else
      assert NulFrom(buf, p + 1) by {
        var i :| p - buf.base <= i < |buf.items| && buf.items[i] == Nul;
        assert i != p - buf.base;
      }
      1 + Strlen(buf, p + 1)
  }

  /** Two offsets that are each the first `'\0'` from `o` are the same. */
  lemma FirstNulUnique(items: string, o: int, n: int, m: int)
    requires 0 <= o && 0 <= n && 0 <= m && o + n < |items| && o + m < |items|
    requires items[o + n] == Nul && items[o + m] == Nul
    requires forall k :: o <= k < o + n ==> items[k] != Nul
    requires forall k :: o <= k < o + m ==> items[k] != Nul
    ensures n == m
  {
    assert !(o <= o + m < o + n);
    assert !(o <= o + n < o + m);
  }

  /** `StringRef (const char (&)[Size])`: all `Size` characters of the
      array, its terminating `'\0'` included. */
  function FromArray(first: int, size: int): (r: StringRef)
    ensures GetLength(r) == size && Begin(r) == first
  {
    StringRef(first, size)
  }

  /** `StringRef (const char*)`: the empty null view for `nullptr`, the
      characters up to the first `'\0'` otherwise. */
  function FromCString(buf: Buffer<char>, p: int): (r: StringRef)
    requires p == Null || Terminated(buf, p)
    ensures p == Null ==> r == Default()
    ensures p != Null ==> Within(buf, r) && Begin(r) == p
  {
    if p == Null then StringRef(Null, 0) else StringRef(p, Strlen(buf, p))
  }

  /** `StringRef (const std::string&)`: `s.c_str ()` and `s.size ()`. */
  function FromStdString(cStr: int, s: string): (r: StringRef)
    ensures GetLength(r) == |s| && Begin(r) == cStr
  {
    StringRef(cStr, |s|)
  }

  /** `StringRef (const char*, int64)` and `StringRef (int64, const char*)`. */
  function FromDataLength(data: int, length: int): StringRef {
    StringRef(data, length)
  }

  function FromLengthData(length: int, data: int): StringRef {
    StringRef(data, length)
  }

  /** `StringRef (const char&)`: that one character. */
  function FromChar(address: int): (r: StringRef)
    ensures GetLength(r) == 1 && !IsEmpty(r)
  {
    StringRef(address, 1)
  }

  /** `StringRef (const char* begin, const char* end)`. */
  function FromRange(begin: int, end: int): (r: StringRef)
    ensures Begin(r) == begin && End(r) == end
  {
    StringRef(begin, end - begin)
  }

  /** The default constructor: null and empty. */
  function Default(): (r: StringRef)
    ensures r.data == Null && IsEmpty(r)
  {
    StringRef(Null, 0)
  }

  function Begin(s: StringRef): int {
    s.data
  }

  function End(s: StringRef): int {
    s.data + s.length
  }

  predicate IsEmpty(s: StringRef) {
    s.length == 0
  }

  function GetLength(s: StringRef): int {
    s.length
  }

  function GetByteCount(s: StringRef): int {
    s.length
  }

  /** `s [index]`. */
  function At(buf: Buffer<char>, s: StringRef, index: int): (r: char)
    requires Within(buf, s) && 0 <= index < s.length
    ensures r == Contents(buf, s)[index]
  {
    buf.items[s.data - buf.base + index]
  }

  /** A character is one byte: the length and the byte count agree, the
      view spans `end () - begin ()` characters, and it is empty exactly
      when that span is. */
  lemma LengthIsByteCount(s: StringRef)
    ensures GetLength(s) == GetByteCount(s)
    ensures End(s) - Begin(s) == GetLength(s)
    ensures IsEmpty(s) <==> Begin(s) == End(s)
  {
  }

  /** The constructors taking a pointer and a length in either order, and
      the one taking both ends, build the same view. */
  lemma ConstructorsAgree(data: int, length: int)
    ensures FromDataLength(data, length) == FromLengthData(length, data)
    ensures FromRange(data, data + length) == FromDataLength(data, length)
  {
  }

  /** A view of a C string holds no `'\0'`, and the character just past it
      is the terminator. */
  lemma CStringContents(buf: Buffer<char>, p: int)
    requires Terminated(buf, p)
    ensures Within(buf, FromCString(buf, p))
    ensures Nul !in Contents(buf, FromCString(buf, p))
    ensures buf.items[p - buf.base + GetLength(FromCString(buf, p))] == Nul
  {
    var n := Strlen(buf, p);
    var c := Contents(buf, FromCString(buf, p));
    forall k | 0 <= k < |c| ensures c[k] != Nul {
      assert c[k] == buf.items[p - buf.base + k];
    }
  }

  /** `s` laid out at `p` and followed by `'\0'`, as `std::string::c_str`
      provides it. */
  predicate HoldsCString(buf: Buffer<char>, p: int, s: string) {
    p != Null && buf.base <= p && p - buf.base + |s| < |buf.items|
    && buf.items[p - buf.base..p - buf.base + |s|] == s
    && buf.items[p - buf.base + |s|] == Nul
  }

  /** For a string without an embedded `'\0'`, the view built from its
      `c_str ()` pointer and the view built from the string itself are the
      same view, and it refers to the string. */
  lemma CStringOfStdString(buf: Buffer<char>, p: int, s: string)
    requires HoldsCString(buf, p, s) && Nul !in s
    ensures Terminated(buf, p)
    ensures FromCString(buf, p) == FromStdString(p, s)
    ensures Contents(buf, FromStdString(p, s)) == s
  {
    var o := p - buf.base;
    assert Terminated(buf, p) by {
      assert o <= o + |s| < |buf.items| && buf.items[o + |s|] == Nul;
    }
    var n := Strlen(buf, p);
    forall k | o <= k < o + |s| ensures buf.items[k] != Nul {
      assert buf.items[k] == s[k - o];
    }
    FirstNulUnique(buf.items, o, n, |s|);
  }

  /** The array constructor counts the terminator that the `const char*`
      constructor stops at: for a character array whose only `'\0'` is its
      last element, the array view is one longer and its last character is
      `'\0'`. */
  lemma ArrayLengthCountsTerminator(buf: Buffer<char>, p: int, size: int)
    requires p != Null && buf.base <= p && 0 < size && p - buf.base + size <= |buf.items|
    requires buf.items[p - buf.base + size - 1] == Nul
    requires forall k :: p - buf.base <= k < p - buf.base + size - 1 ==> buf.items[k] != Nul
    ensures Terminated(buf, p)
    ensures GetLength(FromArray(p, size)) == GetLength(FromCString(buf, p)) + 1
    ensures Within(buf, FromArray(p, size)) && Contents(buf, FromArray(p, size))[size - 1] == Nul
  {
    var o := p - buf.base;
    assert NulFrom(buf, p) by {
      assert o <= o + size - 1 < |buf.items| && buf.items[o + size - 1] == Nul;
    }
    FirstNulUnique(buf.items, o, Strlen(buf, p), size - 1);
  }

  /** `ArrayAdapter<StringRef>`: the character view takes `GetLength ()`
      elements, the untyped view `GetByteCount ()` bytes. */
  function AsArrayRef(s: StringRef): (r: ArrayRef)
    ensures ArrayRefs.GetCount(r) == GetLength(s) && ArrayRefs.Begin(r) == Begin(s)
  {
    ArrayRef(s.data, s.length)
  }

  function AsVoidRef(s: StringRef): (r: VoidRef)
    ensures VoidSize(r) == GetByteCount(s) && r.data == Begin(s)
  {
    VoidRef(s.data, s.length)
  }

  /** Both adapted views cover the string: the untyped view is the
      character view seen as bytes, and the character view refers to the
      string's characters. */
  lemma AdaptedViewsAgree(buf: Buffer<char>, s: StringRef)
    requires Within(buf, s)
    ensures AsVoidRef(s) == ToVoid(AsArrayRef(s), 1)
    ensures ArrayRefs.Within(buf, AsArrayRef(s), 1)
    ensures Elements(buf, AsArrayRef(s), 1) == Contents(buf, s)
    ensures ArrayRefs.End(AsArrayRef(s), 1) == End(s)
  {
  }
}

=== FILE: text.dfy ===
/** Bytes and the textual encodings the source relies on: lower-case
    hexadecimal (the file name of a content object and the digits of a UUID),
    ASCII upper-casing (Python's `str.upper` on such text) and the decimal
    form in which a C++ stream writes an `int`.
 */
module Text {
  import opened Wrappers

  newtype byte = b: int | 0 <= b < 256

  const HexDigits: string := "0123456789abcdef"

  /** Lower-case hexadecimal digit of a nibble. */
  function HexDigit(n: int): char
    requires 0 <= n < 16
  {
    HexDigits[n]
  }

  /** Value of a hexadecimal digit of either case. */
  function HexValue(c: char): Option<nat> {
    if '0' <= c <= '9' then Some(c as int - '0' as int)
    else if 'a' <= c <= 'f' then Some(c as int - 'a' as int + 10)
    else if 'A' <= c <= 'F' then Some(c as int - 'A' as int + 10)
    else None
  }

  /** Two lower-case digits, high nibble first. */
  function HexByte(b: byte): (r: string)
    ensures |r| == 2
  {
    [HexDigit(b as int / 16), HexDigit(b as int % 16)]
  }

  /** Lower-case hexadecimal text of a byte string, two digits per byte. */
  function Hex(bs: seq<byte>): (r: string)
    ensures |r| == 2 * |bs|
  {
    if |bs| == 0 then [] else HexByte(bs[0]) + Hex(bs[1..])
  }

  /** Hexadecimal text consists of lower-case digits only. */
  lemma {:induction false} HexDigitsOnly(bs: seq<byte>)
    ensures forall i :: 0 <= i < |Hex(bs)| ==> Hex(bs)[i] in HexDigits
  {
    if |bs| > 0 {
      HexDigitsOnly(bs[1..]);
      var h := Hex(bs);
      assert h == HexByte(bs[0]) + Hex(bs[1..]);
      forall i | 2 <= i < |h| ensures h[i] in HexDigits {
        assert h[i] == Hex(bs[1..])[i - 2];
      }
    }
  }

  /** Hexadecimal text of a concatenation is the concatenation of the texts. */
  lemma HexCons(x: byte, t: seq<byte>)
    ensures Hex([x] + t) == HexByte(x) + Hex(t)
  {
    assert ([x] + t)[1..] == t;
  }

  lemma {:induction false} HexAppend(a: seq<byte>, b: seq<byte>)
    ensures Hex(a + b) == Hex(a) + Hex(b)
    decreases |a|
  {
    if |a| == 0 {
      assert a + b == b;
    } else {
      var tail := a[1..];
      HexAppend(tail, b);
      assert a == [a[0]] + tail;
      assert a + b == [a[0]] + (tail + b);
      HexCons(a[0], tail + b);
      HexCons(a[0], tail);
    }
  }

  /** Decodes hexadecimal text of either case; `None` on an odd length or a
      character that is not a digit. */
  function UnHex(s: string): Option<seq<byte>>
    decreases |s|
  {
    if |s| == 0 then Some([])
    else if |s| == 1 then None
    else match (HexValue(s[0]), HexValue(s[1]), UnHex(s[2..]))
      case (Some(hi), Some(lo), Some(rest)) =>
        if hi < 16 && lo < 16 then Some([(hi * 16 + lo) as byte] + rest) else None
      case _ => None
  }

  /** ASCII upper-casing of one character; everything else is unchanged. */
  function UpperChar(c: char): char {
    if 'a' <= c <= 'z' then (c as int - 'a' as int + 'A' as int) as char else c
  }

  /** Python's `str.upper` restricted to ASCII text. */
  function Upper(s: string): (r: string)
    ensures |r| == |s|
    ensures forall i :: 0 <= i < |s| ==> r[i] == UpperChar(s[i])
  {
    seq(|s|, i requires 0 <= i < |s| => UpperChar(s[i]))
  }

  lemma UpperAppend(a: string, b: string)
    ensures Upper(a + b) == Upper(a) + Upper(b)
  {
  }

  lemma HexValueOfDigit(n: int)
    requires 0 <= n < 16
    ensures HexValue(HexDigit(n)) == Some(n)
    ensures HexValue(UpperChar(HexDigit(n))) == Some(n)
  {
  }

  /** Decoding two digit characters in front of decodable text. */
  lemma UnHexPair(hi: int, lo: int, s: string, t: string, rest: seq<byte>)
    requires 0 <= hi < 16 && 0 <= lo < 16
    requires |s| >= 2 && s[2..] == t && UnHex(t) == Some(rest)
    requires HexValue(s[0]) == Some(hi) && HexValue(s[1]) == Some(lo)
    ensures UnHex(s) == Some([(hi * 16 + lo) as byte] + rest)
  {
  }

  /** Decoding one encoded byte, in either case, in front of decodable text. */
  lemma UnHexStep(b: byte, t: string, rest: seq<byte>)
    requires UnHex(t) == Some(rest)
    ensures UnHex(HexByte(b) + t) == Some([b] + rest)
    ensures UnHex(Upper(HexByte(b)) + t) == Some([b] + rest)
  {
    var hi, lo := b as int / 16, b as int % 16;
    HexValueOfDigit(hi);
    HexValueOfDigit(lo);
    assert (hi * 16 + lo) as byte == b;
    var s := HexByte(b) + t;
    assert s[2..] == t;
    UnHexPair(hi, lo, s, t, rest);
    var u := Upper(HexByte(b)) + t;
    assert u[2..] == t;
    assert u[0] == UpperChar(HexDigit(hi)) && u[1] == UpperChar(HexDigit(lo));
    UnHexPair(hi, lo, u, t, rest);
  }

  /** Hexadecimal text decodes back to the bytes it was made from, in
      either case. */
  lemma {:induction false} HexRoundTrip(bs: seq<byte>)
    ensures UnHex(Hex(bs)) == Some(bs)
    ensures UnHex(Upper(Hex(bs))) == Some(bs)
  {
    if |bs| > 0 {
      var tail := bs[1..];
      HexRoundTrip(tail);
      UnHexStep(bs[0], Hex(tail), tail);
      UnHexStep(bs[0], Upper(Hex(tail)), tail);
      UpperAppend(HexByte(bs[0]), Hex(tail));
      assert [bs[0]] + tail == bs;
    }
  }

  /** Distinct byte strings have distinct hexadecimal names. */
  lemma HexInjective(a: seq<byte>, b: seq<byte>)
    requires Hex(a) == Hex(b)
    ensures a == b
  {
    HexRoundTrip(a);
    HexRoundTrip(b);
  }

  /** Decimal digit character of `0 <= d < 10`. */
  function DigitChar(d: int): char
    requires 0 <= d < 10
  {
    ('0' as int + d) as char
  }

  predicate IsDigit(c: char) {
    '0' <= c <= '9'
  }

  predicate AllDigits(s: string) {
    forall i :: 0 <= i < |s| ==> IsDigit(s[i])
  }

  /** Decimal text of a natural number, most significant digit first, no
      leading zeros. */
  function NatText(n: nat): (r: string)
    ensures 1 <= |r| && AllDigits(r)
  {
    if n < 10 then [DigitChar(n)] else NatText(n / 10) + [DigitChar(n % 10)]
  }

  /** What `std::ostream << int` writes: an optional minus sign, then digits. */
  function IntText(i: int): (r: string)
    ensures 1 <= |r|
    ensures ',' !in r && ' ' !in r
  {
    if i < 0 then "-" + NatText(-i) else NatText(i)
  }

  /** Value of a non-empty string of decimal digits. */
  function ParseNat(s: string): nat
    requires 1 <= |s| && AllDigits(s)
    decreases |s|
  {
    var d := s[|s| - 1] as int - '0' as int;
    if |s| == 1 then d else ParseNat(s[..|s| - 1]) * 10 + d
  }

  /** Decimal text reads back as the number written. */
  lemma {:induction false} NatTextRoundTrip(n: nat)
    ensures ParseNat(NatText(n)) == n
  {
    if n >= 10 {
      var t := NatText(n);
      NatTextRoundTrip(n / 10);
      assert t[..|t| - 1] == NatText(n / 10);
    }
  }

  /** Only negative numbers are written with a leading minus sign. */
  lemma IntTextSign(i: int)
    ensures IntText(i)[0] == '-' <==> i < 0
  {
    if i >= 0 {
      assert IsDigit(NatText(i)[0]);
    }
  }

  /** Different integers are written differently. */
  lemma IntTextInjective(a: int, b: int)
    requires IntText(a) == IntText(b)
    ensures a == b
  {
    if a < 0 && b < 0 {
      assert NatText(-a) == IntText(a)[1..];
      assert NatText(-b) == IntText(b)[1..];
      NatTextRoundTrip(-a);
      NatTextRoundTrip(-b);
    } else if a >= 0 && b >= 0 {
      NatTextRoundTrip(a);
      NatTextRoundTrip(b);
    } else {
      IntTextSign(a);
      IntTextSign(b);
    }
  }
}

=== FILE: uuid.dfy ===
/** Universally unique identifiers and their canonical text form
    (section 3 of RFC 4122): 32 hexadecimal digits of the 16 bytes, most
    significant first, in groups of 8-4-4-4-12 separated by hyphens.
    Python's `str(uuid)` writes the digits in lower case.
 */
module Uuids {
  import opened Wrappers
  import opened Text

  type Uuid = b: seq<byte> | |b| == 16 witness seq(16, _ => 0 as byte)

  /** `str(u)`: the canonical text with lower-case digits. */
  function CanonicalText(u: Uuid): (r: string)
    ensures |r| == 36
  {
    JoinGroups(Hex(u[..4]), Hex(u[4..6]), Hex(u[6..8]), Hex(u[8..10]), Hex(u[10..]))
  }

  const UpperHexDigits: string := "0123456789ABCDEF"

  /** Positions of the four hyphens of the canonical form. */
  predicate IsHyphenPosition(i: int) {
    i == 8 || i == 13 || i == 18 || i == 23
  }

  /** Canonical form with upper-case digits. */
  predicate IsUpperCanonical(s: string) {
    && |s| == 36
    && forall i :: 0 <= i < 36 ==>
         if IsHyphenPosition(i) then s[i] == '-' else s[i] in UpperHexDigits
  }

  /** Reads canonical text of either case back into a UUID. */
  function ParseCanonical(s: string): Option<Uuid> {
    if |s| != 36 || s[8] != '-' || s[13] != '-' || s[18] != '-' || s[23] != '-' then None
    else
      match UnHex(s[..8] + s[9..13] + s[14..18] + s[19..23] + s[24..])
      case Some(b) => if |b| == 16 then Some(b) else None
      case None => None
  }

  lemma UpperOfHexDigit(c: char)
    requires c in HexDigits
    ensures UpperChar(c) in UpperHexDigits
  {
  }

  /** The hexadecimal groups of the canonical text, in order, are the
      hexadecimal text of the whole UUID. */
  lemma GroupsAreHex(u: Uuid)
    ensures Hex(u[..4]) + Hex(u[4..6]) + Hex(u[6..8]) + Hex(u[8..10]) + Hex(u[10..]) == Hex(u)
  {
    HexAppend(u[..4], u[4..6]);
    assert u[..4] + u[4..6] == u[..6];
    HexAppend(u[..6], u[6..8]);
    assert u[..6] + u[6..8] == u[..8];
    HexAppend(u[..8], u[8..10]);
    assert u[..8] + u[8..10] == u[..10];
    HexAppend(u[..10], u[10..]);
    assert u[..10] + u[10..] == u;
  }

  /** Upper-cased `str(u)` has the upper-case canonical form. */
  lemma UpperCanonicalForm(u: Uuid)
    ensures IsUpperCanonical(Upper(CanonicalText(u)))
  {
    var t := CanonicalText(u);
    var h1, h2, h3, h4, h5 := Hex(u[..4]), Hex(u[4..6]), Hex(u[6..8]), Hex(u[8..10]), Hex(u[10..]);
    assert t == JoinGroups(h1, h2, h3, h4, h5);
    HexDigitsOnly(u[..4]);
    HexDigitsOnly(u[4..6]);
    HexDigitsOnly(u[6..8]);
    HexDigitsOnly(u[8..10]);
    HexDigitsOnly(u[10..]);
    forall i | 0 <= i < 36
      ensures if IsHyphenPosition(i) then t[i] == '-' else t[i] in HexDigits
    {
      if i < 8 { assert t[i] == h1[i]; }
      else if i == 8 { }
      else if i < 13 { assert t[i] == h2[i - 9]; }
      else if i == 13 { }
      else if i < 18 { assert t[i] == h3[i - 14]; }
      else if i == 18 { }
      else if i < 23 { assert t[i] == h4[i - 19]; }
      else if i == 23 { }
      else { assert t[i] == h5[i - 24]; }
    }
    forall i | 0 <= i < 36 && !IsHyphenPosition(i)
      ensures Upper(t)[i] in UpperHexDigits
    {
      UpperOfHexDigit(t[i]);
    }
  }

  /** Five digit groups joined with hyphens. */
  function JoinGroups(g1: string, g2: string, g3: string, g4: string, g5: string): string {
    g1 + ("-" + (g2 + ("-" + (g3 + ("-" + (g4 + ("-" + g5)))))))
  }

  /** The two parts of a concatenation, recovered by slicing. */
  lemma SplitConcat(a: string, b: string)
    ensures (a + b)[..|a|] == a && (a + b)[|a|..] == b
  {
  }

  /** A group of text laid out as `g + ("-" + rest)`. */
  lemma SplitGroup(g: string, rest: string)
    ensures (g + ("-" + rest))[..|g|] == g
    ensures (g + ("-" + rest))[|g|] == '-'
    ensures (g + ("-" + rest))[|g| + 1..] == rest
  {
    SplitConcat(g, "-" + rest);
    SplitConcat("-", rest);
  }

  /** Parsing text laid out as 8-4-4-4-12 groups decodes the groups. */
  lemma ParseGroups(g1: string, g2: string, g3: string, g4: string, g5: string)
    requires |g1| == 8 && |g2| == 4 && |g3| == 4 && |g4| == 4 && |g5| == 12
    ensures ParseCanonical(JoinGroups(g1, g2, g3, g4, g5)) ==
              match UnHex(g1 + g2 + g3 + g4 + g5)
              case Some(b) => if |b| == 16 then Some(b) else None
              case None => None
  {
    var r4 := g4 + ("-" + g5);
    var r3 := g3 + ("-" + r4);
    var r2 := g2 + ("-" + r3);
    var t := g1 + ("-" + r2);
    SplitGroup(g1, r2);
    SplitGroup(g2, r3);
    SplitGroup(g3, r4);
    SplitGroup(g4, g5);
    assert t[8] == '-' && t[9..] == r2;
    assert t[13] == r2[4] == '-' && t[14..] == r3;
    assert t[18] == r3[4] == '-' && t[19..] == r4;
    assert t[23] == r4[4] == '-' && t[24..] == g5;
    assert t[9..13] == r2[..4];
    assert t[14..18] == r3[..4];
    assert t[19..23] == r4[..4];
  }

  /** Upper-casing acts group by group and keeps the hyphens. */
  lemma UpperGroups(g1: string, g2: string, g3: string, g4: string, g5: string)
    ensures Upper(JoinGroups(g1, g2, g3, g4, g5))
            == JoinGroups(Upper(g1), Upper(g2), Upper(g3), Upper(g4), Upper(g5))
  {
    var r4 := g4 + ("-" + g5);
    var r3 := g3 + ("-" + r4);
    var r2 := g2 + ("-" + r3);
    UpperAppend(g4, "-" + g5);
    UpperAppend("-", g5);
    UpperAppend(g3, "-" + r4);
    UpperAppend("-", r4);
    UpperAppend(g2, "-" + r3);
    UpperAppend("-", r3);
    UpperAppend(g1, "-" + r2);
    UpperAppend("-", r2);
    assert Upper("-") == "-";
  }

  lemma UpperConcat5(g1: string, g2: string, g3: string, g4: string, g5: string)
    ensures Upper(g1 + g2 + g3 + g4 + g5) == Upper(g1) + Upper(g2) + Upper(g3) + Upper(g4) + Upper(g5)
  {
  }

  /** Canonical text, in lower or upper case, reads back as the UUID it
      was written from; so distinct UUIDs have distinct texts. */
  lemma ParseCanonicalRoundTrip(u: Uuid)
    ensures ParseCanonical(CanonicalText(u)) == Some(u)
    ensures ParseCanonical(Upper(CanonicalText(u))) == Some(u)
  {
    var h1, h2, h3, h4, h5 := Hex(u[..4]), Hex(u[4..6]), Hex(u[6..8]), Hex(u[8..10]), Hex(u[10..]);
    assert CanonicalText(u) == JoinGroups(h1, h2, h3, h4, h5);
    GroupsAreHex(u);
    HexRoundTrip(u);
    ParseGroups(h1, h2, h3, h4, h5);
    UpperGroups(h1, h2, h3, h4, h5);
    ParseGroups(Upper(h1), Upper(h2), Upper(h3), Upper(h4), Upper(h5));
    UpperConcat5(h1, h2, h3, h4, h5);
  }
}

=== FILE: validation.dfy ===
/** `Validate` of both repository kinds in src/Core/src/Repository.cpp.

    Each database row names a file and the size and hash its content
    should have; validation reports, per row, whether the file is
    missing, corrupted or intact. The file system is the `Contents` map
    (`exists` is membership, `Stat(...).size` is the length of the bytes)
    and SHA-256 is the parameter `sha`.
 */
module Validation {
  import opened Paths
  import opened Digests
  import opened Sorting
  import BuildDatabase

  /** `kylaValidationResult`. */
  datatype ValidationResult = Ok | Missing | Corrupted

  /** The arguments of one `validationCallback` call. */
  datatype Report = Report(hash: Digest, path: string, result: ValidationResult)

  /** The per-row decision shared by both kinds: a missing file first; then
      a size that differs from the recorded size; then, for a non-empty
      object only, a hash that differs from the recorded hash. */
  function Classify(contents: Contents, filePath: string, size: int, hash: Digest, sha: HashFunction)
    : (r: ValidationResult)
    ensures r == Missing <==> filePath !in contents
    ensures r == Ok ==> |contents[filePath]| == size
    ensures r == Ok && size != 0 ==> sha(contents[filePath]) == hash
  {
    if filePath !in contents then Missing
    else if |contents[filePath]| != size then Corrupted
    else if size != 0 && sha(contents[filePath]) != hash then Corrupted
    else Ok
  }

  /** A file holding exactly the recorded content is reported intact. */
  lemma ClassifyIntact(contents: Contents, filePath: string, hash: Digest, sha: HashFunction)
    requires filePath in contents && sha(contents[filePath]) == hash
    ensures Classify(contents, filePath, |contents[filePath]|, hash, sha) == Ok
  {
  }

  /** An existing file is reported corrupted exactly when its size differs
      or, being non-empty, its hash differs. */
  lemma ClassifyCorrupted(contents: Contents, filePath: string, size: int, hash: Digest, sha: HashFunction)
    requires filePath in contents
    ensures Classify(contents, filePath, size, hash, sha) == Corrupted <==>
              |contents[filePath]| != size || (size != 0 && sha(contents[filePath]) != hash)
  {
  }

  /** The size-0 shortcut: an empty file recorded as empty is intact
      whatever hash is recorded; the hash is never computed. */
  lemma ClassifyEmptyShortcut(contents: Contents, filePath: string, hash: Digest, sha: HashFunction)
    requires filePath in contents && |contents[filePath]| == 0
    ensures Classify(contents, filePath, 0, hash, sha) == Ok
  {
  }

  /** A `content_objects` row as the loose query reads it. */
  datatype ObjectRow = ObjectRow(hash: Digest, size: int)

  function ObjectSize(r: ObjectRow): int {
    r.size
  }

  /** `path / ".ky" / "objects"`. */
  function ObjectsDirectory(root: string): string {
    Append(Append(root, ".ky"), "objects")
  }

  /** Where a loose repository rooted at `root` keeps a content object. */
  function ObjectPath(root: string, hash: Digest): string {
    BuildDatabase.LooseObjectPath(ObjectsDirectory(root), hash)
  }

  /** The report for one loose row. */
  function LooseReport(root: string, row: ObjectRow, contents: Contents, sha: HashFunction): Report {
    var p := ObjectPath(root, row.hash);
    Report(row.hash, p, Classify(contents, p, row.size, row.hash, sha))
  }

  /** `LooseRepository::Impl::Validate`: the rows ordered by size, one
      report each, for the object file named by the row's hash. */
  function ValidateLoose(root: string, rows: seq<ObjectRow>, contents: Contents, sha: HashFunction)
    : (r: seq<Report>)
    ensures |r| == |rows|
    ensures forall i :: 0 <= i < |r| ==>
              r[i] == LooseReport(root, SortBy(rows, ObjectSize)[i], contents, sha)
  {
    var ordered := SortBy(rows, ObjectSize);
    SortByMembers(rows, ObjectSize);
    seq(|ordered|, i requires 0 <= i < |ordered| => LooseReport(root, ordered[i], contents, sha))
  }

  /** Every row is reported, and every report is about a row. */
  lemma ValidateLooseCoversRows(root: string, rows: seq<ObjectRow>, contents: Contents, sha: HashFunction)
    ensures forall i :: 0 <= i < |rows| ==> LooseReport(root, rows[i], contents, sha) in ValidateLoose(root, rows, contents, sha)
    ensures forall i :: 0 <= i < |rows| ==>
              exists j :: 0 <= j < |rows| && ValidateLoose(root, rows, contents, sha)[i] == LooseReport(root, rows[j], contents, sha)
  {
    var ordered := SortBy(rows, ObjectSize);
    var r := ValidateLoose(root, rows, contents, sha);
    SortByMembers(rows, ObjectSize);
    forall i | 0 <= i < |rows| ensures LooseReport(root, rows[i], contents, sha) in r {
      var j :| 0 <= j < |ordered| && ordered[j] == rows[i];
      assert r[j] == LooseReport(root, rows[i], contents, sha);
    }
    forall i | 0 <= i < |rows|
      ensures exists j :: 0 <= j < |rows| && r[i] == LooseReport(root, rows[j], contents, sha)
    {
      var j :| 0 <= j < |rows| && rows[j] == ordered[i];
    }
  }

  /** A `files` row joined with its content object, as the deployed query
      reads it. */
  datatype FileRecord = FileRecord(path: string, hash: Digest, size: int)

  function FileSize(r: FileRecord): int {
    r.size
  }

  /** The report for one deployed row: the file lives at `path_ / path`. */
  function DeployedReport(root: string, row: FileRecord, contents: Contents, sha: HashFunction): Report {
    var p := Append(root, row.path);
    Report(row.hash, p, Classify(contents, p, row.size, row.hash, sha))
  }

  /** `DeployedRepository::Impl::Validate`: the rows ordered by size, one
      report per installed file. */
  function ValidateDeployed(root: string, rows: seq<FileRecord>, contents: Contents, sha: HashFunction)
    : (r: seq<Report>)
    ensures |r| == |rows|
    ensures forall i :: 0 <= i < |r| ==>
              r[i] == DeployedReport(root, SortBy(rows, FileSize)[i], contents, sha)
  {
    var ordered := SortBy(rows, FileSize);
    SortByMembers(rows, FileSize);
    seq(|ordered|, i requires 0 <= i < |ordered| => DeployedReport(root, ordered[i], contents, sha))
  }

  /** Every installed file is reported, and every report is about one. */
  lemma ValidateDeployedCoversRows(root: string, rows: seq<FileRecord>, contents: Contents, sha: HashFunction)
    ensures forall i :: 0 <= i < |rows| ==>
              DeployedReport(root, rows[i], contents, sha) in ValidateDeployed(root, rows, contents, sha)
    ensures forall i :: 0 <= i < |rows| ==>
              exists j :: 0 <= j < |rows| && ValidateDeployed(root, rows, contents, sha)[i] == DeployedReport(root, rows[j], contents, sha)
  {
    var ordered := SortBy(rows, FileSize);
    var r := ValidateDeployed(root, rows, contents, sha);
    SortByMembers(rows, FileSize);
    forall i | 0 <= i < |rows| ensures DeployedReport(root, rows[i], contents, sha) in r {
      var j :| 0 <= j < |ordered| && ordered[j] == rows[i];
      assert r[j] == DeployedReport(root, rows[i], contents, sha);
    }
    forall i | 0 <= i < |rows|
      ensures exists j :: 0 <= j < |rows| && r[i] == DeployedReport(root, rows[j], contents, sha)
    {
      var j :| 0 <= j < |rows| && rows[j] == ordered[i];
    }
  }
}

=== FILE: wrappers.dfy ===
/** Failure-carrying return types shared by every module of the model.

    The C++ code reports errors by throwing `RuntimeException` and the Python
    script by letting library exceptions propagate; both become `Failure`
    values here, carrying the message the source would have thrown.
 */
module Wrappers {

  /** A value that may be absent (an optional argument, a missing attribute,
      a NULL database column). */
  datatype Option<+T> = None | Some(value: T) {

    /** The wrapped value, or `default` when there is none. */
    function GetOr(default: T): T {
      match this
      case Some(v) => v
      case None => default
    }
  }

  /** The outcome of an operation that can throw. */
  datatype Result<+T> = Success(value: T) | Failure(error: string) {

    predicate IsFailure() {
      Failure?
    }

    function PropagateFailure<U>(): Result<U>
      requires Failure?
    {
      Failure(error)
    }

    function Extract(): T
      requires Success?
    {
      value
    }
  }

  /** `f` applied to each element in turn, as a loop of calls that stops
      at the first exception: the results of the calls that succeeded. */
  function Successes<A, B>(xs: seq<A>, f: A -> Result<B>): seq<B>
    decreases |xs|
  {
    if |xs| == 0 then []
    else
      match f(xs[0])
      case Failure(_) => []
      case Success(y) => [y] + Successes(xs[1..], f)
  }

  /** When no call fails there is one result per element, in order. */
  lemma {:induction false} SuccessesAt<A, B>(xs: seq<A>, f: A -> Result<B>, k: nat)
    requires forall i :: 0 <= i < |xs| ==> f(xs[i]).Success?
    requires k < |xs|
    ensures |Successes(xs, f)| == |xs|
    ensures Successes(xs, f)[k] == f(xs[k]).value
    decreases |xs|
  {
    assert forall i :: 0 <= i < |xs| - 1 ==> xs[1..][i] == xs[i + 1];
    if |xs| > 1 {
      SuccessesAt(xs[1..], f, if k > 0 then k - 1 else 0);
    }
  }
}

=== FILE: xml.dfy ===
/** An abstract XML element tree, standing in for etree/lxml on the Python
    side and pugixml on the C++ side.

    An element has a tag, attributes in insertion order with unique names
    (etree keeps them in a dictionary), its text and its child elements.
    `Serialize` is lxml's compact `tostring` rendering and `Pretty` is
    minidom's `toprettyxml` layout; both escape attribute values and text.
    The reader (`ParseDocument`) accepts an optional declaration, elements,
    attributes in double quotes, the five predefined entities and the three
    character references the writers emit, and drops whitespace-only text
    as pugixml does by default. Comments, namespaces, CDATA and other
    character references are not part of the model.
 */
module Xml {
  import opened Wrappers

  datatype Attr = Attr(name: string, value: string)

  datatype Element = Element(tag: string, attrs: seq<Attr>, text: string, children: seq<Element>)

  /** A new element with no attributes, no text and no children. */
  function NewElement(tag: string): (e: Element)
    ensures e.tag == tag && e.attrs == [] && e.children == [] && e.text == ""
  {
    Element(tag, [], "", [])
  }

  /** Value of the attribute called `name`. */
  function GetAttr(attrs: seq<Attr>, name: string): Option<string>
    decreases |attrs|
  {
    if |attrs| == 0 then None
    else if attrs[0].name == name then Some(attrs[0].value)
    else GetAttr(attrs[1..], name)
  }

  /** Attribute names occur at most once. */
  predicate UniqueNames(attrs: seq<Attr>) {
    forall i, j :: 0 <= i < j < |attrs| ==> attrs[i].name != attrs[j].name
  }

  /** `element.set(name, value)`: an existing attribute keeps its place and
      takes the new value, a new one is added at the end. */
  function SetAttr(attrs: seq<Attr>, name: string, value: string): (r: seq<Attr>)
    ensures GetAttr(r, name) == Some(value)
    ensures GetAttr(attrs, name).Some? ==> |r| == |attrs|
    ensures GetAttr(attrs, name).None? ==> r == attrs + [Attr(name, value)]
    decreases |attrs|
  {
    if |attrs| == 0 then [Attr(name, value)]
    else if attrs[0].name == name then [Attr(name, value)] + attrs[1..]
    else [attrs[0]] + SetAttr(attrs[1..], name, value)
  }

  /** A character an XML 1.0 document can hold (production [2] `Char` of
      the XML 1.0 recommendation): tab, line feed, carriage return and
      every code point from U+0020 up, except U+FFFE and U+FFFF. */
  predicate XmlChar(c: char) {
    || c == '\t' || c == '\n' || c == '\r'
    || (' ' <= c <= '\U{D7FF}')
    || ('\U{E000}' <= c <= '\U{FFFD}')
    || '\U{10000}' <= c
  }

  /** Text made only of characters XML can hold. */
  predicate XmlChars(s: string) {
    forall k :: 0 <= k < |s| ==> XmlChar(s[k])
  }

  /** lxml's message for a string it cannot store. */
  const IllegalCharError: string :=
    "ValueError: All strings must be XML compatible: Unicode or ASCII, no NULL bytes or control characters"

  /** lxml's `element.set(name, value)`: a value holding a character XML
      cannot carry (a NUL, another control character than tab and line
      breaks, U+FFFE or U+FFFF) raises `ValueError`; any other value is
      stored as `SetAttr` describes. */
  function Set(attrs: seq<Attr>, name: string, value: string): (r: Result<seq<Attr>>)
    ensures r.Success? <==> XmlChars(value)
    ensures r.Failure? ==> r.error == IllegalCharError
    ensures r.Success? ==> r.value == SetAttr(attrs, name, value) && GetAttr(r.value, name) == Some(value)
  {
    if XmlChars(value) then Success(SetAttr(attrs, name, value)) else Failure(IllegalCharError)
  }

  /** `set` refuses a NUL and the non-character U+FFFE, and accepts a tab. */
  lemma SetRefusesNonXml(attrs: seq<Attr>, name: string)
    ensures Set(attrs, name, [0 as char]).Failure?
    ensures Set(attrs, name, "a" + [0xFFFE as char]).Failure?
    ensures Set(attrs, name, "a\tb").Success?
  {
    assert !XmlChar([0 as char][0]);
    assert !XmlChar(("a" + [0xFFFE as char])[1]);
    assert forall k :: 0 <= k < 3 ==> "a\tb"[k] in {'a', '\t', 'b'};
  }

  /** Setting one attribute leaves every other attribute as it was, and
      every existing attribute keeps its name and place. */
  lemma {:induction false} SetAttrKeepsOthers(attrs: seq<Attr>, name: string, value: string, other: string)
    ensures other != name ==> GetAttr(SetAttr(attrs, name, value), other) == GetAttr(attrs, other)
    ensures var r := SetAttr(attrs, name, value);
            |r| >= |attrs| && forall i :: 0 <= i < |attrs| ==> r[i].name == attrs[i].name
    decreases |attrs|
  {
    if |attrs| > 0 && attrs[0].name != name {
      SetAttrKeepsOthers(attrs[1..], name, value, other);
      var r := SetAttr(attrs, name, value);
      assert forall i :: 1 <= i < |attrs| ==> r[i] == SetAttr(attrs[1..], name, value)[i - 1] && attrs[i] == attrs[1..][i - 1];
    }
  }

  /** An attribute is absent exactly when no attribute has its name. */
  lemma {:induction false} GetAttrNone(attrs: seq<Attr>, name: string)
    ensures GetAttr(attrs, name).None? <==> forall i :: 0 <= i < |attrs| ==> attrs[i].name != name
    decreases |attrs|
  {
    if |attrs| > 0 {
      GetAttrNone(attrs[1..], name);
      assert forall i :: 1 <= i < |attrs| ==> attrs[i] == attrs[1..][i - 1];
    }
  }

  /** Setting an attribute keeps attribute names unique. */
  lemma SetAttrKeepsNamesUnique(attrs: seq<Attr>, name: string, value: string)
    requires UniqueNames(attrs)
    ensures UniqueNames(SetAttr(attrs, name, value))
  {
    var r := SetAttr(attrs, name, value);
    GetAttrNone(attrs, name);
    SetAttrKeepsOthers(attrs, name, value, name);
    var present := GetAttr(attrs, name).Some?;
    forall i, j | 0 <= i < j < |r|
      ensures r[i].name != r[j].name
    {
      if !present && j == |attrs| {
        assert r[j] == Attr(name, value) && r[i] == attrs[i];
      } else {
        assert j < |attrs|;
        assert r[i].name == attrs[i].name && r[j].name == attrs[j].name;
      }
    }
  }

  /** `parent.append(child)` / `SubElement(parent, ...)`: the child becomes
      the last child. */
  function AppendChild(parent: Element, child: Element): (r: Element)
    ensures r.tag == parent.tag && r.attrs == parent.attrs && r.text == parent.text
    ensures r.children == parent.children + [child]
  {
    parent.(children := parent.children + [child])
  }

  /** Children whose tag is `tag`, in document order (pugixml `children(tag)`):
      every result is such a child, and every such child is a result. */
  function ChildrenNamed(e: Element, tag: string): (r: seq<Element>)
    ensures forall i :: 0 <= i < |r| ==> r[i].tag == tag && r[i] in e.children
    ensures forall i :: 0 <= i < |e.children| && e.children[i].tag == tag ==> e.children[i] in r
  {
    Named(e.children, tag)
  }

  /** The elements of `es` whose tag is `tag`, in order. */
  function Named(es: seq<Element>, tag: string): (r: seq<Element>)
    ensures forall i :: 0 <= i < |r| ==> r[i].tag == tag && r[i] in es
    ensures forall i :: 0 <= i < |es| && es[i].tag == tag ==> es[i] in r
    ensures |r| <= |es|
    decreases |es|
  {
    if |es| == 0 then []
    else
      var rest := Named(es[1..], tag);
      assert forall i :: 1 <= i < |es| ==> es[i] == es[1..][i - 1];
      (if es[0].tag == tag then [es[0]] else []) + rest
  }

  /** Filtering a concatenation filters each part: no element is dropped,
      added or moved across another. */
  lemma {:induction false} NamedAppend(a: seq<Element>, b: seq<Element>, tag: string)
    ensures Named(a + b, tag) == Named(a, tag) + Named(b, tag)
    decreases |a|
  {
    if |a| == 0 {
      assert a + b == b;
    } else {
      assert (a + b)[0] == a[0];
      assert (a + b)[1..] == a[1..] + b;
      NamedAppend(a[1..], b, tag);
    }
  }

  /** An element with the tag at position `i` is the result's entry that
      follows the matches among the elements before it: the selection keeps
      document order. */
  lemma NamedAt(es: seq<Element>, tag: string, i: nat)
    requires i < |es| && es[i].tag == tag
    ensures var n := |Named(es[..i], tag)|;
            n < |Named(es, tag)| && Named(es, tag)[n] == es[i]
  {
    var x := es[i];
    assert es == es[..i] + ([x] + es[i + 1..]);
    NamedAppend(es[..i], [x] + es[i + 1..], tag);
    NamedAppend([x], es[i + 1..], tag);
    assert [x][1..] == [];
    assert Named([x], tag) == [x];
  }

  /** Every element of the forest `es` with the tag of its parent, in
      document order (pre-order): what an XPath `//...` step visits. */
  function Nodes(es: seq<Element>, parentTag: string): (r: seq<(string, Element)>)
    ensures forall i :: 0 <= i < |es| ==> (parentTag, es[i]) in r
    decreases es
  {
    if |es| == 0 then []
    else
      var rest := Nodes(es[1..], parentTag);
      assert forall i :: 1 <= i < |es| ==> es[i] == es[1..][i - 1];
      [(parentTag, es[0])] + Nodes(es[0].children, es[0].tag) + rest
  }

  /** The node list is closed under taking children: with every listed
      element, its children are listed, paired with its tag. Together with
      the top-level elements this is every element of the forest. */
  lemma {:induction false} NodesClosed(es: seq<Element>, parentTag: string, k: nat, j: nat)
    requires k < |Nodes(es, parentTag)|
    requires j < |Nodes(es, parentTag)[k].1.children|
    ensures var p := Nodes(es, parentTag)[k].1;
            (p.tag, p.children[j]) in Nodes(es, parentTag)
    decreases es
  {
    var mid := Nodes(es[0].children, es[0].tag);
    var rest := Nodes(es[1..], parentTag);
    var r := Nodes(es, parentTag);
    assert r == [(parentTag, es[0])] + mid + rest;
    var p := r[k].1;
    if k == 0 {
      assert (es[0].tag, es[0].children[j]) in mid;
    } else if k < 1 + |mid| {
      assert r[k] == mid[k - 1];
      NodesClosed(es[0].children, es[0].tag, k - 1, j);
      assert (p.tag, p.children[j]) in mid;
    } else {
      assert r[k] == rest[k - 1 - |mid|];
      NodesClosed(es[1..], parentTag, k - 1 - |mid|, j);
      assert (p.tag, p.children[j]) in rest;
    }
  }

  /** The nodes of a document whose root element is `root`; the root's
      parent is the document node, whose tag is empty. */
  function DocumentNodes(root: Element): seq<(string, Element)> {
    Nodes([root], "")
  }

  /** The elements of a node list whose tag is `tag` (XPath `//tag`). */
  function SelectTag(nodes: seq<(string, Element)>, tag: string): (r: seq<Element>)
    ensures forall i :: 0 <= i < |r| ==> r[i].tag == tag
    ensures forall i :: 0 <= i < |nodes| && nodes[i].1.tag == tag ==> nodes[i].1 in r
    decreases |nodes|
  {
    if |nodes| == 0 then []
    else (if nodes[0].1.tag == tag then [nodes[0].1] else []) + SelectTag(nodes[1..], tag)
  }

  /** The elements tagged `tag` whose parent is tagged `parentTag`
      (XPath `//parentTag/tag`), in document order. */
  function SelectChildPath(nodes: seq<(string, Element)>, parentTag: string, tag: string): (r: seq<Element>)
    ensures forall i :: 0 <= i < |r| ==> r[i].tag == tag
    ensures forall i :: 0 <= i < |nodes| && nodes[i].0 == parentTag && nodes[i].1.tag == tag ==> nodes[i].1 in r
    decreases |nodes|
  {
    if |nodes| == 0 then []
    else
      (if nodes[0].0 == parentTag && nodes[0].1.tag == tag then [nodes[0].1] else [])
      + SelectChildPath(nodes[1..], parentTag, tag)
  }

  /** Whitespace as XML defines it. */
  predicate IsSpace(c: char) {
    c == ' ' || c == '\t' || c == '\n' || c == '\r'
  }

  /** Text made of whitespace only; a reader drops such text. */
  predicate Blank(s: string) {
    forall k :: 0 <= k < |s| ==> IsSpace(s[k])
  }

  lemma BlankConcat(a: string, b: string)
    requires Blank(a) && Blank(b)
    ensures Blank(a + b)
  {
  }

  /** A character that may occur in a tag or attribute name: none of the
      characters that delimit names in markup. */
  predicate NameChar(c: char) {
    !IsSpace(c) && c != '/' && c != '>' && c != '<' && c != '=' && c != '"' && c != '&' && c != '?'
  }

  predicate IsName(s: string) {
    |s| > 0 && forall k :: 0 <= k < |s| ==> NameChar(s[k])
  }

  predicate NotQuote(c: char) { c != '"' }

  predicate NotOpen(c: char) { c != '<' }

  predicate NotClose(c: char) { c != '>' }

  /** A tree that can be written out and read back: tags and attribute
      names are names, attribute values and text hold only characters XML
      can carry, and text is empty or holds more than whitespace
      (whitespace-only text is dropped when a document is read). */
  predicate Writable(e: Element)
    decreases e
  {
    && IsName(e.tag)
    && (forall i :: 0 <= i < |e.attrs| ==> IsName(e.attrs[i].name))
    && (forall i :: 0 <= i < |e.attrs| ==> XmlChars(e.attrs[i].value))
    && XmlChars(e.text)
    && (Blank(e.text) ==> e.text == "")
    && (forall i :: 0 <= i < |e.children| ==> Writable(e.children[i]))
  }

  /** A tree without text content anywhere. */
  predicate NoText(e: Element)
    decreases e
  {
    e.text == "" && forall i :: 0 <= i < |e.children| ==> NoText(e.children[i])
  }

  /** Attribute text with every character that would end or alter the
      quoted value replaced by a reference: `&`, `<`, `>`, `"` and the
      line-break and tab characters a reader would normalise to spaces. */
  function EscapeAttr(s: string): (r: string)
    ensures '"' !in r && '<' !in r && '\n' !in r && '\r' !in r && '\t' !in r
    decreases |s|
  {
    if |s| == 0 then ""
    else EscapeChar(s[0]) + EscapeAttr(s[1..])
  }

  /** One character of attribute text; a replaced character becomes a
      reference starting with `&`, any other stays as it is. */
  function EscapeChar(c: char): (r: string)
    ensures |r| >= 1 && (r[0] == '&' <==> r != [c])
    ensures '"' !in r && '<' !in r && '\n' !in r && '\r' !in r && '\t' !in r
  {
    if c == '&' then "&amp;"
    else if c == '<' then "&lt;"
    else if c == '>' then "&gt;"
    else if c == '"' then "&quot;"
    else if c == '\n' then "&#10;"
    else if c == '\r' then "&#13;"
    else if c == '\t' then "&#9;"
    else [c]
  }

  /** The character a reference at the front of `s` stands for, and the
      reference's length. */
  function Entity(s: string): (r: Option<(char, nat)>)
    ensures r.Some? ==> 0 < r.value.1 <= |s|
  {
    if |s| >= 5 && s[..5] == "&amp;" then Some(('&', 5))
    else if |s| >= 4 && s[..4] == "&lt;" then Some(('<', 4))
    else if |s| >= 4 && s[..4] == "&gt;" then Some(('>', 4))
    else if |s| >= 6 && s[..6] == "&quot;" then Some(('"', 6))
    else if |s| >= 5 && s[..5] == "&#10;" then Some(('\n', 5))
    else if |s| >= 5 && s[..5] == "&#13;" then Some(('\r', 5))
    else if |s| >= 4 && s[..4] == "&#9;" then Some(('\t', 4))
    else None
  }

  /** Reads escaped text back; `None` on an `&` that starts no known
      reference. */
  function UnescapeAttr(s: string): Option<string>
    decreases |s|
  {
    if |s| == 0 then Some("")
    else if s[0] != '&' then
      match UnescapeAttr(s[1..])
      case Some(t) => Some([s[0]] + t)
      case None => None
    else
      match Entity(s)
      case None => None
      case Some((c, n)) =>
        match UnescapeAttr(s[n..])
        case Some(t) => Some([c] + t)
        case None => None
  }

  /** The reference an escaped character becomes is read as that character. */
  lemma EntityOfEscape(c: char, rest: string)
    requires EscapeChar(c) != [c]
    ensures Entity(EscapeChar(c) + rest) == Some((c, |EscapeChar(c)|))
  {
    var e := EscapeChar(c) + rest;
    assert e[..|EscapeChar(c)|] == EscapeChar(c);
    if c == '&' {
      assert e[..5] == "&amp;";
    } else if c == '<' {
      assert e[1] == 'l' && e[..4] == "&lt;";
      assert |e| < 5 || e[..5][1] == 'l';
    } else if c == '>' {
      assert e[1] == 'g' && e[..4] == "&gt;";
      assert |e| < 5 || e[..5][1] == 'g';
    } else if c == '"' {
      assert e[1] == 'q' && e[..6] == "&quot;";
      assert e[..5][1] == 'q' && e[..4][1] == 'q';
    } else if c == '\n' {
      assert e[1] == '#' && e[3] == '0' && e[..5] == "&#10;";
      assert e[..5][1] == '#' && e[..4][1] == '#';
    } else if c == '\r' {
      assert e[1] == '#' && e[3] == '3' && e[..5] == "&#13;";
      assert e[..5][1] == '#' && e[..5][3] == '3' && e[..4][1] == '#';
    } else {
      assert e[1] == '#' && e[2] == '9' && e[..4] == "&#9;";
      assert |e| < 5 || (e[..5][1] == '#' && e[..5][2] == '9');
      assert e[..4][1] == '#';
      assert |e| < 6 || e[..6][1] == '#';
    }
  }

  /** One escaped character in front of text that reads back. */
  lemma UnescapeStep(c: char, rest: string, t: string)
    requires UnescapeAttr(rest) == Some(t)
    ensures UnescapeAttr(EscapeChar(c) + rest) == Some([c] + t)
  {
    var e := EscapeChar(c) + rest;
    if EscapeChar(c) == [c] {
      assert e[0] == c && e[1..] == rest;
    } else {
      EntityOfEscape(c, rest);
      assert e[|EscapeChar(c)|..] == rest;
    }
  }

  /** An escaped attribute value reads back as the value itself, so
      distinct values serialize differently. */
  lemma {:induction false} EscapeRoundTrip(s: string)
    ensures UnescapeAttr(EscapeAttr(s)) == Some(s)
    decreases |s|
  {
    if |s| > 0 {
      EscapeRoundTrip(s[1..]);
      UnescapeStep(s[0], EscapeAttr(s[1..]), s[1..]);
      assert [s[0]] + s[1..] == s;
    }
  }

  /** ` name="value"`, the value escaped. */
  function AttrText(a: Attr): (r: string)
    ensures |r| > 0 && r[0] == ' '
  {
    " " + a.name + "=\"" + EscapeAttr(a.value) + "\""
  }

  /** The attributes written in order. */
  function SerializeAttrs(attrs: seq<Attr>): string
    decreases |attrs|
  {
    if |attrs| == 0 then "" else AttrText(attrs[0]) + SerializeAttrs(attrs[1..])
  }

  /** A start tag without its closing `>` or `/>`. */
  function StartTag(e: Element): (r: string)
    ensures |r| > |e.tag| && r[..|e.tag| + 1] == "<" + e.tag
  {
    var r := "<" + e.tag + SerializeAttrs(e.attrs);
    assert r[..|e.tag| + 1] == "<" + e.tag;
    r
  }

  function EndTag(tag: string): string {
    "</" + tag + ">"
  }

  /** One character of text content: `&`, `<` and `>` are replaced by
      references, every other character stays. */
  function EscapeTextChar(c: char): (r: string)
    ensures |r| >= 1 && '<' !in r
    ensures IsSpace(r[0]) ==> r == [c]
  {
    if c == '&' || c == '<' || c == '>' then EscapeChar(c) else [c]
  }

  /** Text content with `&`, `<` and `>` escaped. */
  function EscapeText(s: string): (r: string)
    ensures '<' !in r
    decreases |s|
  {
    if |s| == 0 then ""
    else EscapeTextChar(s[0]) + EscapeText(s[1..])
  }

  /** Escaped text content reads back as the text. */
  lemma {:induction false} UnescapeText(s: string)
    ensures UnescapeAttr(EscapeText(s)) == Some(s)
    decreases |s|
  {
    if |s| > 0 {
      UnescapeText(s[1..]);
      if s[0] == '&' || s[0] == '<' || s[0] == '>' {
        UnescapeStep(s[0], EscapeText(s[1..]), s[1..]);
      } else {
        var e := EscapeText(s);
        assert e == [s[0]] + EscapeText(s[1..]);
        assert e[1..] == EscapeText(s[1..]);
      }
      assert [s[0]] + s[1..] == s;
    }
  }

  /** Escaping never makes text whitespace-only: escaped text is blank only
      when the text is. */
  lemma {:induction false} EscapeTextBlank(s: string)
    requires Blank(EscapeText(s))
    ensures Blank(s)
    decreases |s|
  {
    if |s| > 0 {
      var head := EscapeTextChar(s[0]);
      var tail := EscapeText(s[1..]);
      assert EscapeText(s) == head + tail;
      assert IsSpace(head[0]) by {
        assert head[0] == EscapeText(s)[0];
      }
      forall k | 0 <= k < |tail|
        ensures IsSpace(tail[k])
      {
        assert tail[k] == EscapeText(s)[|head| + k];
      }
      EscapeTextBlank(s[1..]);
      assert head == [s[0]];
      assert forall k :: 1 <= k < |s| ==> s[k] == s[1..][k - 1];
    }
  }

  /** A compact rendering of an element (lxml `tostring`): an empty element
      is self-closed, any other is written with its text and children
      between its tags. */
  function Serialize(e: Element): (r: string)
    ensures |r| > |e.tag| && r[..|e.tag| + 1] == "<" + e.tag
    decreases e, 1
  {
    var open := StartTag(e);
    assert (open + "/>")[..|e.tag| + 1] == open[..|e.tag| + 1];
    if |e.children| == 0 && |e.text| == 0 then open + "/>"
    else
      var body := ">" + EscapeText(e.text) + SerializeAll(e.children) + EndTag(e.tag);
      assert (open + body)[..|e.tag| + 1] == open[..|e.tag| + 1];
      open + body
  }

  function SerializeAll(es: seq<Element>): string
    decreases es, 0
  {
    if |es| == 0 then "" else Serialize(es[0]) + SerializeAll(es[1..])
  }

  /** minidom's `toprettyxml()` rendering of an element whose start tag
      follows `indent`: an empty element is self-closed, an element holding
      only text keeps it on its line, and any other puts its text and each
      child on lines of their own, one tab deeper, and its end tag on a line
      at `indent`. */
  function Pretty(e: Element, indent: string): (r: string)
    ensures |r| > |e.tag| && r[..|e.tag| + 1] == "<" + e.tag
    decreases e, 1
  {
    var open := StartTag(e);
    var inner := indent + "\t";
    var body :=
      if |e.children| == 0 && |e.text| == 0 then "/>"
      else if |e.children| == 0 then ">" + EscapeText(e.text) + EndTag(e.tag)
      else ">\n" + TextLine(e.text, inner) + PrettyAll(e.children, inner) + indent + EndTag(e.tag);
    assert (open + body)[..|e.tag| + 1] == open[..|e.tag| + 1];
    open + body
  }

  /** Text content on a line of its own at `indent`; nothing for no text. */
  function TextLine(text: string, indent: string): string {
    if |text| == 0 then "" else indent + EscapeText(text) + "\n"
  }

  /** Elements each on a line of its own, starting at `indent`. */
  function PrettyAll(es: seq<Element>, indent: string): string
    decreases es, 0
  {
    if |es| == 0 then "" else indent + Pretty(es[0], indent) + "\n" + PrettyAll(es[1..], indent)
  }

  /** A pretty document: the declaration line, the root element, and a
      final line break. */
  function PrettyDocument(declaration: string, root: Element): string {
    declaration + "\n" + Pretty(root, "") + "\n"
  }

  /** The longest prefix of `s` whose characters satisfy `p`, and the rest. */
  function Span(s: string, p: char -> bool): (r: (string, string))
    ensures r.0 + r.1 == s
    ensures forall k :: 0 <= k < |r.0| ==> p(r.0[k])
    ensures |r.1| == 0 || !p(r.1[0])
    decreases |s|
  {
    if |s| == 0 || !p(s[0]) then ("", s)
    else
      var (a, b) := Span(s[1..], p);
      assert [s[0]] + a + b == s;
      ([s[0]] + a, b)
  }

  /** A split whose first part satisfies `p` and whose second part does not
      start with a character that does is the span. */
  lemma {:induction false} SpanOf(a: string, b: string, p: char -> bool)
    requires forall k :: 0 <= k < |a| ==> p(a[k])
    requires |b| == 0 || !p(b[0])
    ensures Span(a + b, p) == (a, b)
    decreases |a|
  {
    if |a| == 0 {
      assert a + b == b;
    } else {
      assert (a + b)[0] == a[0];
      assert (a + b)[1..] == a[1..] + b;
      SpanOf(a[1..], b, p);
      assert [a[0]] + a[1..] == a;
    }
  }

  /** Text as read: whitespace-only text is dropped, other text has its
      references replaced. */
  function ReadText(raw: string): Option<string> {
    if Blank(raw) then Some("") else UnescapeAttr(raw)
  }

  /** A raw tab, line feed or carriage return. */
  predicate IsRawBreak(c: char) {
    c == '\t' || c == '\n' || c == '\r'
  }

  /** pugixml's attribute whitespace conversion (`parse_wconv_attribute`,
      with `parse_eol`, both on by default), applied before references are
      read: each raw tab, line feed or carriage return becomes a space, and
      a carriage return followed by a line feed becomes one space. */
  function AttrWhitespace(s: string): (r: string)
    ensures |r| <= |s|
    decreases |s|
  {
    if |s| == 0 then ""
    else if s[0] == '\r' && |s| >= 2 && s[1] == '\n' then " " + AttrWhitespace(s[2..])
    else if IsRawBreak(s[0]) then " " + AttrWhitespace(s[1..])
    else [s[0]] + AttrWhitespace(s[1..])
  }

  /** After the conversion no raw tab, line feed or carriage return is
      left, so a value that held one is changed. */
  lemma {:induction false} AttrWhitespaceClears(s: string)
    ensures forall k :: 0 <= k < |AttrWhitespace(s)| ==> !IsRawBreak(AttrWhitespace(s)[k])
    ensures (exists k :: 0 <= k < |s| && IsRawBreak(s[k])) ==> AttrWhitespace(s) != s
    decreases |s|
  {
    if |s| > 0 {
      var r := AttrWhitespace(s);
      var n := if s[0] == '\r' && |s| >= 2 && s[1] == '\n' then 2 else 1;
      AttrWhitespaceClears(s[n..]);
      var t := AttrWhitespace(s[n..]);
      assert r == [r[0]] + t;
      assert !IsRawBreak(r[0]);
      forall k | 0 <= k < |r| ensures !IsRawBreak(r[k]) {
        if k > 0 {
          assert r[k] == t[k - 1];
        }
      }
      if r == s {
        forall k | 0 <= k < |s| ensures !IsRawBreak(s[k]) {
          assert s[k] == r[k];
        }
      }
    }
  }

  /** Text without raw tabs, line feeds or carriage returns is not
      converted. */
  lemma {:induction false} AttrWhitespaceKeeps(s: string)
    requires forall k :: 0 <= k < |s| ==> !IsRawBreak(s[k])
    ensures AttrWhitespace(s) == s
    decreases |s|
  {
    if |s| > 0 {
      AttrWhitespaceKeeps(s[1..]);
      assert [s[0]] + s[1..] == s;
    }
  }

  /** Reads one ` name="value"` attribute at the front of `s`. */
  function ParseAttr(s: string): (r: Option<(Attr, string)>)
    ensures r.Some? ==> |r.value.1| < |s|
  {
    if |s| == 0 || s[0] != ' ' then None
    else
      var (name, s1) := Span(s[1..], NameChar);
      if |name| == 0 || |s1| < 2 || s1[..2] != "=\"" then None
      else
        var (raw, s2) := Span(s1[2..], NotQuote);
        if |s2| == 0 then None
        else
          match UnescapeAttr(AttrWhitespace(raw))
          case None => None
          case Some(value) => Some((Attr(name, value), s2[1..]))
  }

  /** Reads the attributes at the front of `s`, up to the first character
      that does not start one. */
  function ParseAttrs(s: string): (r: Option<(seq<Attr>, string)>)
    ensures r.Some? ==> |r.value.1| <= |s|
    decreases |s|
  {
    if |s| == 0 || s[0] != ' ' then Some(([], s))
    else
      match ParseAttr(s)
      case None => None
      case Some((a, t)) =>
        match ParseAttrs(t)
        case None => None
        case Some((more, t2)) => Some(([a] + more, t2))
  }

  /** Reads `<`, a tag and its attributes; returns them and what follows. */
  function ParseStartTag(s: string): (r: Option<(string, seq<Attr>, string)>)
    ensures r.Some? ==> |r.value.2| < |s|
  {
    if |s| == 0 || s[0] != '<' then None
    else
      var (tag, s1) := Span(s[1..], NameChar);
      if |tag| == 0 then None
      else
        match ParseAttrs(s1)
        case None => None
        case Some((attrs, s2)) => Some((tag, attrs, s2))
  }

  /** Reads one element at the front of `s` (pugixml's default parse): the
      start tag, then either `/>` or `>` and the element's content.
      Returns the element and what follows it. */
  function ParseElement(s: string): (r: Option<(Element, string)>)
    ensures r.Some? ==> |r.value.1| < |s|
    decreases |s|, 0
  {
    match ParseStartTag(s)
    case None => None
    case Some((tag, attrs, s2)) =>
      if |s2| >= 2 && s2[..2] == "/>" then Some((Element(tag, attrs, "", []), s2[2..]))
      else if |s2| == 0 || s2[0] != '>' then None
      else ParseContent(tag, attrs, s2[1..])
  }

  /** Reads an element's content after its start tag: the text before the
      first child, the children, and the end tag. */
  function ParseContent(tag: string, attrs: seq<Attr>, s: string): (r: Option<(Element, string)>)
    ensures r.Some? ==> |r.value.1| < |s|
    decreases |s|, 3
  {
    var (raw, s3) := Span(s, NotOpen);
    match ReadText(raw)
    case None => None
    case Some(text) =>
      match ParseChildren(s3)
      case None => None
      case Some((children, s4)) =>
        var close := EndTag(tag);
        if |s4| >= |close| && s4[..|close|] == close then
          Some((Element(tag, attrs, text, children), s4[|close|..]))
        else None
  }

  /** Reads the elements at the front of `s`, skipping whitespace before
      each, up to the first end tag. */
  function ParseChildren(s: string): (r: Option<(seq<Element>, string)>)
    ensures r.Some? ==> |r.value.1| <= |s|
    decreases |s|, 2
  {
    ParseChildrenAt(Span(s, IsSpace).1)
  }

  /** `ParseChildren` once the whitespace in front is skipped. */
  function ParseChildrenAt(t: string): (r: Option<(seq<Element>, string)>)
    ensures r.Some? ==> |r.value.1| <= |t|
    decreases |t|, 1
  {
    if |t| >= 2 && t[0] == '<' && t[1] != '/' then
      match ParseElement(t)
      case None => None
      case Some((e, t1)) =>
        match ParseChildren(t1)
        case None => None
        case Some((es, t2)) => Some(([e] + es, t2))
    else Some(([], t))
  }

  /** Skips an XML declaration `<?...?>` at the front of `s`; text without
      one is kept whole. */
  function SkipDeclaration(s: string): Option<string> {
    if |s| >= 2 && s[..2] == "<?" then
      var (decl, t) := Span(s, NotClose);
      if |t| == 0 || |decl| < 2 || decl[|decl| - 1] != '?' then None else Some(t[1..])
    else Some(s)
  }

  /** Reads a document: an optional declaration, then one root element with
      nothing but whitespace around it. */
  function ParseDocument(s: string): Option<Element> {
    match SkipDeclaration(s)
    case None => None
    case Some(t) =>
      match ParseElement(Span(t, IsSpace).1)
      case None => None
      case Some((root, rest)) => if Blank(rest) then Some(root) else None
  }

  /** A declaration: `<?`, then no `>` before its closing `?>`. */
  predicate IsDeclaration(d: string) {
    |d| >= 4 && d[..2] == "<?" && d[|d| - 2..] == "?>"
    && forall k :: 0 <= k < |d| - 1 ==> d[k] != '>'
  }

  lemma Assoc(a: string, b: string, c: string)
    ensures (a + b) + c == a + (b + c)
  {
  }

  lemma DropPrefix(p: string, x: string)
    ensures (p + x)[..|p|] == p && (p + x)[|p|..] == x
  {
  }

  /** Regrouping of a written attribute. */
  lemma AttrReassoc(n: string, v: string, t: string)
    ensures ((((" " + n) + "=\"") + v) + "\"") + t == " " + (n + ("=\"" + (v + ("\"" + t))))
  {
  }

  /** Regrouping of a written start tag. */
  lemma StartReassoc(t: string, a: string, b: string)
    ensures (("<" + t) + a) + b == "<" + (t + (a + b))
  {
  }

  /** A rendering that opens with `<` and a name, followed by anything,
      starts an element rather than an end tag. */
  lemma OpensElement(r: string, tag: string, more: string)
    requires IsName(tag) && |r| > |tag| && r[..|tag| + 1] == "<" + tag
    ensures var s := r + more; |s| >= 2 && s[0] == '<' && s[1] != '/'
  {
    assert r[0] == r[..|tag| + 1][0] && r[1] == r[..|tag| + 1][1];
    assert NameChar(tag[0]);
  }

  /** Text read back: blank text is dropped, and text that is not blank
      comes back unchanged. */
  lemma ReadTextOf(t: string)
    requires Blank(t) ==> t == ""
    ensures ReadText(EscapeText(t)) == Some(t)
  {
    if Blank(EscapeText(t)) {
      EscapeTextBlank(t);
    } else {
      UnescapeText(t);
    }
  }

  /** A written attribute reads back as itself. */
  lemma ParseAttrOf(a: Attr, tail: string)
    requires IsName(a.name)
    ensures ParseAttr(AttrText(a) + tail) == Some((a, tail))
  {
    var value := EscapeAttr(a.value);
    var s2 := "\"" + tail;
    var s1 := "=\"" + (value + s2);
    AttrReassoc(a.name, value, tail);
    DropPrefix(" ", a.name + s1);
    SpanOf(a.name, s1, NameChar);
    DropPrefix("=\"", value + s2);
    assert forall k :: 0 <= k < |value| ==> NotQuote(value[k]) by {
      assert forall k :: 0 <= k < |value| ==> value[k] in value;
    }
    SpanOf(value, s2, NotQuote);
    assert forall k :: 0 <= k < |value| ==> !IsRawBreak(value[k]) by {
      assert forall k :: 0 <= k < |value| ==> value[k] in value;
    }
    AttrWhitespaceKeeps(value);
    EscapeRoundTrip(a.value);
    DropPrefix("\"", tail);
  }

  /** Written attributes read back as themselves, in order. */
  lemma {:induction false} ParseAttrsOf(attrs: seq<Attr>, rest: string)
    requires forall i :: 0 <= i < |attrs| ==> IsName(attrs[i].name)
    requires |rest| == 0 || rest[0] != ' '
    ensures ParseAttrs(SerializeAttrs(attrs) + rest) == Some((attrs, rest))
    decreases |attrs|
  {
    if |attrs| == 0 {
      assert SerializeAttrs(attrs) + rest == rest;
    } else {
      var tail := SerializeAttrs(attrs[1..]) + rest;
      var s := AttrText(attrs[0]) + tail;
      SerializeAttrsCons(attrs, rest);
      ParseAttrOf(attrs[0], tail);
      ParseAttrsOf(attrs[1..], rest);
      AttrsCons(s, attrs[0], tail, attrs[1..], rest);
      assert [attrs[0]] + attrs[1..] == attrs;
    }
  }

  /** The first of several written attributes. */
  lemma SerializeAttrsCons(attrs: seq<Attr>, rest: string)
    requires |attrs| > 0
    ensures SerializeAttrs(attrs) + rest == AttrText(attrs[0]) + (SerializeAttrs(attrs[1..]) + rest)
  {
    Assoc(AttrText(attrs[0]), SerializeAttrs(attrs[1..]), rest);
  }

  /** An attribute in front of further attributes is the first of them. */
  lemma AttrsCons(s: string, a: Attr, t: string, more: seq<Attr>, rest: string)
    requires |s| > 0 && s[0] == ' '
    requires ParseAttr(s) == Some((a, t))
    requires ParseAttrs(t) == Some((more, rest))
    ensures ParseAttrs(s) == Some(([a] + more, rest))
  {
  }

  /** A written start tag reads back as the element's tag and attributes. */
  lemma StartTagOf(e: Element, body: string)
    requires IsName(e.tag) && forall i :: 0 <= i < |e.attrs| ==> IsName(e.attrs[i].name)
    requires |body| > 0 && (body[0] == '/' || body[0] == '>')
    ensures ParseStartTag(StartTag(e) + body) == Some((e.tag, e.attrs, body))
  {
    var attrs := SerializeAttrs(e.attrs);
    var after := attrs + body;
    StartReassoc(e.tag, attrs, body);
    DropPrefix("<", e.tag + after);
    if |e.attrs| > 0 {
      assert attrs == AttrText(e.attrs[0]) + SerializeAttrs(e.attrs[1..]);
      assert after[0] == attrs[0];
    } else {
      assert after == body;
    }
    SpanOf(e.tag, after, NameChar);
    ParseAttrsOf(e.attrs, body);
  }

  /** A start tag closed by `/>` is an empty element. */
  lemma ElementEmpty(s: string, tag: string, attrs: seq<Attr>, rest: string)
    requires ParseStartTag(s) == Some((tag, attrs, "/>" + rest))
    ensures ParseElement(s) == Some((Element(tag, attrs, "", []), rest))
  {
    assert ("/>" + rest)[..2] == "/>" && ("/>" + rest)[2..] == rest;
  }

  /** A start tag closed by `>` is followed by the element's content. */
  lemma ElementContent(s: string, tag: string, attrs: seq<Attr>, x: string)
    requires ParseStartTag(s) == Some((tag, attrs, ">" + x))
    ensures ParseElement(s) == ParseContent(tag, attrs, x)
  {
    assert (">" + x)[0] == '>' && (">" + x)[1..] == x;
    assert |">" + x| < 2 || (">" + x)[..2][0] == '>';
  }

  /** Content made of text, children read from what follows it, and the
      end tag. */
  lemma ContentOf(tag: string, attrs: seq<Attr>, raw: string, text: string, s3: string,
                  children: seq<Element>, rest: string)
    requires forall k :: 0 <= k < |raw| ==> NotOpen(raw[k])
    requires |s3| > 0 && s3[0] == '<'
    requires ReadText(raw) == Some(text)
    requires ParseChildren(s3) == Some((children, EndTag(tag) + rest))
    ensures ParseContent(tag, attrs, raw + s3) == Some((Element(tag, attrs, text, children), rest))
  {
    SpanOf(raw, s3, NotOpen);
    var close := EndTag(tag);
    assert (close + rest)[..|close|] == close && (close + rest)[|close|..] == rest;
  }

  /** Whitespace in front of children does not change what is read. */
  lemma ParseChildrenSkips(w: string, s: string)
    requires Blank(w)
    ensures ParseChildren(w + s) == ParseChildren(s)
  {
    var sp := Span(s, IsSpace);
    assert w + s == (w + sp.0) + sp.1;
    BlankConcat(w, sp.0);
    SpanOf(w + sp.0, sp.1, IsSpace);
    assert Span(w + s, IsSpace).1 == sp.1;
  }

  /** An element in front of further children is the first child. */
  lemma ChildrenCons(s: string, e: Element, t1: string, es: seq<Element>, t2: string)
    requires |s| >= 2 && s[0] == '<' && s[1] != '/'
    requires ParseElement(s) == Some((e, t1))
    requires ParseChildren(t1) == Some((es, t2))
    ensures ParseChildren(s) == Some(([e] + es, t2))
  {
    assert s == "" + s;
    SpanOf("", s, IsSpace);
  }

  /** An end tag ends the children. */
  lemma ChildrenEnd(rest: string)
    requires |rest| >= 2 && rest[..2] == "</"
    ensures ParseChildren(rest) == Some(([], rest))
  {
    assert rest[0] == '<' && rest[1] == '/';
    assert rest == "" + rest;
    SpanOf("", rest, IsSpace);
  }

  /** Regrouping of the compact rendering of an element with content. */
  lemma SerializeReassoc(a: string, b: string, c: string, d: string, r: string)
    ensures (a + (((">" + b) + c) + d)) + r == a + (">" + (b + (c + (d + r))))
  {
  }

  /** Regrouping of the pretty rendering of an element with children. */
  lemma PrettyReassoc(a: string, p: string, q: string, f: string, i: string, n: string, d: string, r: string)
    requires p == ((i + f) + "\n") + q
    ensures (a + ((((">\n" + "") + p) + n) + d)) + r == a + (">" + (("\n" + i) + (f + ("\n" + ((q + n) + (d + r))))))
  {
  }

  /** Regrouping of pretty-printed siblings. */
  lemma SiblingsReassoc(i: string, f: string, q: string, n: string, r: string)
    ensures ((((i + f) + "\n") + q) + n) + r == i + (f + ("\n" + ((q + n) + r)))
  {
  }

  /** Names of an element that a reader accepts. */
  predicate NamesWritable(e: Element) {
    IsName(e.tag) && forall i :: 0 <= i < |e.attrs| ==> IsName(e.attrs[i].name)
  }

  /** An empty element written self-closed reads back. */
  lemma SerializedEmpty(e: Element, rest: string)
    requires NamesWritable(e) && |e.children| == 0 && |e.text| == 0
    ensures ParseElement(Serialize(e) + rest) == Some((e, rest))
  {
    var s := Serialize(e) + rest;
    assert Serialize(e) == StartTag(e) + "/>";
    assert s == StartTag(e) + ("/>" + rest);
    StartTagOf(e, "/>" + rest);
    ElementEmpty(s, e.tag, e.attrs, rest);
  }

  /** An element written with content reads back once its children do. */
  lemma SerializedContent(e: Element, rest: string)
    requires NamesWritable(e) && (Blank(e.text) ==> e.text == "")
    requires |e.children| > 0 || |e.text| > 0
    requires ParseChildren(SerializeAll(e.children) + (EndTag(e.tag) + rest)) == Some((e.children, EndTag(e.tag) + rest))
    ensures ParseElement(Serialize(e) + rest) == Some((e, rest))
  {
    var close := EndTag(e.tag);
    var t := EscapeText(e.text);
    var kids := SerializeAll(e.children) + (close + rest);
    var x := t + kids;
    var s := Serialize(e) + rest;
    assert Serialize(e) == StartTag(e) + (((">" + t) + SerializeAll(e.children)) + close);
    SerializeReassoc(StartTag(e), t, SerializeAll(e.children), close, rest);
    StartTagOf(e, ">" + x);
    ElementContent(s, e.tag, e.attrs, x);
    if |e.children| > 0 {
      var first := Serialize(e.children[0]);
      assert SerializeAll(e.children) == first + SerializeAll(e.children[1..]);
      assert first[..|e.children[0].tag| + 1] == "<" + e.children[0].tag;
      assert kids[0] == first[0];
    } else {
      assert kids == close + rest;
    }
    assert forall k :: 0 <= k < |t| ==> NotOpen(t[k]) by {
      assert forall k :: 0 <= k < |t| ==> t[k] in t;
    }
    ReadTextOf(e.text);
    ContentOf(e.tag, e.attrs, t, e.text, kids, e.children, rest);
  }

  /** Written elements read back (compact rendering). */
  lemma {:induction false} ParseSerialized(e: Element, rest: string)
    requires Writable(e)
    ensures ParseElement(Serialize(e) + rest) == Some((e, rest))
    decreases e, 1
  {
    if |e.children| == 0 && |e.text| == 0 {
      SerializedEmpty(e, rest);
    } else {
      ParseSerializedAll(e.children, EndTag(e.tag) + rest);
      SerializedContent(e, rest);
    }
  }

  /** Written sibling elements read back, up to the end tag that follows. */
  lemma {:induction false} ParseSerializedAll(es: seq<Element>, rest: string)
    requires forall i :: 0 <= i < |es| ==> Writable(es[i])
    requires |rest| >= 2 && rest[..2] == "</"
    ensures ParseChildren(SerializeAll(es) + rest) == Some((es, rest))
    decreases es, 0
  {
    if |es| == 0 {
      assert SerializeAll(es) + rest == rest;
      ChildrenEnd(rest);
    } else {
      var first := Serialize(es[0]);
      var more := SerializeAll(es[1..]) + rest;
      assert SerializeAll(es) == first + SerializeAll(es[1..]);
      Assoc(first, SerializeAll(es[1..]), rest);
      OpensElement(first, es[0].tag, more);
      ParseSerialized(es[0], more);
      ParseSerializedAll(es[1..], rest);
      ChildrenCons(first + more, es[0], more, es[1..], rest);
      assert [es[0]] + es[1..] == es;
    }
  }

  /** Distinct writable trees have distinct compact renderings. */
  lemma SerializeInjective(a: Element, b: Element)
    requires Writable(a) && Writable(b)
    requires Serialize(a) == Serialize(b)
    ensures a == b
  {
    ParseSerialized(a, "");
    ParseSerialized(b, "");
    assert Serialize(a) + "" == Serialize(a);
    assert Serialize(b) + "" == Serialize(b);
  }

  /** An element with children, pretty-printed, reads back once its
      children do. */
  lemma PrettyContent(e: Element, indent: string, rest: string)
    requires NamesWritable(e) && e.text == "" && |e.children| > 0 && Blank(indent)
    requires ParseChildren(PrettyAll(e.children, indent + "\t") + indent + (EndTag(e.tag) + rest))
             == Some((e.children, EndTag(e.tag) + rest))
    ensures ParseElement(Pretty(e, indent) + rest) == Some((e, rest))
  {
    var inner := indent + "\t";
    var close := EndTag(e.tag);
    var all := PrettyAll(e.children, inner);
    var first := Pretty(e.children[0], inner);
    var q := PrettyAll(e.children[1..], inner);
    var more := "\n" + ((q + indent) + (close + rest));
    var lead := "\n" + inner;
    var x := lead + (first + more);
    var s := Pretty(e, indent) + rest;
    assert TextLine(e.text, inner) == "";
    assert Pretty(e, indent) == StartTag(e) + ((((">\n" + "") + all) + indent) + close);
    assert all == ((inner + first) + "\n") + q;
    PrettyReassoc(StartTag(e), all, q, first, inner, indent, close, rest);
    StartTagOf(e, ">" + x);
    ElementContent(s, e.tag, e.attrs, x);
    assert first[..|e.children[0].tag| + 1] == "<" + e.children[0].tag;
    BlankConcat(indent, "\t");
    BlankConcat("\n", inner);
    assert forall k :: 0 <= k < |lead| ==> NotOpen(lead[k]);
    SiblingsReassoc(inner, first, q, indent, close + rest);
    assert all + indent + (close + rest) == inner + (first + more);
    ParseChildrenSkips(inner, first + more);
    ContentOf(e.tag, e.attrs, lead, "", first + more, e.children, rest);
  }

  /** Pretty-printed elements without text read back. */
  lemma {:induction false} ParsePretty(e: Element, indent: string, rest: string)
    requires Writable(e) && NoText(e) && Blank(indent)
    ensures ParseElement(Pretty(e, indent) + rest) == Some((e, rest))
    decreases e, 1
  {
    if |e.children| == 0 {
      assert Pretty(e, indent) == Serialize(e);
      SerializedEmpty(e, rest);
    } else {
      BlankConcat(indent, "\t");
      ParsePrettyAll(e.children, indent + "\t", indent, EndTag(e.tag) + rest);
      PrettyContent(e, indent, rest);
    }
  }

  /** Pretty-printed siblings without text read back, up to the end tag
      that follows the whitespace `indent`. */
  lemma {:induction false} ParsePrettyAll(es: seq<Element>, inner: string, indent: string, rest: string)
    requires forall i :: 0 <= i < |es| ==> Writable(es[i]) && NoText(es[i])
    requires Blank(inner) && Blank(indent)
    requires |rest| >= 2 && rest[..2] == "</"
    ensures ParseChildren(PrettyAll(es, inner) + indent + rest) == Some((es, rest))
    decreases es, 0
  {
    if |es| == 0 {
      assert PrettyAll(es, inner) + indent + rest == indent + rest;
      ParseChildrenSkips(indent, rest);
      ChildrenEnd(rest);
    } else {
      var first := Pretty(es[0], inner);
      var q := PrettyAll(es[1..], inner);
      var more := "\n" + ((q + indent) + rest);
      ParsePretty(es[0], inner, more);
      ParsePrettyAll(es[1..], inner, indent, rest);
      PrettySiblings(es, inner, indent, rest);
    }
  }

  /** The step of `ParsePrettyAll`: the first sibling and the rest, each
      read back, read back together. */
  lemma PrettySiblings(es: seq<Element>, inner: string, indent: string, rest: string)
    requires |es| > 0 && Blank(inner) && IsName(es[0].tag)
    requires ParseElement(Pretty(es[0], inner) + ("\n" + ((PrettyAll(es[1..], inner) + indent) + rest)))
               == Some((es[0], "\n" + ((PrettyAll(es[1..], inner) + indent) + rest)))
    requires ParseChildren(PrettyAll(es[1..], inner) + indent + rest) == Some((es[1..], rest))
    ensures ParseChildren(PrettyAll(es, inner) + indent + rest) == Some((es, rest))
  {
    var first := Pretty(es[0], inner);
    var q := PrettyAll(es[1..], inner);
    var tail := (q + indent) + rest;
    PrettyAllCons(es, inner);
    SiblingsReassoc(inner, first, q, indent, rest);
    OpensElement(first, es[0].tag, "\n" + tail);
    SiblingsRead(inner, first, es[0], es[1..], tail, rest);
    assert [es[0]] + es[1..] == es;
  }

  /** The first of several pretty-printed siblings. */
  lemma PrettyAllCons(es: seq<Element>, inner: string)
    requires |es| > 0
    ensures PrettyAll(es, inner) == ((inner + Pretty(es[0], inner)) + "\n") + PrettyAll(es[1..], inner)
  {
  }

  /** An element and the siblings after its line break, behind blank
      `inner`, read back as one list of children. */
  lemma SiblingsRead(inner: string, first: string, e: Element, es: seq<Element>, tail: string, rest: string)
    requires Blank(inner)
    requires var s := first + ("\n" + tail); |s| >= 2 && s[0] == '<' && s[1] != '/'
    requires ParseElement(first + ("\n" + tail)) == Some((e, "\n" + tail))
    requires ParseChildren(tail) == Some((es, rest))
    ensures ParseChildren(inner + (first + ("\n" + tail))) == Some(([e] + es, rest))
  {
    NewlineBlank();
    ParseChildrenSkips("\n", tail);
    ChildrenCons(first + ("\n" + tail), e, "\n" + tail, es, rest);
    ParseChildrenSkips(inner, first + ("\n" + tail));
  }

  /** A declaration is skipped whole. */
  lemma SkipDeclarationOf(d: string, s: string)
    requires IsDeclaration(d)
    ensures SkipDeclaration(d + s) == Some(s)
  {
    var x := d + s;
    var n := |d| - 1;
    assert x[..2] == d[..2];
    assert d[n] == '>' && d[n - 1] == '?' by {
      assert d[|d| - 2..][1] == '>' && d[|d| - 2..][0] == '?';
    }
    assert d[..n] + ([d[n]] + s) == x;
    SpanOf(d[..n], [d[n]] + s, NotClose);
  }

  /** A document written compactly after a declaration reads back as its
      root element. */
  lemma CompactDocumentReadsBack(declaration: string, root: Element)
    requires IsDeclaration(declaration) && Writable(root)
    ensures ParseDocument(declaration + Serialize(root)) == Some(root)
  {
    var s := Serialize(root);
    SkipDeclarationOf(declaration, s);
    OpensElement(s, root.tag, "");
    assert s + "" == s && "" + s == s;
    SpanOf("", s, IsSpace);
    ParseSerialized(root, "");
  }

  /** Regrouping of a pretty document. */
  lemma DocumentReassoc(d: string, p: string)
    ensures ((d + "\n") + p) + "\n" == d + ("\n" + (p + "\n"))
  {
  }

  /** A pretty-printed document without text reads back as its root
      element. */
  lemma PrettyDocumentReadsBack(declaration: string, root: Element)
    requires IsDeclaration(declaration) && Writable(root) && NoText(root)
    ensures ParseDocument(PrettyDocument(declaration, root)) == Some(root)
  {
    var p := Pretty(root, "");
    var t := "\n" + (p + "\n");
    DocumentReassoc(declaration, p);
    SkipDeclarationOf(declaration, t);
    OpensElement(p, root.tag, "\n");
    SpanOf("\n", p + "\n", IsSpace);
    ParsePretty(root, "", "\n");
    NewlineBlank();
  }

  lemma NewlineBlank()
    ensures Blank("\n")
  {
    assert "\n"[0] == '\n';
  }

}
